=== FILE: README.md ===
# spigot-utils command and manifest core, modelled in Dafny

spigot-utils lets a Spigot (Minecraft server) plugin declare its commands and its
`plugin.yml` with Java annotations. This project models, as pure Dafny functions over
immutable data, the three parts that do the work, and proves properties about them:

- **`CommandUtils`** (`command_utils.dfy`). It turns a handler method's parameter
  annotations (`@CommandOption`, `@CommandParameter`) into an argument grammar
  (`getArgumentParser`). It also covers the supported-type test (`isSupportedType`), the
  conversion of positional default values (`convertDefaultValue`), and the list of
  `@Command`s a method carries (`getMethodCommands`).
- **`CommandExecutor`** (`command_executor.dfy`, with the proofs in
  `dispatch_properties.dfy`). `onCommand` walks every method's entries in order. It parses
  the arguments and obtains or creates the method's owner instance (`getMethodOwner`). It
  binds the parsed values to the parameters (`getMethodParameters`) and invokes the
  handler. Help requests, parse failures and logged failures let the loop go on. The
  grammars are built lazily, one method at a time (`getParserForCommand` inside a lazily
  transformed map).
- **`PluginGenerator`** (`plugin_generator.dfy`). The annotation processor builds the
  `plugin.yml` document (`process`) from `@Plugin` and its permissions
  (`processPermissions`, `processPermission`). It also builds the `commands` section from
  every `@Command` / `@Command.List` element (`processCommands`, `processCommand`,
  `getParamAnnotations`, `getParamFlags`).

Supporting modules:

- `Wrappers`: `Option` and `Result`.
- `Seqs`: de-duplication in first-seen order, and `Collectors.joining`.
- `OrderedMaps`: `LinkedHashMap` as a sequence of pairs. `put` keeps an existing key in
  place, and a chain of conditional puts is modelled as a list of `Field`s.
- `JavaLang`: Java types, and `Integer`/`Long`/`Boolean` parsing from strings.
- `Annotations`: the annotation records with their defaults.

The YAML document is a tree of `Node`s. Map nodes keep insertion order.

What the environment decides is passed in as a parameter, never computed:
- how argparse4j matches tokens against a grammar (`Host.parse`, `Host.formatHelp`, and the
  processor's `formatUsage`);
- what `Class.newInstance` does for a class (`Host.instantiate`): it makes an instance, fails
  with `InstantiationException`/`IllegalAccessException`, or its constructor throws;
- what `Method.invoke` does (`Host.invoke`);
- the elements the compiler reports.

## Model

| member | source | states |
|---|---|---|
| Annotations.Declare | src/main/java/com/ivan1pl/spigot/annotations/Command.java:14-61 | definition of how the compiler stores a repeatable `@Command` (once: direct; several times: one `Command.List`); its partner `CommandUtils.MethodCommandsOfDeclare` reads every shape back in order |
| Annotations.CommandNamed | src/main/java/com/ivan1pl/spigot/annotations/Command.java:22-43 | a `@Command` given only its name has no aliases and empty description, permission and permission message |
| Annotations.Parameter | src/main/java/com/ivan1pl/spigot/annotations/CommandParameter.java:22-37 | a `@CommandParameter` given only its name is mandatory, with empty default and description |
| Annotations.PermissionDefaultName | src/main/java/com/ivan1pl/spigot/annotations/PermissionDefault.java:10-41 | `getName` is empty exactly for `DEFAULT` |
| Annotations.PermissionDefaultNameInjective | src/main/java/com/ivan1pl/spigot/annotations/PermissionDefault.java:10-41 | different permission defaults have different names |
| Annotations.LoadStageName | src/main/java/com/ivan1pl/spigot/annotations/LoadStage.java:10-15 | `name()` of a load stage is `STARTUP` or `POSTWORLD`, and `STARTUP` exactly for the first constant |
| JavaLang.SupportedTypesAreTheSeven | src/main/java/com/ivan1pl/spigot/utils/CommandUtils.java:158-161 | `isSupportedType` holds for exactly boolean, Boolean, int, Integer, long, Long and String, and none of them takes the sender |
| JavaLang.ParseDecimal | src/main/java/com/ivan1pl/spigot/utils/CommandUtils.java:152 | `new Integer(s)` / `new Long(s)`: parses exactly when `s` is an optional sign followed by at least one decimal digit whose value is in the type's range, and then gives that value; nothing for the empty string |
| JavaLang.ParseDecimalAcceptsNonCanonical | src/main/java/com/ivan1pl/spigot/utils/CommandUtils.java:152 | a leading plus sign, leading zeros and a negative zero are accepted: "+7" and "007" give 7, "-0" gives 0 |
| JavaLang.DigitsRoundTrip | src/main/java/com/ivan1pl/spigot/utils/CommandUtils.java:152 | reading back the decimal digits of a natural number gives the number |
| JavaLang.DecimalRoundTrip | src/main/java/com/ivan1pl/spigot/utils/CommandUtils.java:152 | every in-range number printed in decimal parses back to itself |
| JavaLang.ParseBoolean | src/main/java/com/ivan1pl/spigot/utils/CommandUtils.java:152 | `new Boolean(s)` is true exactly for "true" in any letter case |
| CommandUtils.MethodCommands | src/main/java/com/ivan1pl/spigot/utils/CommandUtils.java:43-54 | the direct `@Command` first, then the list's commands in order; the length is the sum of both |
| CommandUtils.MethodCommandsOfDeclare | src/main/java/com/ivan1pl/spigot/utils/CommandUtils.java:43-54 | however many times `@Command` is written on a method, `getMethodCommands` gives them back in the order written |
| CommandUtils.OptionSpellings | src/main/java/com/ivan1pl/spigot/utils/CommandUtils.java:90-104 | an option is unspellable exactly when it has no long name and no letter-or-digit short name; otherwise the short spelling comes first and the long one last |
| CommandUtils.OptionSpellingsRoundTrip | src/main/java/com/ivan1pl/spigot/utils/CommandUtils.java:90-101 | the long and short names can be read back from the spellings |
| CommandUtils.DefaultOptionHasNoSpelling | src/main/java/com/ivan1pl/spigot/annotations/CommandOption.java:26-31 | an option left at its defaults has no spelling, so building its grammar fails |
| CommandUtils.ConvertDefaultValue | src/main/java/com/ivan1pl/spigot/utils/CommandUtils.java:139-156 | booleans become `Boolean(s)`; ints and longs become the parsed number exactly when `s` parses within range, and otherwise the string itself; strings stay strings |
| CommandUtils.PrimitivesConvertAsWrappers | src/main/java/com/ivan1pl/spigot/utils/CommandUtils.java:141-149 | a primitive type converts exactly as its wrapper class |
| CommandUtils.ConvertDefaultValueRoundTrip | src/main/java/com/ivan1pl/spigot/utils/CommandUtils.java:139-156 | an in-range number written in decimal converts to that number |
| CommandUtils.OptionArgFor | src/main/java/com/ivan1pl/spigot/utils/CommandUtils.java:88-117 | fails with the missing-name error exactly for an unspellable option; a flag stores true; otherwise it stores a value with the declared type, and the raw default exactly when one is given |
| CommandUtils.PositionalArgFor | src/main/java/com/ivan1pl/spigot/utils/CommandUtils.java:118-130 | the positional takes the parameter's name and help, takes zero or one token exactly when optional, and gets the converted default exactly when a default and a type are both known |
| CommandUtils.AnnotationsArgs | src/main/java/com/ivan1pl/spigot/utils/CommandUtils.java:86-132 | succeeds exactly when every annotation is accepted, failing otherwise with the missing-name error; the result is then exactly `DeclaredArgs`: one argument per option or parameter annotation, in annotation order, and no help switch |
| CommandUtils.DeclaredArgsOnePerAnnotation | src/main/java/com/ivan1pl/spigot/utils/CommandUtils.java:86-132 | when every annotation is accepted, each `@CommandOption` and each `@CommandParameter` adds exactly one argument and any other annotation adds none |
| CommandUtils.ParamArgs | src/main/java/com/ivan1pl/spigot/utils/CommandUtils.java:81-133 | a known type that is neither supported nor sender-assignable fails with its canonical name; a sender slot contributes nothing; otherwise it succeeds exactly when its annotations are accepted, with exactly the `DeclaredArgs` of its annotations |
| CommandUtils.ParamsArgs | src/main/java/com/ivan1pl/spigot/utils/CommandUtils.java:80-134 | succeeds exactly when every parameter from `i` on is accepted, and the arguments are then exactly `DeclaredParamArgs`: each parameter's declared arguments, in parameter order; otherwise it fails with the first rejected parameter's error |
| CommandUtils.ParamsArgsContainEachParam | src/main/java/com/ivan1pl/spigot/utils/CommandUtils.java:80-134 | when the loop from `i` succeeds, every parameter from `i` on was accepted and each of its arguments is in the grammar |
| CommandUtils.BuildGrammar | src/main/java/com/ivan1pl/spigot/utils/CommandUtils.java:73-137 | succeeds exactly when every parameter is accepted; the program is "/" + command with the given description; the arguments are exactly the help switch followed by `DeclaredParamArgs` of all parameters; a failure carries the error of the first rejected parameter in parameter order; with unknown types the only failure is the missing option name |
| CommandUtils.ParamsPositionals | src/main/java/com/ivan1pl/spigot/utils/CommandUtils.java:118-130 | the positionals of the collected arguments are the declared `@CommandParameter`s of the contributing parameters, in order |
| CommandUtils.GrammarPositionalsFollowDeclarations | src/main/java/com/ivan1pl/spigot/utils/CommandUtils.java:80-134 | a built grammar's positionals are the declared parameters in declaration order, each with its optional flag |
| CommandExecutor.ParamFlags | src/main/java/com/ivan1pl/spigot/utils/CommandExecutor.java:126-129 | definition: a parameter is a flag exactly when its type is boolean or Boolean; `CommandExecutor.ParserForCommand` passes these flags to the grammar builder, and `PluginGenerator.FlagsAgreeWithExecutor` relates them to the processor's test |
| CommandExecutor.ParserForCommand | src/main/java/com/ivan1pl/spigot/utils/CommandExecutor.java:122-134 | the internal error comes exactly when the type and annotation counts differ; otherwise it is the grammar built from the method's types, annotations and flags |
| CommandExecutor.Entries | src/main/java/com/ivan1pl/spigot/utils/CommandExecutor.java:28-31 | one entry per `getMethodCommands` command, named after it and holding its grammar; it succeeds exactly when every grammar can be built, and otherwise fails with the error of the first command, in `getMethodCommands` order, whose grammar cannot be built |
| CommandExecutor.EntriesOf | src/main/java/com/ivan1pl/spigot/utils/CommandExecutor.java:29-31 | the entries of a list of commands, in order, failing exactly when some grammar cannot be built, and then with the first such command's error |
| CommandExecutor.GetMethodOwner | src/main/java/com/ivan1pl/spigot/utils/CommandExecutor.java:66-74 | a cached owner is reused; otherwise it succeeds exactly when `newInstance` makes an instance, and fails with the class's `InstantiationException` or with its constructor's exception otherwise; on success the cache maps the class to the returned owner and keeps every other class |
| CommandExecutor.OptionKey | src/main/java/com/ivan1pl/spigot/utils/CommandExecutor.java:87-93 | an option is read back under its long name, else its short name, and under no name exactly when it is unspellable |
| CommandExecutor.KeyLoop | src/main/java/com/ivan1pl/spigot/utils/CommandExecutor.java:84-98 | the binder's loop leaves the key of the last option or parameter annotation, or the initial value when there is none |
| CommandExecutor.BindingKey | src/main/java/com/ivan1pl/spigot/utils/CommandExecutor.java:84-98 | a parameter is looked up under the key of its last relevant annotation |
| CommandExecutor.Fetch | src/main/java/com/ivan1pl/spigot/utils/CommandExecutor.java:100-110 | definition of a typed namespace getter (null for a missing key, the value when its kind matches, a cast failure otherwise); its partner is `CommandExecutor.Bind`, whose contract states what binding yields |
| CommandExecutor.BindSlot | src/main/java/com/ivan1pl/spigot/utils/CommandExecutor.java:80-117 | a sender-assignable parameter gets the sender; an unsupported one throws with its name; a supported one gets null without a key, else the typed value |
| CommandExecutor.BindFrom | src/main/java/com/ivan1pl/spigot/utils/CommandExecutor.java:80-118 | binding from parameter `i` on succeeds exactly when every slot binds; on failure it reports the error of the first slot from `i` that does not bind (`FirstUnbindable`) |
| CommandExecutor.Bind | src/main/java/com/ivan1pl/spigot/utils/CommandExecutor.java:76-120 | one argument per parameter: the sender for sender slots, null for unannotated or absent keys, else the parsed value; on failure, the error of the first parameter that does not bind |
| CommandExecutor.BindingKeyMatchesGrammar | src/main/java/com/ivan1pl/spigot/utils/CommandExecutor.java:87-96 | the binder looks each annotated parameter up under the very name its grammar argument declares |
| CommandExecutor.LogSevere | src/main/java/com/ivan1pl/spigot/utils/CommandExecutor.java:53-58 | logging adds exactly one SEVERE line and changes nothing else |
| CommandExecutor.Invoke | src/main/java/com/ivan1pl/spigot/utils/CommandExecutor.java:44-59 | the loop stops exactly when the call completes or its arguments are rejected; handler and access failures are logged as at most one SEVERE line and the loop continues |
| CommandExecutor.AfterParse | src/main/java/com/ivan1pl/spigot/utils/CommandExecutor.java:42-59 | after a parse, the owner cache only grows and keeps which classes are available; the help flag is unchanged; at most one line is added, and it is SEVERE |
| CommandExecutor.TryCandidate | src/main/java/com/ivan1pl/spigot/utils/CommandExecutor.java:39-60 | entries for other commands and parse failures change nothing; a help request adds the help text and sets the flag; the loop only stops with `true` or an exception |
| CommandExecutor.RunCandidates | src/main/java/com/ivan1pl/spigot/utils/CommandExecutor.java:38-61 | running a list of entries only grows the cache, keeps availability and extends the output |
| CommandExecutor.CandidatesOf | src/main/java/com/ivan1pl/spigot/utils/CommandExecutor.java:38 | definition: a method's entries paired with the method, in order; the loop properties (`DispatchProperties.RunStopsIffSomeEntryEnds`, `DispatchProperties.OnCommandResult`) are stated over these pairs |
| CommandExecutor.RunMethods | src/main/java/com/ivan1pl/spigot/utils/CommandExecutor.java:37-62 | the method loop stops only with `true` or an exception, only grows the cache and extends the output |
| CommandExecutor.OnCommand | src/main/java/com/ivan1pl/spigot/utils/CommandExecutor.java:34-64 | definition: the result is the stopping step's outcome, or else the help flag; its partner `DispatchProperties.OnCommandResult` characterises that result from the entries alone |
| DispatchProperties.TryCandidateStops | src/main/java/com/ivan1pl/spigot/utils/CommandExecutor.java:39-59 | an entry stops the loop exactly when it `Ends`, returns `true` exactly when it `Handles`, and sets the help flag exactly when it asks for help |
| DispatchProperties.OwnerFailureOutcomes | src/main/java/com/ivan1pl/spigot/utils/CommandExecutor.java:42-74 | for a matching, parsed entry whose class has no owner yet: an `InstantiationException`/`IllegalAccessException` adds one SEVERE line and the loop goes on; a throwing constructor ends `onCommand` with that exception and no output |
| DispatchProperties.TryCandidateHelpTexts | src/main/java/com/ivan1pl/spigot/utils/CommandExecutor.java:39-59 | an entry that lets the loop go on sends its help text exactly when it asks for help, and no other help |
| DispatchProperties.RunHelpTexts | src/main/java/com/ivan1pl/spigot/utils/CommandExecutor.java:37-63 | a loop that runs to the end has sent the help of every entry that asked for it, in entry order, and no other help |
| DispatchProperties.SameAvailabilitySameVerdict | src/main/java/com/ivan1pl/spigot/utils/CommandExecutor.java:66-74 | an entry's verdict depends on the owner cache only through which classes are available |
| DispatchProperties.RunStopsIffSomeEntryEnds | src/main/java/com/ivan1pl/spigot/utils/CommandExecutor.java:38-61 | the entry loop stops exactly when some entry `Ends` |
| DispatchProperties.FirstEndingHandlesCons | src/main/java/com/ivan1pl/spigot/utils/CommandExecutor.java:38-45 | the first ending entry handles the call when the head handles it, or when the head does not end and the first ending entry of the rest handles it |
| DispatchProperties.FirstEndingHandlesOwners | src/main/java/com/ivan1pl/spigot/utils/CommandExecutor.java:66-74 | caches with the same available classes agree on which entry handles the call |
| DispatchProperties.RunHandledIffFirstEndingHandles | src/main/java/com/ivan1pl/spigot/utils/CommandExecutor.java:38-45 | the entry loop returns `true` exactly when the first entry that ends it handles the call |
| DispatchProperties.RunExhaustedHelpFlag | src/main/java/com/ivan1pl/spigot/utils/CommandExecutor.java:46-50 | when the loop runs out, the help flag is set exactly when it was already set or some entry for the command asked for help |
| DispatchProperties.Matching | src/main/java/com/ivan1pl/spigot/utils/CommandExecutor.java:39 | the entries kept are exactly those for the invoked command |
| DispatchProperties.OnlyMatchingEntriesMatter | src/main/java/com/ivan1pl/spigot/utils/CommandExecutor.java:39 | entries for other commands can be dropped without changing the run |
| DispatchProperties.RunAppend | src/main/java/com/ivan1pl/spigot/utils/CommandExecutor.java:37-62 | running two entry lists one after the other is running the first, then the second unless the first stopped |
| DispatchProperties.RunMethodsIsFlatRun | src/main/java/com/ivan1pl/spigot/utils/CommandExecutor.java:37-62 | when every grammar can be built, the nested method and entry loops equal one loop over all entries in order |
| DispatchProperties.RunVerdict | src/main/java/com/ivan1pl/spigot/utils/CommandExecutor.java:36-63 | `true` exactly when the first ending entry handles the call, or no entry ends and one asked for help; `false` exactly when no entry ends and none asked for help |
| DispatchProperties.OnCommandResult | src/main/java/com/ivan1pl/spigot/utils/CommandExecutor.java:34-64 | the same two characterisations for `onCommand` itself |
| DispatchProperties.UnknownCommandReturnsFalse | src/main/java/com/ivan1pl/spigot/utils/CommandExecutor.java:36-63 | a command no entry serves returns `false`, with no output and the cache unchanged |
| DispatchProperties.BrokenMethodEscapes | src/main/java/com/ivan1pl/spigot/utils/CommandExecutor.java:28-31 | a method whose grammar cannot be built makes `onCommand` throw once the loop reaches it, even for another command |
| DispatchProperties.RunMethodsPrefix | src/main/java/com/ivan1pl/spigot/utils/CommandExecutor.java:37-62 | after the first `i` methods ran without stopping, the loop carries on with method `i` from the resulting state |
| PluginGenerator.Children | src/main/java/com/ivan1pl/spigot/utils/PluginGenerator.java:132-135 | the `children` map is empty exactly when the permission has no children |
| PluginGenerator.ChildrenLastWins | src/main/java/com/ivan1pl/spigot/utils/PluginGenerator.java:132-135 | a child node is absent exactly when never declared; otherwise it holds the `inherit` flag of its last declaration |
| PluginGenerator.PermissionFields | src/main/java/com/ivan1pl/spigot/utils/PluginGenerator.java:121-141 | a permission entry has three candidate keys, distinct: description, default, children |
| PluginGenerator.ProcessPermission | src/main/java/com/ivan1pl/spigot/utils/PluginGenerator.java:121-141 | `description` exactly when non-empty; `default` exactly when not `DEFAULT`, holding its name; `children` exactly when some are declared; the entry is non-empty exactly when the permission is listed |
| PluginGenerator.PermissionKeyOrder | src/main/java/com/ivan1pl/spigot/utils/PluginGenerator.java:121-141 | the entry's keys are exactly the present ones, in the order description, default, children |
| PluginGenerator.ProcessPermissions | src/main/java/com/ivan1pl/spigot/utils/PluginGenerator.java:107-119 | null exactly for an empty array; otherwise a map that is empty exactly when no permission is listed |
| PluginGenerator.PermissionsLastWins | src/main/java/com/ivan1pl/spigot/utils/PluginGenerator.java:111-117 | a node is absent exactly when no listed permission has it; otherwise it holds the entry of the last listed permission with that node |
| PluginGenerator.PermissionNodes | src/main/java/com/ivan1pl/spigot/utils/PluginGenerator.java:111-117 | the nodes appear once each, in the order listed permissions first name them |
| PluginGenerator.ParamAnnotations | src/main/java/com/ivan1pl/spigot/utils/PluginGenerator.java:218-236 | a parameter's annotations are its option, then its positional, with nothing for neither |
| PluginGenerator.AnnotationsOf | src/main/java/com/ivan1pl/spigot/utils/PluginGenerator.java:218-236 | definition: one annotation array per parameter, in order; `PluginGenerator.Compile` builds the grammar from it, and `PluginGenerator.AcceptedIffSpelled` states when that grammar accepts a parameter |
| PluginGenerator.FlagsOf | src/main/java/com/ivan1pl/spigot/utils/PluginGenerator.java:238-255 | one flag per parameter, set exactly when the declared type is `boolean` or `Boolean` (the primitive, directly or after unboxing, is `BOOLEAN`) |
| PluginGenerator.PrimitiveOf | src/main/java/com/ivan1pl/spigot/utils/PluginGenerator.java:241-251 | a declared type has a primitive, directly or by unboxing, exactly when it is one of the six boolean, int and long types; `String` and other classes have none |
| PluginGenerator.FlagsAgreeWithExecutor | src/main/java/com/ivan1pl/spigot/utils/PluginGenerator.java:238-255 | the processor's unboxing test gives the same flags as the executor's `boolean`/`Boolean` test (`CommandExecutor.ParamFlags`) on the same declared types |
| PluginGenerator.AcceptedIffSpelled | src/main/java/com/ivan1pl/spigot/utils/PluginGenerator.java:218-236 | the grammar builder accepts a parameter's annotations exactly when its option, if any, has a spelling |
| PluginGenerator.DirectVariants | src/main/java/com/ivan1pl/spigot/utils/PluginGenerator.java:145-156 | the variants from `@Command` elements are exactly each element's direct command with its signature |
| PluginGenerator.ListedVariants | src/main/java/com/ivan1pl/spigot/utils/PluginGenerator.java:157-169 | the variants from `@Command.List` elements are exactly each listed command with its element's signature |
| PluginGenerator.ListedOf | src/main/java/com/ivan1pl/spigot/utils/PluginGenerator.java:157-169 | one element's listed variants are exactly its `Command.List` commands with its signature |
| PluginGenerator.Variants | src/main/java/com/ivan1pl/spigot/utils/PluginGenerator.java:145-169 | the variants are exactly the commands each element carries, paired with its signature |
| PluginGenerator.Filter | src/main/java/com/ivan1pl/spigot/utils/PluginGenerator.java:147-155 | a command's group holds exactly the variants with that name |
| PluginGenerator.Group | src/main/java/com/ivan1pl/spigot/utils/PluginGenerator.java:144-169 | `computeIfAbsent(...).add` gives one group per name, in first-seen order, each holding that name's variants |
| PluginGenerator.GroupStep | src/main/java/com/ivan1pl/spigot/utils/PluginGenerator.java:147-148 | adding a variant to its name's group keeps the grouping invariant |
| PluginGenerator.MergedDescriptionText | src/main/java/com/ivan1pl/spigot/utils/PluginGenerator.java:188-191 | the joined description is non-empty exactly when some variant has a description |
| PluginGenerator.CommandFields | src/main/java/com/ivan1pl/spigot/utils/PluginGenerator.java:188-214 | the five candidate keys of a command entry, distinct and in `processCommand` order |
| PluginGenerator.ProcessCommand | src/main/java/com/ivan1pl/spigot/utils/PluginGenerator.java:184-216 | null exactly for an empty group; otherwise a well-formed, non-empty entry |
| PluginGenerator.DescribedIffSomeDescription | src/main/java/com/ivan1pl/spigot/utils/PluginGenerator.java:188-192 | some description survives the empty-string filter exactly when some variant has a description |
| PluginGenerator.MergedCommandEntries | src/main/java/com/ivan1pl/spigot/utils/PluginGenerator.java:192-214 | the joined descriptions when some exist; the alias set when non-empty; the permission when all agree and it is non-empty; the message only with that permission and when all agree; the joined usages always |
| PluginGenerator.CommandFieldsPresence | src/main/java/com/ivan1pl/spigot/utils/PluginGenerator.java:202-214 | when each of the five keys is put, in terms of the variants |
| PluginGenerator.CommandKeyOrder | src/main/java/com/ivan1pl/spigot/utils/PluginGenerator.java:201-215 | the entry's keys are exactly the present ones, in the order description, aliases, permission, permission-message, usage |
| PluginGenerator.MergedTextsContainEachVariant | src/main/java/com/ivan1pl/spigot/utils/PluginGenerator.java:188-199 | every non-empty description and every usage line of a variant occurs in the merged text |
| PluginGenerator.SingleVariantKeepsItsText | src/main/java/com/ivan1pl/spigot/utils/PluginGenerator.java:188-214 | a command with one variant keeps that variant's description, usage and permission unchanged |
| PluginGenerator.Compile | src/main/java/com/ivan1pl/spigot/utils/PluginGenerator.java:170-171 | compiling with unknown types succeeds exactly when every option is spelled, fails only with the missing-name error, and names the program "/" + command |
| PluginGenerator.Compiled | src/main/java/com/ivan1pl/spigot/utils/PluginGenerator.java:170-171 | definition: each variant of a group paired with its grammar's usage line, in order; its partner `PluginGenerator.CommandsMapLookup` states what the `commands` entry built from it holds |
| PluginGenerator.CommandsMapKeys | src/main/java/com/ivan1pl/spigot/utils/PluginGenerator.java:173-181 | the commands map's keys are the command names, once each, in first-seen order, and there are none exactly when there are no variants |
| PluginGenerator.CommandsMap | src/main/java/com/ivan1pl/spigot/utils/PluginGenerator.java:173-181 | the command names appear once each, in first-seen order; the map is empty exactly when there are no variants |
| PluginGenerator.CommandsMapLookup | src/main/java/com/ivan1pl/spigot/utils/PluginGenerator.java:175-180 | every command name maps to the merge of all its variants |
| PluginGenerator.ProcessCommands | src/main/java/com/ivan1pl/spigot/utils/PluginGenerator.java:143-182 | fails exactly when some variant does not compile; null exactly when there are no variants; otherwise the non-empty commands map |
| PluginGenerator.ProcessVariants | src/main/java/com/ivan1pl/spigot/utils/PluginGenerator.java:170-181 | the same, for the variants in visiting order |
| PluginGenerator.ManifestFields | src/main/java/com/ivan1pl/spigot/utils/PluginGenerator.java:43-82 | the fifteen candidate keys of `plugin.yml`, in the order `process` puts them |
| PluginGenerator.ManifestKeys | src/main/java/com/ivan1pl/spigot/utils/PluginGenerator.java:43-82 | the candidate keys are distinct |
| PluginGenerator.Process | src/main/java/com/ivan1pl/spigot/utils/PluginGenerator.java:34-82 | no document unless exactly one element carries `@Plugin`; with one, it fails exactly when some command does not compile, and otherwise builds the manifest |
| PluginGenerator.Manifest | src/main/java/com/ivan1pl/spigot/utils/PluginGenerator.java:35-82 | the manifest is a well-formed insertion-ordered map |
| PluginGenerator.ManifestHeader | src/main/java/com/ivan1pl/spigot/utils/PluginGenerator.java:43-52 | main, name, version and load are always present; description and api-version only when non-empty |
| PluginGenerator.ManifestCredits | src/main/java/com/ivan1pl/spigot/utils/PluginGenerator.java:53-72 | `author` for exactly one author; `authors` for several; website, depend, prefix, softdepend and loadbefore only when non-empty |
| PluginGenerator.ManifestSections | src/main/java/com/ivan1pl/spigot/utils/PluginGenerator.java:74-82 | `permissions` exactly when some permission is listed; `commands` exactly when the commands map has entries |
| PluginGenerator.ManifestKeyOrder | src/main/java/com/ivan1pl/spigot/utils/PluginGenerator.java:35-82 | the manifest's keys are exactly the present ones, in `process` order |
| PluginGenerator.HeaderKeys | src/main/java/com/ivan1pl/spigot/utils/PluginGenerator.java:43-52 | the plugin's own keys present, in order |
| PluginGenerator.CreditKeys | src/main/java/com/ivan1pl/spigot/utils/PluginGenerator.java:53-72 | the credit keys present, in order |
| PluginGenerator.SectionKeys | src/main/java/com/ivan1pl/spigot/utils/PluginGenerator.java:74-82 | the section keys present, in order |
| OrderedMaps.Put | src/main/java/com/ivan1pl/spigot/utils/PluginGenerator.java:115 | `LinkedHashMap.put`: a new key goes last, an existing key keeps its place and takes the new value, and other keys are untouched |
| OrderedMaps.FromPairsEmptyIff | src/main/java/com/ivan1pl/spigot/utils/PluginGenerator.java:111-117 | a map built by puts is empty exactly when nothing was put |
| OrderedMaps.Get | src/main/java/com/ivan1pl/spigot/utils/PluginGenerator.java:175-180 | a lookup misses exactly for an absent key, and a hit returns a value stored under that key |
| OrderedMaps.FromPairsKeys | src/main/java/com/ivan1pl/spigot/utils/PluginGenerator.java:111-117 | successive puts leave each key once, in first-put order |
| OrderedMaps.FromPairsLastWins | src/main/java/com/ivan1pl/spigot/utils/PluginGenerator.java:111-117 | after successive puts, a key holds the value of its last put, and is absent exactly when never put |
| OrderedMaps.FromPairsFilterMap | src/main/java/com/ivan1pl/spigot/utils/PluginGenerator.java:112-117 | putting only the kept elements: a key holds the last kept element's value |
| OrderedMaps.FilterMapLookup | src/main/java/com/ivan1pl/spigot/utils/PluginGenerator.java:175-180 | with distinct keys, each element's key holds its value exactly when it is kept |
| OrderedMaps.FieldLookup | src/main/java/com/ivan1pl/spigot/utils/PluginGenerator.java:201-214 | a chain of conditional puts of distinct keys holds each key's value exactly when its condition holds |
| OrderedMaps.Fields | src/main/java/com/ivan1pl/spigot/utils/PluginGenerator.java:201-214 | a chain of conditional puts is a well-formed map, empty exactly when no condition holds |
| OrderedMaps.FieldsKeys | src/main/java/com/ivan1pl/spigot/utils/PluginGenerator.java:201-214 | the keys of such a chain are the present ones, in order |
| Seqs.Dedupe | src/main/java/com/ivan1pl/spigot/utils/PluginGenerator.java:147 | the distinct elements, each once |
| Seqs.DedupeFirstSeenOrder | src/main/java/com/ivan1pl/spigot/utils/PluginGenerator.java:147 | de-duplicated elements keep the order in which they are first seen |
| Seqs.DedupeDistinct | src/main/java/com/ivan1pl/spigot/utils/PluginGenerator.java:147 | de-duplicating a list that has no repeats leaves it unchanged |
| Seqs.Join | src/main/java/com/ivan1pl/spigot/utils/PluginGenerator.java:188-191 | `Collectors.joining`: the first part starts the result, whose length is the parts' lengths plus one separator between each two |
| Seqs.JoinEmptyIff | src/main/java/com/ivan1pl/spigot/utils/PluginGenerator.java:188-191 | a join is empty exactly when there are no parts or a single empty one |
| Seqs.JoinContainsEachPart | src/main/java/com/ivan1pl/spigot/utils/PluginGenerator.java:188-199 | every part occurs in the joined string |
| Seqs.NonEmpty | src/main/java/com/ivan1pl/spigot/utils/PluginGenerator.java:190 | exactly the non-empty strings are kept |
| Seqs.NonEmptyAppend | src/main/java/com/ivan1pl/spigot/utils/PluginGenerator.java:190 | the filter keeps order: it distributes over concatenation, and keeps a single string exactly when it is non-empty |

## Left out

- The YAML serialisation and the `Filer` write of `plugin.yml` (PluginGenerator.java:84-104) are not modelled, and neither is `process`'s `false` on a write error. `Process` returns the document that would be written.
- Reflection and classpath scanning (`getCommandMethods`, `initCommands`, `Reflections`, `setExecutor`) are left out. The executor receives its methods as a sequence.
- The annotation processor's element discovery (`getElementsAnnotatedWith`) returns a set in the compiler's order. The model takes the elements as a sequence in that order, and assumes the `@Command` and `@Command.List` queries list elements in the same relative order.
- argparse4j is not modelled. Token matching, help text and usage formatting are the parameters `Host.parse`, `Host.formatHelp` and `formatUsage`. A grammar with two arguments of the same name, which argparse4j rejects when it is built, is not detected.
- `Method.invoke` and `Class.newInstance` are parameters (`Host.invoke`, `Host.instantiate`), each with its outcomes spelt out. A constructor that throws is one of them: `newInstance` rethrows its exception unchecked, and it leaves `onCommand`. Which exception it is is not modelled, only the class. The receiver instance is not passed to `Host.invoke`.
- The sources of `@Plugin`, `@Permission` and `@ChildPermission` are not part of this model. `Annotations` declares records for them that carry exactly the members `PluginGenerator` reads, with the types it reads them at. The default values those annotation members declare are not modelled: every field is given explicitly.
- The alias list is built from a `HashSet`, whose iteration order Java does not fix. It is modelled as a set node (`Unordered`).
- Concurrency, logging levels and exception stack traces are left out. A logged failure is one `Severe` line with its message.
- JavaLang.IsLetterOrDigit: `Character.isLetterOrDigit` is restricted to ASCII letters and digits, because Unicode categories are out of scope.
- JavaLang.ParseDecimal: only ASCII digits are accepted, whereas `Integer.parseInt` also accepts other Unicode decimal digits.
- JavaLang.ParseBoolean: case folding is ASCII only, whereas `equalsIgnoreCase` also folds other letters.
- PluginGenerator.PrimitiveOf: a parameter type outside the seven supported types is given no primitive kind. `double`, `Short` and the like do have one, but it is never `BOOLEAN`, so the flags are unaffected. `unboxedType` is computed from the declared type, not asked of the compiler.
- CommandUtils.ConvertDefaultValue: it is only defined for supported types, the only ones `getArgumentParser` passes it. The reflective fallback for other classes is not modelled.
- PluginGenerator.UsageOf: a variant whose grammar cannot be built has the empty usage line. `processCommands` has already failed by then, so this value is never observed.
- PluginGenerator.Variants: it states which variants exist; their visiting order (all `@Command` elements, then all `@Command.List` elements) is fixed by its definition and used through `Group`.
- The declaration order of elements inside one `Command.List` is the order written, as `Annotations.Declare` states. Java's compiler guarantees this.

### Behaviour worth knowing

- A handler that throws (`InvocationTargetException`), or an owner class that cannot be instantiated or accessed, is logged as SEVERE and the loop goes on to the next entry (CommandExecutor.java:53-59). `CommandExecutor.Invoke` and `DispatchProperties.OwnerFailureOutcomes` state this.
- When no entry handles the command, `onCommand` returns `displayingHelp`: `true` if some entry showed its help, else `false` (CommandExecutor.java:63). `DispatchProperties.OnCommandResult` states this.
- `getArgumentParser` adds positional parameters in parameter order, whatever their `optional` flags (CommandUtils.java:118-130), so an optional positional may be followed by a required one.
- Every parameter whose type the sender can be assigned to receives the sender (CommandExecutor.java:81-82). `CommandExecutor.Bind` states this.
- `@CommandOption` defaults are set on the grammar as the raw string (CommandUtils.java:111,115). Only `@CommandParameter` defaults go through `convertDefaultValue` (CommandUtils.java:128-129).

=== FILE: annotations.dfy ===
/** The annotation records a plugin author writes, as immutable data with their declared
    defaults, and the enums the manifest reads. */
module Annotations {
  import opened Wrappers

  /** `@CommandOption`: a named option of a handler parameter. */
  datatype CommandOption = CommandOption(name: string, shortName: char, defaultValue: string, description: string)

  /** An option whose elements are all left at their declared defaults. */
  const DefaultOption: CommandOption := CommandOption("", '\0', "", "")

  /** `@CommandParameter`: a positional parameter; `name` has no default. */
  datatype CommandParameter = CommandParameter(optional: bool, name: string, defaultValue: string, description: string)

  /** A `@CommandParameter(name = ...)` with every other element at its default. */
  function Parameter(name: string): (p: CommandParameter)
    ensures p.name == name && !p.optional
    ensures p.defaultValue == "" && p.description == ""
  {
    CommandParameter(false, name, "", "")
  }

  /** One annotation on a handler parameter; `OtherAnnotation` stands for any annotation that
      is neither of the two above and is ignored by the command machinery. */
  datatype ParamAnnotation =
    | OptionAnnotation(option: CommandOption)
    | ParameterAnnotation(parameter: CommandParameter)
    | OtherAnnotation(typeName: string)

  /** `@Command`: one command a handler method serves. */
  datatype Command = Command(command: string, aliases: seq<string>, description: string,
                             permission: string, permissionMessage: string)

  /** A `@Command(command = ...)` with every other element at its default. */
  function CommandNamed(command: string): (c: Command)
    ensures c.command == command && c.aliases == []
    ensures c.description == "" && c.permission == "" && c.permissionMessage == ""
  {
    Command(command, [], "", "", "")
  }

  /** What a method carries: a direct `@Command` and/or a `@Command.List` container. */
  datatype CommandAnnotations = CommandAnnotations(direct: Option<Command>, list: Option<seq<Command>>)

  /** How the compiler stores `@Command` written `|cs|` times on one method: once, it stays a
      direct annotation; repeated, the repeats are wrapped, in order, in one `Command.List`. */
  function Declare(cs: seq<Command>): (a: CommandAnnotations)
    ensures |cs| == 0 ==> a.direct.None? && a.list.None?
    ensures |cs| == 1 ==> a.direct == Some(cs[0]) && a.list.None?
    ensures |cs| > 1 ==> a.direct.None? && a.list == Some(cs)
  {
    if |cs| == 0 then CommandAnnotations(None, None)
    else if |cs| == 1 then CommandAnnotations(Some(cs[0]), None)
    else CommandAnnotations(None, Some(cs))
  }

  /** `PermissionDefault`. */
  datatype PermissionDefault = Default | True | False | Op | NotOp

  /** `PermissionDefault.getName`. */
  function PermissionDefaultName(d: PermissionDefault): (r: string)
    ensures r == "" <==> d == Default
  {
    match d
    case Default => ""
    case True => "true"
    case False => "false"
    case Op => "op"
    case NotOp => "not op"
  }

  /** Distinct permission defaults have distinct names, so the name identifies the constant. */
  lemma PermissionDefaultNameInjective(d: PermissionDefault, e: PermissionDefault)
    ensures PermissionDefaultName(d) == PermissionDefaultName(e) ==> d == e
  {
  }

  /** `LoadStage`; the manifest only uses its constant name. */
  datatype LoadStage = Startup | PostWorld

  function LoadStageName(s: LoadStage): (r: string)
    ensures r == "STARTUP" || r == "POSTWORLD"
    ensures (r == "STARTUP") <==> s == Startup
  {
    match s
    case Startup => "STARTUP"
    case PostWorld => "POSTWORLD"
  }

  /** `@ChildPermission`. */
  datatype ChildPermission = ChildPermission(node: string, inherit: bool)

  /** `@Permission`. */
  datatype Permission = Permission(node: string, description: string, defaultValue: PermissionDefault,
                                   children: seq<ChildPermission>)

  /** `@Plugin`, the element of the plugin's main class. */
  datatype Plugin = Plugin(
    name: string,
    version: string,
    description: string,
    apiVersion: string,
    loadStage: LoadStage,
    authors: seq<string>,
    website: string,
    depend: seq<string>,
    prefix: string,
    softDepend: seq<string>,
    loadBefore: seq<string>,
    permissions: seq<Permission>)
}

=== FILE: command_executor.dfy ===
/** `CommandExecutor`: turning a command typed by a sender into a handler invocation. Every
    handler method's `@Command` entries are tried in turn; parsing against an entry's grammar is
    left to the host (`Host.parse`), as are help rendering and the reflective invocation itself. */
module CommandExecutor {
  import opened Wrappers
  import opened JavaLang
  import opened Annotations
  import opened CommandUtils

  type ClassName = string

  /** A handler method as reflection sees it: a printable name, its declaring class, one type
      and one annotation array per parameter, and its `@Command` annotations. */
  datatype MethodRef = MethodRef(display: string, declaringClass: ClassName, paramTypes: seq<JavaType>,
                                 paramAnnotations: seq<seq<ParamAnnotation>>, commands: CommandAnnotations)

  /** Reflection reports one annotation array per parameter. */
  predicate WellFormed(m: MethodRef) {
    |m.paramTypes| == |m.paramAnnotations|
  }

  /** The flags passed to the grammar builder: exactly the `boolean`/`Boolean` parameters. */
  function ParamFlags(types: seq<JavaType>): (r: seq<bool>)
    ensures |r| == |types|
    ensures forall i :: 0 <= i < |types| ==> (r[i] <==> IsBoolean(types[i]))
  {
    seq(|types|, i requires 0 <= i < |types| => types[i].BooleanType?)
  }

  /** `getParserForCommand`: the grammar of one `@Command` of `m`; a method whose type and
      annotation arrays differ in length is an internal error. */
  function ParserForCommand(m: MethodRef, c: Command): (r: Result<Grammar, ConfigError>)
    ensures r == Failure(InternalError) <==> !WellFormed(m)
    ensures WellFormed(m) ==> r == BuildGrammar(c.command, c.description, m.paramAnnotations,
                                                 Some(m.paramTypes), ParamFlags(m.paramTypes))
    ensures r.Success? ==> r.value.prog == "/" + c.command && r.value.args[0] == HelpArg
  {
    if |m.paramTypes| == |m.paramAnnotations| then
      BuildGrammar(c.command, c.description, m.paramAnnotations, Some(m.paramTypes), ParamFlags(m.paramTypes))
    else Failure(InternalError)
  }

  /** `CommandEntry`: the command name of one `@Command` and its grammar. */
  datatype CommandEntry = CommandEntry(name: string, grammar: Grammar)

  /** The entries of a method, one per `@Command` in `getMethodCommands` order, failing with the
      first grammar that cannot be built. */
  function Entries(m: MethodRef): (r: Result<seq<CommandEntry>, ConfigError>)
    ensures r.Success? ==> |r.value| == |MethodCommands(m.commands)|
    ensures r.Success? ==> forall k :: 0 <= k < |r.value| ==>
              r.value[k].name == MethodCommands(m.commands)[k].command &&
              ParserForCommand(m, MethodCommands(m.commands)[k]) == Success(r.value[k].grammar)
    ensures r.Success? <==> forall k :: 0 <= k < |MethodCommands(m.commands)| ==>
              ParserForCommand(m, MethodCommands(m.commands)[k]).Success?
    ensures r.Failure? ==> (exists k :: 0 <= k < |MethodCommands(m.commands)| &&
                              ParserForCommand(m, MethodCommands(m.commands)[k]) == Failure(r.error) &&
                              forall j :: 0 <= j < k ==> ParserForCommand(m, MethodCommands(m.commands)[j]).Success?)
  {
    EntriesOf(m, MethodCommands(m.commands))
  }

  function EntriesOf(m: MethodRef, cs: seq<Command>): (r: Result<seq<CommandEntry>, ConfigError>)
    ensures r.Success? ==> |r.value| == |cs|
    ensures r.Success? ==> forall k :: 0 <= k < |cs| ==>
              r.value[k].name == cs[k].command && ParserForCommand(m, cs[k]) == Success(r.value[k].grammar)
    ensures r.Success? <==> forall k :: 0 <= k < |cs| ==> ParserForCommand(m, cs[k]).Success?
    ensures r.Failure? ==> (exists k :: 0 <= k < |cs| && ParserForCommand(m, cs[k]) == Failure(r.error) &&
                              forall j :: 0 <= j < k ==> ParserForCommand(m, cs[j]).Success?)
    decreases |cs|
  {
    if |cs| == 0 then Success([])
    else
      match ParserForCommand(m, cs[0])
      case Failure(e) => Failure(e)
      case Success(g) =>
        match EntriesOf(m, cs[1..])
        case Failure(e) => Failure(e)
        case Success(rest) =>
          assert forall k :: 1 <= k < |cs| ==> cs[k] == cs[1..][k - 1];
          Success([CommandEntry(cs[0].command, g)] + rest)
  }

  // ---------------------------------------------------------------------------------------
  // The owner cache (`getMethodOwner`)

  /** An instance of a handler class; `serial` tells apart instances created one after another. */
  datatype Instance = Instance(ofClass: ClassName, serial: nat)

  /** The `methodOwners` map, and how many instances have been created so far. */
  datatype Owners = Owners(cache: map<ClassName, Instance>, created: nat)

  /** Every cached instance belongs to its key's class and was created before now. */
  predicate OwnersValid(o: Owners) {
    forall c :: c in o.cache ==> o.cache[c].ofClass == c && o.cache[c].serial < o.created
  }

  /** What `Class.newInstance` does for a handler class: a new instance; a checked
      `InstantiationException` or `IllegalAccessException`; or an exception thrown by the
      nullary constructor, which `newInstance` passes on unwrapped. */
  datatype Instantiation = Instantiated | NotInstantiable | ConstructorThrew

  /** Why no owner was obtained: a checked instantiation failure, which `onCommand` catches and
      logs, or a constructor exception, which nothing catches. */
  datatype OwnerError = CannotInstantiate(cls: ClassName) | ConstructorFailed(cls: ClassName)

  /** Get-or-create: the cached instance of `cls` if there is one, otherwise a new one when the
      class can be instantiated; afterwards the cache sends `cls` to the returned instance and
      every other class to what it was sent to before. */
  function GetMethodOwner(o: Owners, cls: ClassName, made: Instantiation): (r: Result<(Instance, Owners), OwnerError>)
    ensures r.Success? <==> cls in o.cache || made.Instantiated?
    ensures r.Failure? ==> r.error.cls == cls && (r.error.ConstructorFailed? <==> made.ConstructorThrew?)
    ensures cls in o.cache ==> r.Success? && r.value.0 == o.cache[cls]
    ensures r.Success? ==> r.value.1.cache == o.cache[cls := r.value.0]
    ensures r.Success? ==> r.value.1.created >= o.created
    ensures r.Success? && OwnersValid(o) ==> OwnersValid(r.value.1) && r.value.0.ofClass == cls
    ensures r.Success? && cls !in o.cache && OwnersValid(o) ==>
              forall c :: c in o.cache ==> o.cache[c] != r.value.0
  {
    if cls in o.cache then Success((o.cache[cls], o))
    else
      match made
      case Instantiated =>
        var created := Instance(cls, o.created);
        Success((created, Owners(o.cache[cls := created], o.created + 1)))
      case NotInstantiable => Failure(CannotInstantiate(cls))
      case ConstructorThrew => Failure(ConstructorFailed(cls))
  }

  // ---------------------------------------------------------------------------------------
  // Binding (`getMethodParameters`)

  /** A parsed namespace: destination name to value; an absent name reads as null. */
  type Namespace = map<string, Value>

  /** One handler argument: the sender, null, or a value. */
  datatype Slot = SenderSlot | NullSlot | ValueSlot(value: Value)

  datatype BindError =
    | UnsupportedParameterType(typeName: string)  // UnsupportedOperationException
    | CastFailed(key: string)                     // ClassCastException from a typed getter

  /** The name an option is read back under: its long name, else its short name, else null. */
  function OptionKey(o: CommandOption): (r: Option<string>)
    ensures r.None? <==> OptionSpellings(o).None?
    ensures o.name != "" ==> r == Some(o.name)
    ensures o.name == "" && r.Some? ==> r.value == [o.shortName] && IsLetterOrDigit(o.shortName)
  {
    if o.name != "" then Some(o.name)
    else if IsLetterOrDigit(o.shortName) then Some([o.shortName])
    else None
  }

  predicate Relevant(a: ParamAnnotation) {
    !a.OtherAnnotation?
  }

  /** The name an annotation sets, for the two relevant kinds. */
  function AnnotationKey(a: ParamAnnotation): Option<string>
    requires Relevant(a)
  {
    if a.OptionAnnotation? then OptionKey(a.option) else Some(a.parameter.name)
  }

  /** The key of the last relevant annotation, or null when there is none. */
  ghost function LastRelevantKey(anns: seq<ParamAnnotation>): Option<string>
    decreases |anns|
  {
    if |anns| == 0 then None
    else if Relevant(anns[|anns| - 1]) then AnnotationKey(anns[|anns| - 1])
    else LastRelevantKey(anns[..|anns| - 1])
  }

  lemma {:induction false} NoRelevantNoKey(anns: seq<ParamAnnotation>)
    ensures !HasRelevant(anns) ==> LastRelevantKey(anns).None?
    decreases |anns|
  {
    if |anns| > 0 && !HasRelevant(anns) {
      NoRelevantNoKey(anns[..|anns| - 1]);
    }
  }

  ghost predicate HasRelevant(anns: seq<ParamAnnotation>) {
    exists k :: 0 <= k < |anns| && Relevant(anns[k])
  }

  /** The binder's loop over a parameter's annotations: every relevant one overwrites the key. */
  function KeyLoop(anns: seq<ParamAnnotation>, acc: Option<string>): (r: Option<string>)
    ensures HasRelevant(anns) ==> r == LastRelevantKey(anns)
    ensures !HasRelevant(anns) ==> r == acc
    decreases |anns|
  {
    if |anns| == 0 then acc
    else
      var r := KeyLoop(anns[1..], if Relevant(anns[0]) then AnnotationKey(anns[0]) else acc);
      LastRelevantOfTail(anns);
      assert HasRelevant(anns) <==> Relevant(anns[0]) || HasRelevant(anns[1..]) by {
        if HasRelevant(anns[1..]) {
          var k :| 0 <= k < |anns[1..]| && Relevant(anns[1..][k]);
          assert anns[k + 1] == anns[1..][k];
        }
        if HasRelevant(anns) && !Relevant(anns[0]) {
          var k :| 0 <= k < |anns| && Relevant(anns[k]);
          assert anns[1..][k - 1] == anns[k];
        }
      }
      r
  }

  lemma {:induction false} LastRelevantOfTail(anns: seq<ParamAnnotation>)
    requires |anns| > 0
    ensures HasRelevant(anns[1..]) ==> LastRelevantKey(anns) == LastRelevantKey(anns[1..])
    ensures !HasRelevant(anns[1..]) && Relevant(anns[0]) ==> LastRelevantKey(anns) == AnnotationKey(anns[0])
    decreases |anns|
  {
    var n := |anns|;
    if n == 1 {
      assert anns[1..] == [];
    } else {
      var last := anns[n - 1];
      assert anns[1..][|anns[1..]| - 1] == last;
      assert anns[1..][..|anns[1..]| - 1] == anns[..n - 1][1..];
      if !Relevant(last) {
        LastRelevantOfTail(anns[..n - 1]);
        assert anns[..n - 1][0] == anns[0];
        if HasRelevant(anns[1..]) {
          var k :| 0 <= k < |anns[1..]| && Relevant(anns[1..][k]);
          assert k < n - 2;
          assert anns[..n - 1][1..][k] == anns[1..][k];
        } else {
          assert !HasRelevant(anns[..n - 1][1..]);
        }
      } else {
        assert Relevant(anns[1..][n - 2]);
      }
    }
  }

  /** The name a parameter is looked up under: the key of its last relevant annotation. */
  function BindingKey(anns: seq<ParamAnnotation>): (r: Option<string>)
    ensures r == LastRelevantKey(anns)
  {
    NoRelevantNoKey(anns);
    KeyLoop(anns, None)
  }

  /** The value kind a typed getter of the namespace casts to. */
  predicate KindMatches(t: JavaType, v: Value) {
    match t
    case BooleanType(_) => v.BoolValue?
    case IntType(_) => v.IntValue?
    case LongType(_) => v.LongValue?
    case StringType => v.StringValue?
    case ClassType(_, _) => false
  }

  /** A typed getter: null when absent, the value when its kind matches, a cast failure otherwise. */
  function Fetch(t: JavaType, ns: Namespace, key: string): (r: Result<Slot, BindError>)
    ensures key !in ns ==> r == Success(NullSlot)
    ensures key in ns && KindMatches(t, ns[key]) ==> r == Success(ValueSlot(ns[key]))
    ensures key in ns && !KindMatches(t, ns[key]) ==> r == Failure(CastFailed(key))
  {
    if key !in ns then Success(NullSlot)
    else if KindMatches(t, ns[key]) then Success(ValueSlot(ns[key]))
    else Failure(CastFailed(key))
  }

  /** One parameter binds without an exception. */
  ghost predicate SlotBindable(t: JavaType, anns: seq<ParamAnnotation>, ns: Namespace) {
    (AcceptsSender(t) || IsSupported(t)) &&
    (!AcceptsSender(t) && LastRelevantKey(anns).Some? && LastRelevantKey(anns).value in ns ==>
       KindMatches(t, ns[LastRelevantKey(anns).value]))
  }

  /** The argument bound to one parameter. */
  function BindSlot(t: JavaType, anns: seq<ParamAnnotation>, ns: Namespace): (r: Result<Slot, BindError>)
    ensures r.Success? <==> SlotBindable(t, anns, ns)
    ensures AcceptsSender(t) ==> r == Success(SenderSlot)
    ensures !AcceptsSender(t) && !IsSupported(t) ==> r == Failure(UnsupportedParameterType(t.canonicalName))
    ensures IsSupported(t) && LastRelevantKey(anns).None? ==> r == Success(NullSlot)
    ensures IsSupported(t) && LastRelevantKey(anns).Some? ==> r == Fetch(t, ns, LastRelevantKey(anns).value)
  {
    if AcceptsSender(t) then Success(SenderSlot)
    else if IsSupported(t) then
      match BindingKey(anns)
      case None => Success(NullSlot)
      case Some(k) => Fetch(t, ns, k)
    else Failure(UnsupportedParameterType(t.canonicalName))
  }

  /** Parameter `j` is the first of parameters `i..` that cannot be bound. */
  ghost predicate FirstUnbindable(types: seq<JavaType>, annots: seq<seq<ParamAnnotation>>, ns: Namespace, i: nat, j: nat)
    requires |types| == |annots|
  {
    i <= j < |types| && !SlotBindable(types[j], annots[j], ns) &&
    forall j' :: i <= j' < j ==> SlotBindable(types[j'], annots[j'], ns)
  }

  lemma FirstUnbindableAfterBindable(types: seq<JavaType>, annots: seq<seq<ParamAnnotation>>, ns: Namespace, i: nat)
    requires |types| == |annots| && i < |types| && SlotBindable(types[i], annots[i], ns)
    ensures forall j: nat :: FirstUnbindable(types, annots, ns, i + 1, j) ==> FirstUnbindable(types, annots, ns, i, j)
  {
  }

  /** `getMethodParameters` from parameter `i` on: one slot per parameter, failing with the first
      parameter that cannot be bound. */
  function BindFrom(types: seq<JavaType>, annots: seq<seq<ParamAnnotation>>, ns: Namespace, i: nat)
    : (r: Result<seq<Slot>, BindError>)
    requires |types| == |annots| && i <= |types|
    ensures r.Success? <==> forall j :: i <= j < |types| ==> SlotBindable(types[j], annots[j], ns)
    ensures r.Success? ==> |r.value| == |types| - i
    ensures r.Success? ==> forall j :: i <= j < |types| ==> Success(r.value[j - i]) == BindSlot(types[j], annots[j], ns)
    ensures r.Failure? ==> exists j: nat :: FirstUnbindable(types, annots, ns, i, j) &&
                                      r == BindSlot(types[j], annots[j], ns).PropagateFailure()
    decreases |types| - i
  {
    if i == |types| then Success([])
    else
      match BindSlot(types[i], annots[i], ns)
      case Failure(e) => Failure(e)
      case Success(slot) =>
        match BindFrom(types, annots, ns, i + 1)
        case Failure(e) => FirstUnbindableAfterBindable(types, annots, ns, i); Failure(e)
        case Success(rest) => Success([slot] + rest)
  }

  /** `getMethodParameters`: exactly one slot per declared parameter. Sender-typed slots get the
      sender; the others are looked up under their binding key (null when there is none). */
  function Bind(types: seq<JavaType>, annots: seq<seq<ParamAnnotation>>, ns: Namespace): (r: Result<seq<Slot>, BindError>)
    requires |types| == |annots|
    ensures r.Success? <==> forall j :: 0 <= j < |types| ==> SlotBindable(types[j], annots[j], ns)
    ensures r.Success? ==> |r.value| == |types|
    ensures r.Failure? ==> exists j: nat :: FirstUnbindable(types, annots, ns, 0, j) &&
                                      r == BindSlot(types[j], annots[j], ns).PropagateFailure()
    ensures r.Success? ==> forall j :: 0 <= j < |types| && AcceptsSender(types[j]) ==> r.value[j] == SenderSlot
    ensures r.Success? ==> forall j :: 0 <= j < |types| && IsSupported(types[j]) ==>
              (LastRelevantKey(annots[j]).None? ==> r.value[j] == NullSlot) &&
              (LastRelevantKey(annots[j]).Some? && LastRelevantKey(annots[j]).value !in ns ==> r.value[j] == NullSlot) &&
              (LastRelevantKey(annots[j]).Some? && LastRelevantKey(annots[j]).value in ns ==>
                 r.value[j] == ValueSlot(ns[LastRelevantKey(annots[j]).value]))
  {
    BindFrom(types, annots, ns, 0)
  }

  /** The name an argument of a grammar is read back under: for an option its long name, else
      its short name; for a positional its name. */
  function ArgKey(a: ArgSpec): Option<string> {
    match a
    case HelpSwitch(_, _) => None
    case OptionArg(names, _, _) =>
      if LongNameOf(names).Some? then LongNameOf(names)
      else if ShortNameOf(names).Some? then Some([ShortNameOf(names).value])
      else None
    case PositionalArg(name, _, _, _, _) => Some(name)
  }

  /** The binder looks an annotated parameter up under the name its grammar argument declares. */
  lemma BindingKeyMatchesGrammar(a: ParamAnnotation, t: Option<JavaType>, isFlag: bool)
    requires Relevant(a) && (t.None? || IsSupported(t.value))
    requires AnnotationArgs(a, t, isFlag).Success?
    ensures |AnnotationArgs(a, t, isFlag).value| == 1
    ensures ArgKey(AnnotationArgs(a, t, isFlag).value[0]) == AnnotationKey(a)
    ensures AnnotationKey(a).Some?
  {
    if a.OptionAnnotation? {
      OptionSpellingsRoundTrip(a.option);
    }
  }

  // ---------------------------------------------------------------------------------------
  // Dispatch (`onCommand`)

  /** What parsing against one grammar yields: `-h`/`--help` seen, a parse error, or values. */
  datatype ParseOutcome = HelpRequested | ParseFailed | Parsed(namespace: Namespace)

  /** What `Method.invoke` yields: normal return, an exception from the handler
      (`InvocationTargetException`), `IllegalAccessException`, or an argument mismatch
      (`IllegalArgumentException`, which nothing catches). */
  datatype InvokeOutcome = Completed | TargetThrew | AccessDenied | ArgumentsRejected

  /** Everything the executor leaves to the host and the libraries it calls. */
  datatype Host = Host(
    parse: (Grammar, seq<string>) -> ParseOutcome,
    formatHelp: Grammar -> string,
    instantiate: ClassName -> Instantiation,
    invoke: (MethodRef, seq<Slot>) -> InvokeOutcome)

  /** One line of output: a help message sent to the sender or a SEVERE log record. */
  datatype Line = HelpText(text: string) | Severe(message: string)

  /** An exception that leaves `onCommand`. */
  datatype Escape =
    | BadConfiguration(config: ConfigError)
    | BadBinding(binding: BindError)
    | OwnerConstructorThrew(cls: ClassName)
    | RejectedArguments(handler: string)

  /** The loop's state: the `displayingHelp` flag, the owner cache, the output so far. */
  datatype Session = Session(displayingHelp: bool, owners: Owners, trace: seq<Line>)

  /** Either carry on with the next entry, or leave `onCommand` (returning `true` or throwing). */
  datatype Step = Continue(session: Session) | Stop(result: Result<bool, Escape>, session: Session)

  /** One entry of one method, in the order the loop visits them. */
  datatype Candidate = Candidate(handler: MethodRef, entry: CommandEntry)

  function InstantiationMessage(m: MethodRef): string {
    "Failed to instantiate declaring class for method: " + m.display
  }

  function InvocationMessage(m: MethodRef): string {
    "Failed to invoke method: " + m.display
  }

  /** A class whose owner can be obtained: cached already, or instantiable. */
  predicate Available(host: Host, o: Owners, cls: ClassName) {
    cls in o.cache || host.instantiate(cls).Instantiated?
  }

  /** Obtaining the owner of `cls` runs its constructor, which throws. */
  predicate OwnerThrows(host: Host, o: Owners, cls: ClassName) {
    cls !in o.cache && host.instantiate(cls).ConstructorThrew?
  }

  /** The owner cache of `after` keeps every entry of `before`. */
  predicate CacheExtends(before: Owners, after: Owners) {
    (forall c :: c in before.cache ==> c in after.cache && after.cache[c] == before.cache[c])
    && before.created <= after.created
  }

  /** `LOGGER.log(Level.SEVERE, ...)`: one more severe line, nothing else changes. */
  function LogSevere(s: Session, message: string): (r: Session)
    ensures r.owners == s.owners && r.displayingHelp == s.displayingHelp
    ensures s.trace <= r.trace && |r.trace| == |s.trace| + 1 && r.trace[|s.trace|] == Severe(message)
    ensures forall l :: l in r.trace ==> l in s.trace || l.Severe?
  {
    s.(trace := s.trace + [Severe(message)])
  }

  /** `after` extends `before` by at most one line, a SEVERE one. */
  predicate AtMostOneSevere(before: seq<Line>, after: seq<Line>) {
    before <= after && |after| <= |before| + 1 && (|after| > |before| ==> after[|before|].Severe?)
  }

  /** What happens once an entry has parsed: get the owner, bind, invoke. */
  function AfterParse(host: Host, m: MethodRef, ns: Namespace, s: Session): (r: Step)
    requires WellFormed(m)
    ensures CacheExtends(s.owners, r.session.owners)
    ensures OwnersValid(s.owners) ==> OwnersValid(r.session.owners)
    ensures forall c :: Available(host, r.session.owners, c) == Available(host, s.owners, c)
    ensures r.session.displayingHelp == s.displayingHelp
    ensures forall l :: l in r.session.trace ==> l in s.trace || l.Severe?
    ensures s.trace <= r.session.trace
    ensures AtMostOneSevere(s.trace, r.session.trace)
  {
    match GetMethodOwner(s.owners, m.declaringClass, host.instantiate(m.declaringClass))
    case Failure(CannotInstantiate(_)) => Continue(LogSevere(s, InstantiationMessage(m)))
    case Failure(ConstructorFailed(cls)) => Stop(Failure(OwnerConstructorThrew(cls)), s)
    case Success((_, owners)) =>
      var s1 := s.(owners := owners);
      assert forall c :: Available(host, owners, c) == Available(host, s.owners, c);
      match Bind(m.paramTypes, m.paramAnnotations, ns)
      case Failure(e) => Stop(Failure(BadBinding(e)), s1)
      case Success(slots) => Invoke(host, m, slots, s1)
  }

  /** `method.invoke`: a completed call ends the loop with `true`; an exception thrown by the
      handler or an access check is logged and the loop goes on; rejected arguments escape. */
  function Invoke(host: Host, m: MethodRef, slots: seq<Slot>, s: Session): (r: Step)
    ensures r.session.owners == s.owners && r.session.displayingHelp == s.displayingHelp
    ensures s.trace <= r.session.trace
    ensures forall l :: l in r.session.trace ==> l in s.trace || l.Severe?
    ensures r.Stop? <==> host.invoke(m, slots).Completed? || host.invoke(m, slots).ArgumentsRejected?
    ensures AtMostOneSevere(s.trace, r.session.trace)
  {
    match host.invoke(m, slots)
    case Completed => Stop(Success(true), s)
    case TargetThrew => Continue(LogSevere(s, InvocationMessage(m)))
    case AccessDenied => Continue(LogSevere(s, InstantiationMessage(m)))
    case ArgumentsRejected => Stop(Failure(RejectedArguments(m.display)), s)
  }

  /** One iteration of the loop of `onCommand` for an entry: entries for other commands are
      skipped; a help request appends the entry's help and sets `displayingHelp`; a parse error
      changes nothing. */
  function TryCandidate(host: Host, c: Candidate, name: string, args: seq<string>, s: Session): (r: Step)
    requires WellFormed(c.handler)
    ensures c.entry.name != name ==> r == Continue(s)
    ensures c.entry.name == name && host.parse(c.entry.grammar, args).HelpRequested? ==>
              r == Continue(s.(displayingHelp := true, trace := s.trace + [HelpText(host.formatHelp(c.entry.grammar))]))
    ensures c.entry.name == name && host.parse(c.entry.grammar, args).ParseFailed? ==> r == Continue(s)
    ensures c.entry.name == name && host.parse(c.entry.grammar, args).Parsed? ==> AtMostOneSevere(s.trace, r.session.trace)
    ensures r.Stop? ==> r.result == Success(true) || r.result.Failure?
    ensures CacheExtends(s.owners, r.session.owners)
    ensures OwnersValid(s.owners) ==> OwnersValid(r.session.owners)
    ensures forall cls :: Available(host, r.session.owners, cls) == Available(host, s.owners, cls)
    ensures s.trace <= r.session.trace
  {
    if c.entry.name != name then Continue(s)
    else
      match host.parse(c.entry.grammar, args)
      case HelpRequested =>
        Continue(s.(displayingHelp := true, trace := s.trace + [HelpText(host.formatHelp(c.entry.grammar))]))
      case ParseFailed => Continue(s)
      case Parsed(ns) => AfterParse(host, c.handler, ns, s)
  }

  /** The loop over entries, in order, until one leaves `onCommand`. */
  function RunCandidates(host: Host, cs: seq<Candidate>, name: string, args: seq<string>, s: Session): (r: Step)
    requires forall k :: 0 <= k < |cs| ==> WellFormed(cs[k].handler)
    ensures r.Stop? ==> r.result == Success(true) || r.result.Failure?
    ensures CacheExtends(s.owners, r.session.owners)
    ensures OwnersValid(s.owners) ==> OwnersValid(r.session.owners)
    ensures forall cls :: Available(host, r.session.owners, cls) == Available(host, s.owners, cls)
    ensures s.trace <= r.session.trace
    decreases |cs|
  {
    if |cs| == 0 then Continue(s)
    else
      match TryCandidate(host, cs[0], name, args, s)
      case Stop(o, s1) => Stop(o, s1)
      case Continue(s1) => RunCandidates(host, cs[1..], name, args, s1)
  }

  /** A method's entries paired with the method. */
  function CandidatesOf(m: MethodRef, es: seq<CommandEntry>): (r: seq<Candidate>)
    ensures |r| == |es|
    ensures forall k :: 0 <= k < |es| ==> r[k] == Candidate(m, es[k])
  {
    seq(|es|, k requires 0 <= k < |es| => Candidate(m, es[k]))
  }

  /** The outer loop of `onCommand`: the entries of each method are built when the method is
      reached (the executor's method map is a lazily transformed view), so a grammar that cannot
      be built escapes at that point. */
  function RunMethods(host: Host, methods: seq<MethodRef>, name: string, args: seq<string>, s: Session): (r: Step)
    requires forall k :: 0 <= k < |methods| ==> WellFormed(methods[k])
    ensures r.Stop? ==> r.result == Success(true) || r.result.Failure?
    ensures CacheExtends(s.owners, r.session.owners)
    ensures OwnersValid(s.owners) ==> OwnersValid(r.session.owners)
    ensures s.trace <= r.session.trace
    decreases |methods|
  {
    if |methods| == 0 then Continue(s)
    else
      match Entries(methods[0])
      case Failure(e) => Stop(Failure(BadConfiguration(e)), s)
      case Success(es) =>
        match RunCandidates(host, CandidatesOf(methods[0], es), name, args, s)
        case Stop(o, s1) => Stop(o, s1)
        case Continue(s1) => RunMethods(host, methods[1..], name, args, s1)
  }

  /** What `onCommand` does for one call: its boolean result or the exception it throws, the
      owner cache afterwards, and the lines it emitted. */
  datatype Reply = Reply(result: Result<bool, Escape>, owners: Owners, trace: seq<Line>)

  /** `onCommand`: `true` as soon as a handler completes; when the loop runs out, whether help
      was shown. */
  function OnCommand(host: Host, methods: seq<MethodRef>, owners: Owners, name: string, args: seq<string>)
    : (r: Reply)
    requires forall k :: 0 <= k < |methods| ==> WellFormed(methods[k])
    ensures CacheExtends(owners, r.owners)
    ensures OwnersValid(owners) ==> OwnersValid(r.owners)
    ensures RunMethods(host, methods, name, args, Session(false, owners, [])).Continue? ==>
              r.result == Success(RunMethods(host, methods, name, args, Session(false, owners, [])).session.displayingHelp)
    ensures RunMethods(host, methods, name, args, Session(false, owners, [])).Stop? ==>
              r.result == RunMethods(host, methods, name, args, Session(false, owners, [])).result
  {
    match RunMethods(host, methods, name, args, Session(false, owners, []))
    case Stop(o, s) => Reply(o, s.owners, s.trace)
    case Continue(s) => Reply(Success(s.displayingHelp), s.owners, s.trace)
  }
}

=== FILE: command_utils.dfy ===
/** The grammar a handler method's annotations compile to (`CommandUtils.getArgumentParser`):
    the reserved help switch, then one argument per `@CommandOption` / `@CommandParameter`
    of every parameter, in declaration order. Only the grammar's structure is modelled; how a
    parser matches tokens against it is not. */
module CommandUtils {
  import opened Wrappers
  import opened Seqs
  import opened JavaLang
  import opened Annotations

  /** A configuration error that aborts building a grammar. */
  datatype ConfigError =
    | UnsupportedType(typeName: string)   // UnsupportedOperationException
    | OptionNameMissing                   // IllegalStateException
    | InternalError                       // IllegalStateException from getParserForCommand
  {
    function Message(): string {
      match this
      case UnsupportedType(n) => "The type " + n + " is not supported."
      case OptionNameMissing => "Option name not specified."
      case InternalError => "Internal error."
    }
  }

  /** What a named option does when present: store `true`, or store the following token, with
      an optional declared value type and an optional (unconverted) default. */
  datatype OptionAction = StoreTrue | Store(valueType: Option<JavaType>, default: Option<string>)

  datatype ArgSpec =
    | HelpSwitch(names: seq<string>, help: string)
    | OptionArg(names: seq<string>, action: OptionAction, help: string)
    | PositionalArg(name: string, zeroOrOne: bool, valueType: Option<JavaType>, default: Option<Value>,
                    help: string)

  /** A parser for `prog` ("/" + command name): its description and arguments in order. */
  datatype Grammar = Grammar(prog: string, description: string, args: seq<ArgSpec>)

  /** The reserved switch added before anything else: it takes no token and, when matched,
      makes the parse report "help requested" instead of a namespace. */
  const HelpArg: ArgSpec := HelpSwitch(["-h", "--help"], "show this help message and exit")

  /** The spellings of an option: `[-c, --name]`, or whichever of the two exists. */
  function OptionSpellings(o: CommandOption): (r: Option<seq<string>>)
    ensures r.None? <==> o.name == "" && !IsLetterOrDigit(o.shortName)
    ensures r.Some? ==> 1 <= |r.value| <= 2
    ensures r.Some? ==> (|r.value| == 2 <==> o.name != "" && IsLetterOrDigit(o.shortName))
    ensures r.Some? && IsLetterOrDigit(o.shortName) ==> r.value[0] == ['-', o.shortName]
    ensures r.Some? && o.name != "" ==> r.value[|r.value| - 1] == "--" + o.name
  {
    var long: Option<string> := if o.name == "" then None else Some("--" + o.name);
    var short: Option<string> := if IsLetterOrDigit(o.shortName) then Some(['-', o.shortName]) else None;
    if long.Some? && short.Some? then Some([short.value, long.value])
    else if long.Some? then Some([long.value])
    else if short.Some? then Some([short.value])
    else None
  }

  predicate IsLongSpelling(s: string) {
    |s| >= 2 && s[0] == '-' && s[1] == '-'
  }

  predicate IsShortSpelling(s: string) {
    |s| == 2 && s[0] == '-' && IsLetterOrDigit(s[1])
  }

  /** The option name read back from a list of spellings: the first long one without `--`. */
  function LongNameOf(names: seq<string>): Option<string>
    decreases |names|
  {
    if |names| == 0 then None
    else if IsLongSpelling(names[0]) then Some(names[0][2..])
    else LongNameOf(names[1..])
  }

  /** The short name read back from a list of spellings: the first `-c` form. */
  function ShortNameOf(names: seq<string>): Option<char>
    decreases |names|
  {
    if |names| == 0 then None
    else if IsShortSpelling(names[0]) then Some(names[0][1])
    else ShortNameOf(names[1..])
  }

  /** The spellings determine the declared long and short names: the long name is recovered
      exactly when non-empty, the short name exactly when it is a letter or digit. */
  lemma OptionSpellingsRoundTrip(o: CommandOption)
    requires OptionSpellings(o).Some?
    ensures LongNameOf(OptionSpellings(o).value) == (if o.name != "" then Some(o.name) else None)
    ensures ShortNameOf(OptionSpellings(o).value) ==
            (if IsLetterOrDigit(o.shortName) then Some(o.shortName) else None)
  {
    var ns := OptionSpellings(o).value;
    if |ns| == 2 {
      assert ns[1..][0] == "--" + o.name;
      assert ns[1..][1..] == [];
    }
  }

  /** An option left at its defaults declares no spelling and cannot be built. */
  lemma DefaultOptionHasNoSpelling()
    ensures OptionSpellings(DefaultOption).None?
  {
  }

  /** `convertDefaultValue`: primitives convert as their wrapper class, through its `String`
      constructor; when that constructor throws, the string itself is the default. */
  function ConvertDefaultValue(t: JavaType, v: string): (r: Value)
    requires IsSupported(t)
    ensures r.StringValue? ==> r.s == v
    ensures t.BooleanType? ==> r == BoolValue(ParseBoolean(v))
    ensures t.IntType? ==> (r.IntValue? <==> ParseDecimal(v, IntMin, IntMax).Some?)
    ensures t.IntType? && r.IntValue? ==> IntMin <= r.i <= IntMax && Some(r.i) == ParseDecimal(v, IntMin, IntMax)
    ensures t.IntType? ==> r.IntValue? || r.StringValue?
    ensures t.LongType? ==> (r.LongValue? <==> ParseDecimal(v, LongMin, LongMax).Some?)
    ensures t.LongType? && r.LongValue? ==> LongMin <= r.l <= LongMax && Some(r.l) == ParseDecimal(v, LongMin, LongMax)
    ensures t.LongType? ==> r.LongValue? || r.StringValue?
    ensures t.StringType? ==> r == StringValue(v)
  {
    match t
    case BooleanType(_) => BoolValue(ParseBoolean(v))
    case IntType(_) =>
      (match ParseDecimal(v, IntMin, IntMax)
       case Some(n) => IntValue(n)
       case None => StringValue(v))
    case LongType(_) =>
      (match ParseDecimal(v, LongMin, LongMax)
       case Some(n) => LongValue(n)
       case None => StringValue(v))
    case StringType => StringValue(v)
  }

  /** A primitive type and its wrapper convert every default alike. */
  lemma PrimitivesConvertAsWrappers(v: string)
    ensures ConvertDefaultValue(BooleanType(true), v) == ConvertDefaultValue(BooleanType(false), v)
    ensures ConvertDefaultValue(IntType(true), v) == ConvertDefaultValue(IntType(false), v)
    ensures ConvertDefaultValue(LongType(true), v) == ConvertDefaultValue(LongType(false), v)
  {
  }

  /** A default written as the decimal form of a number in the type's range converts to that
      number. */
  lemma ConvertDefaultValueRoundTrip(t: JavaType, n: int)
    requires t.IntType? ==> IntMin <= n <= IntMax
    requires t.LongType? ==> LongMin <= n <= LongMax
    requires t.IntType? || t.LongType?
    ensures t.IntType? ==> ConvertDefaultValue(t, Decimal(n)) == IntValue(n)
    ensures t.LongType? ==> ConvertDefaultValue(t, Decimal(n)) == LongValue(n)
  {
    if t.IntType? {
      DecimalRoundTrip(n, IntMin, IntMax);
    } else {
      DecimalRoundTrip(n, LongMin, LongMax);
    }
  }

  /** The argument one `@CommandOption` contributes; `isFlag` is true for boolean parameters. */
  function OptionArgFor(o: CommandOption, t: Option<JavaType>, isFlag: bool): (r: Result<ArgSpec, ConfigError>)
    ensures r.Failure? <==> OptionSpellings(o).None?
    ensures r.Failure? ==> r.error == OptionNameMissing
    ensures r.Success? ==> r.value.OptionArg? && Some(r.value.names) == OptionSpellings(o)
    ensures r.Success? ==> r.value.help == o.description
    ensures r.Success? ==> (r.value.action.StoreTrue? <==> isFlag)
    ensures r.Success? && !isFlag ==> r.value.action.valueType == t
    ensures r.Success? && !isFlag ==> (r.value.action.default.Some? <==> o.defaultValue != "")
    ensures r.Success? && !isFlag && o.defaultValue != "" ==> r.value.action.default == Some(o.defaultValue)
  {
    match OptionSpellings(o)
    case None => Failure(OptionNameMissing)
    case Some(names) =>
      var action := if isFlag then StoreTrue
                    else Store(t, if o.defaultValue == "" then None else Some(o.defaultValue));
      Success(OptionArg(names, action, o.description))
  }

  /** The argument one `@CommandParameter` contributes. */
  function PositionalArgFor(p: CommandParameter, t: Option<JavaType>): (r: ArgSpec)
    requires t.None? || IsSupported(t.value)
    ensures r.PositionalArg? && r.name == p.name && r.help == p.description
    ensures r.zeroOrOne <==> p.optional
    ensures r.valueType == t
    ensures r.default.Some? <==> p.defaultValue != "" && t.Some?
    ensures r.default.Some? ==> r.default.value == ConvertDefaultValue(t.value, p.defaultValue)
  {
    var default := if p.defaultValue != "" && t.Some? then Some(ConvertDefaultValue(t.value, p.defaultValue)) else None;
    PositionalArg(p.name, p.optional, t, default, p.description)
  }

  /** The arguments an annotation contributes: none for foreign annotations. */
  function AnnotationArgs(a: ParamAnnotation, t: Option<JavaType>, isFlag: bool): (r: Result<seq<ArgSpec>, ConfigError>)
    requires t.None? || IsSupported(t.value)
  {
    match a
    case OptionAnnotation(o) =>
      (match OptionArgFor(o, t, isFlag)
       case Success(arg) => Success([arg])
       case Failure(e) => Failure(e))
    case ParameterAnnotation(p) => Success([PositionalArgFor(p, t)])
    case OtherAnnotation(_) => Success([])
  }

  /** An annotation the grammar builder accepts: anything but a nameless option. */
  predicate AnnotationAccepted(a: ParamAnnotation) {
    a.OptionAnnotation? ==> OptionSpellings(a.option).Some?
  }

  /** The argument one annotation declares: the option's argument when it can be spelled, the
      parameter's positional, nothing for a foreign annotation. */
  function DeclaredArg(a: ParamAnnotation, t: Option<JavaType>, isFlag: bool): seq<ArgSpec>
    requires t.None? || IsSupported(t.value)
  {
    match a
    case OptionAnnotation(o) => if OptionSpellings(o).Some? then [OptionArgFor(o, t, isFlag).value] else []
    case ParameterAnnotation(p) => [PositionalArgFor(p, t)]
    case OtherAnnotation(_) => []
  }

  /** The arguments `anns` declare, one per annotation in turn: the reference the grammar builder
      is measured against. */
  function DeclaredArgs(anns: seq<ParamAnnotation>, t: Option<JavaType>, isFlag: bool): seq<ArgSpec>
    requires t.None? || IsSupported(t.value)
    decreases |anns|
  {
    if |anns| == 0 then []
    else DeclaredArgs(anns[..|anns| - 1], t, isFlag) + DeclaredArg(anns[|anns| - 1], t, isFlag)
  }

  lemma {:induction false} DeclaredArgsCons(anns: seq<ParamAnnotation>, t: Option<JavaType>, isFlag: bool)
    requires |anns| > 0 && (t.None? || IsSupported(t.value))
    ensures DeclaredArgs(anns, t, isFlag) == DeclaredArg(anns[0], t, isFlag) + DeclaredArgs(anns[1..], t, isFlag)
    decreases |anns|
  {
    var n := |anns|;
    if n == 1 {
      assert anns[..0] == [] && anns[1..] == [];
    } else {
      var init, rest := anns[..n - 1], anns[1..];
      var last := DeclaredArg(anns[n - 1], t, isFlag);
      DeclaredArgsCons(init, t, isFlag);
      assert init[0] == anns[0];
      assert rest[..n - 2] == init[1..];
      assert rest[n - 2] == anns[n - 1];
      assert DeclaredArgs(anns, t, isFlag) == DeclaredArgs(init, t, isFlag) + last;
      assert DeclaredArgs(rest, t, isFlag) == DeclaredArgs(init[1..], t, isFlag) + last;
      var first, middle := DeclaredArg(anns[0], t, isFlag), DeclaredArgs(init[1..], t, isFlag);
      assert (first + middle) + last == first + (middle + last);
    }
  }

  /** The number of options and parameters among `anns`. */
  function RelevantCount(anns: seq<ParamAnnotation>): nat
    decreases |anns|
  {
    if |anns| == 0 then 0
    else RelevantCount(anns[..|anns| - 1]) + (if anns[|anns| - 1].OtherAnnotation? then 0 else 1)
  }

  /** When every annotation is accepted, each option and each parameter declares exactly one
      argument, and foreign annotations none. */
  lemma {:induction false} DeclaredArgsOnePerAnnotation(anns: seq<ParamAnnotation>, t: Option<JavaType>, isFlag: bool)
    requires t.None? || IsSupported(t.value)
    requires forall k :: 0 <= k < |anns| ==> AnnotationAccepted(anns[k])
    ensures |DeclaredArgs(anns, t, isFlag)| == RelevantCount(anns)
    decreases |anns|
  {
    if |anns| > 0 {
      var init := anns[..|anns| - 1];
      assert forall k :: 0 <= k < |init| ==> init[k] == anns[k];
      DeclaredArgsOnePerAnnotation(init, t, isFlag);
      assert AnnotationAccepted(anns[|anns| - 1]);
    }
  }

  /** The arguments of all annotations of one parameter, in annotation order. */
  function AnnotationsArgs(anns: seq<ParamAnnotation>, t: Option<JavaType>, isFlag: bool)
    : (r: Result<seq<ArgSpec>, ConfigError>)
    requires t.None? || IsSupported(t.value)
    ensures r.Success? <==> forall k :: 0 <= k < |anns| ==> AnnotationAccepted(anns[k])
    ensures r.Failure? ==> r.error == OptionNameMissing
    ensures r.Success? ==> forall k :: 0 <= k < |anns| ==>
              AnnotationArgs(anns[k], t, isFlag).Success? &&
              forall x :: x in AnnotationArgs(anns[k], t, isFlag).value ==> x in r.value
    ensures r.Success? ==> forall x :: x in r.value ==> !x.HelpSwitch?
    ensures r.Success? ==> r.value == DeclaredArgs(anns, t, isFlag)
    decreases |anns|
  {
    if |anns| == 0 then Success([])
    else
      var head := AnnotationArgs(anns[0], t, isFlag);
      var tail := AnnotationsArgs(anns[1..], t, isFlag);
      if head.Failure? then Failure(head.error)
      else if tail.Failure? then Failure(tail.error)
      else
        assert forall k :: 1 <= k < |anns| ==> anns[k] == anns[1..][k - 1];
        DeclaredArgsCons(anns, t, isFlag);
        Success(head.value + tail.value)
  }

  /** A parameter whose type, when known, is supported or takes the sender. */
  predicate TypeAccepted(t: Option<JavaType>) {
    t.None? || IsSupported(t.value) || AcceptsSender(t.value)
  }

  /** A parameter whose annotations are read: its type is unknown or supported. */
  predicate Contributes(t: Option<JavaType>) {
    t.None? || IsSupported(t.value)
  }

  /** The arguments one parameter contributes. A known unsupported type that cannot take the
      sender fails; a sender slot contributes nothing. */
  function ParamArgs(anns: seq<ParamAnnotation>, t: Option<JavaType>, isFlag: bool): (r: Result<seq<ArgSpec>, ConfigError>)
    ensures !TypeAccepted(t) ==> r == Failure(UnsupportedType(t.value.canonicalName))
    ensures TypeAccepted(t) && !Contributes(t) ==> r == Success([])
    ensures r.Success? <==> TypeAccepted(t) && (Contributes(t) ==> forall k :: 0 <= k < |anns| ==> AnnotationAccepted(anns[k]))
    ensures r.Success? ==> forall x :: x in r.value ==> !x.HelpSwitch?
    ensures r.Success? ==> r.value == if Contributes(t) then DeclaredArgs(anns, t, isFlag) else []
  {
    if t.Some? && !IsSupported(t.value) && !AcceptsSender(t.value) then
      Failure(UnsupportedType(t.value.canonicalName))
    else if Contributes(t) then AnnotationsArgs(anns, t, isFlag)
    else Success([])
  }

  /** The type of parameter `i`, when types are known and cover it. */
  function ParamType(types: Option<seq<JavaType>>, i: nat): Option<JavaType> {
    if types.Some? && i < |types.value| then Some(types.value[i]) else None
  }

  /** Parameter `i` passes the checks of the grammar builder. */
  predicate ParamAccepted(annots: seq<seq<ParamAnnotation>>, types: Option<seq<JavaType>>, i: nat)
    requires i < |annots|
  {
    var t := ParamType(types, i);
    TypeAccepted(t) && (Contributes(t) ==> forall k :: 0 <= k < |annots[i]| ==> AnnotationAccepted(annots[i][k]))
  }

  /** Parameter `j` is the first of parameters `i..` the grammar builder rejects. */
  predicate FirstRejected(annots: seq<seq<ParamAnnotation>>, types: Option<seq<JavaType>>, i: nat, j: nat) {
    i <= j < |annots| && !ParamAccepted(annots, types, j) &&
    forall j' :: i <= j' < j ==> ParamAccepted(annots, types, j')
  }

  /** The arguments parameters `i..` declare: those of every parameter whose annotations are
      read, in parameter order. */
  function DeclaredParamArgs(annots: seq<seq<ParamAnnotation>>, types: Option<seq<JavaType>>, flags: seq<bool>, i: nat)
    : seq<ArgSpec>
    requires |flags| == |annots| && i <= |annots|
    decreases |annots| - i
  {
    if i == |annots| then []
    else
      (if Contributes(ParamType(types, i)) then DeclaredArgs(annots[i], ParamType(types, i), flags[i]) else [])
      + DeclaredParamArgs(annots, types, flags, i + 1)
  }

  lemma FirstRejectedAfterAccepted(annots: seq<seq<ParamAnnotation>>, types: Option<seq<JavaType>>, i: nat)
    requires i < |annots| && ParamAccepted(annots, types, i)
    ensures forall j: nat :: FirstRejected(annots, types, i + 1, j) ==> FirstRejected(annots, types, i, j)
  {
  }

  /** The arguments of parameters `i..`, failing at the first parameter that is not accepted. */
  function ParamsArgs(annots: seq<seq<ParamAnnotation>>, types: Option<seq<JavaType>>, flags: seq<bool>, i: nat)
    : (r: Result<seq<ArgSpec>, ConfigError>)
    requires |flags| == |annots| && i <= |annots|
    ensures r.Success? <==> forall j :: i <= j < |annots| ==> ParamAccepted(annots, types, j)
    ensures r.Success? ==> forall x :: x in r.value ==> !x.HelpSwitch?
    ensures r.Success? ==> r.value == DeclaredParamArgs(annots, types, flags, i)
    ensures r.Failure? ==>
              exists j: nat :: FirstRejected(annots, types, i, j) &&
                          r == ParamArgs(annots[j], ParamType(types, j), flags[j]).PropagateFailure()
    decreases |annots| - i
  {
    if i == |annots| then Success([])
    else
      var head := ParamArgs(annots[i], ParamType(types, i), flags[i]);
      if head.Failure? then
        assert !ParamAccepted(annots, types, i);
        Failure(head.error)
      else
        var tail := ParamsArgs(annots, types, flags, i + 1);
        if tail.Failure? then
          FirstRejectedAfterAccepted(annots, types, i);
          tail
        else Success(head.value + tail.value)
  }

  /** Every argument each parameter contributes is among the collected arguments. */
  lemma {:induction false} ParamsArgsContainEachParam(annots: seq<seq<ParamAnnotation>>, types: Option<seq<JavaType>>,
                                                      flags: seq<bool>, i: nat)
    requires |flags| == |annots| && i <= |annots|
    requires ParamsArgs(annots, types, flags, i).Success?
    ensures forall j :: i <= j < |annots| ==>
              ParamArgs(annots[j], ParamType(types, j), flags[j]).Success? &&
              forall x :: x in ParamArgs(annots[j], ParamType(types, j), flags[j]).value ==>
                x in ParamsArgs(annots, types, flags, i).value
    decreases |annots| - i
  {
    if i < |annots| {
      var head := ParamArgs(annots[i], ParamType(types, i), flags[i]).value;
      var tail := ParamsArgs(annots, types, flags, i + 1).value;
      var all := ParamsArgs(annots, types, flags, i).value;
      assert all == head + tail;
      ParamsArgsContainEachParam(annots, types, flags, i + 1);
      forall j | i < j < |annots|
        ensures forall x :: x in ParamArgs(annots[j], ParamType(types, j), flags[j]).value ==> x in all
      {
      }
    }
  }

  /** `getArgumentParser`: the help switch followed by every parameter's arguments. With
      `types == None` (as at annotation-processing time) type checks and converted positional
      defaults are skipped. Fails with the first parameter's error, in parameter order. */
  function BuildGrammar(command: string, description: string, annots: seq<seq<ParamAnnotation>>,
                        types: Option<seq<JavaType>>, flags: seq<bool>): (r: Result<Grammar, ConfigError>)
    requires |flags| == |annots|
    ensures r.Success? <==> forall i :: 0 <= i < |annots| ==> ParamAccepted(annots, types, i)
    ensures r.Success? ==> r.value.prog == "/" + command && r.value.description == description
    ensures r.Success? ==> |r.value.args| > 0 && r.value.args[0] == HelpArg
    ensures r.Success? ==> forall k :: 1 <= k < |r.value.args| ==> !r.value.args[k].HelpSwitch?
    ensures r.Success? ==> r.value.args == [HelpArg] + DeclaredParamArgs(annots, types, flags, 0)
    ensures r.Failure? ==> r.error != InternalError
    ensures r.Failure? ==> (exists j: nat :: FirstRejected(annots, types, 0, j) &&
                              r.error == ParamArgs(annots[j], ParamType(types, j), flags[j]).error)
    ensures types.None? && r.Failure? ==> r.error == OptionNameMissing
  {
    match ParamsArgs(annots, types, flags, 0)
    case Failure(e) => Failure(e)
    case Success(args) =>
      assert forall k :: 1 <= k < |[HelpArg] + args| ==> ([HelpArg] + args)[k] == args[k - 1];
      Success(Grammar("/" + command, description, [HelpArg] + args))
  }

  /** The positional arguments of `args` as (name, zero-or-one) pairs, in order. */
  function Positionals(args: seq<ArgSpec>): seq<(string, bool)>
    decreases |args|
  {
    if |args| == 0 then []
    else (if args[0].PositionalArg? then [(args[0].name, args[0].zeroOrOne)] else []) + Positionals(args[1..])
  }

  lemma {:induction false} PositionalsAppend(a: seq<ArgSpec>, b: seq<ArgSpec>)
    ensures Positionals(a + b) == Positionals(a) + Positionals(b)
    decreases |a|
  {
    if |a| == 0 {
      assert a + b == b;
    } else {
      assert (a + b)[1..] == a[1..] + b;
      assert (a + b)[0] == a[0];
      PositionalsAppend(a[1..], b);
    }
  }

  /** The `@CommandParameter` annotations among `anns` as (name, optional) pairs, in order. */
  function DeclaredParameters(anns: seq<ParamAnnotation>): seq<(string, bool)>
    decreases |anns|
  {
    if |anns| == 0 then []
    else
      (if anns[0].ParameterAnnotation? then [(anns[0].parameter.name, anns[0].parameter.optional)] else [])
      + DeclaredParameters(anns[1..])
  }

  /** The declared positionals of parameters `i..` whose annotations are read. */
  function DeclaredPositionals(annots: seq<seq<ParamAnnotation>>, types: Option<seq<JavaType>>, i: nat)
    : seq<(string, bool)>
    requires i <= |annots|
    decreases |annots| - i
  {
    if i == |annots| then []
    else
      (if Contributes(ParamType(types, i)) then DeclaredParameters(annots[i]) else [])
      + DeclaredPositionals(annots, types, i + 1)
  }

  lemma {:induction false} AnnotationsPositionals(anns: seq<ParamAnnotation>, t: Option<JavaType>, isFlag: bool)
    requires t.None? || IsSupported(t.value)
    requires AnnotationsArgs(anns, t, isFlag).Success?
    ensures Positionals(AnnotationsArgs(anns, t, isFlag).value) == DeclaredParameters(anns)
    decreases |anns|
  {
    if |anns| > 0 {
      var head := AnnotationArgs(anns[0], t, isFlag).value;
      AnnotationsPositionals(anns[1..], t, isFlag);
      PositionalsAppend(head, AnnotationsArgs(anns[1..], t, isFlag).value);
      assert Positionals(head) == (if anns[0].ParameterAnnotation? then [(anns[0].parameter.name, anns[0].parameter.optional)] else []) by {
        if |head| > 0 {
          assert head[1..] == [];
        }
      }
    }
  }

  lemma {:induction false} ParamsPositionals(annots: seq<seq<ParamAnnotation>>, types: Option<seq<JavaType>>,
                                             flags: seq<bool>, i: nat)
    requires |flags| == |annots| && i <= |annots|
    requires ParamsArgs(annots, types, flags, i).Success?
    ensures Positionals(ParamsArgs(annots, types, flags, i).value) == DeclaredPositionals(annots, types, i)
    decreases |annots| - i
  {
    if i < |annots| {
      var t := ParamType(types, i);
      var head := ParamArgs(annots[i], t, flags[i]).value;
      ParamsPositionals(annots, types, flags, i + 1);
      PositionalsAppend(head, ParamsArgs(annots, types, flags, i + 1).value);
      if Contributes(t) {
        AnnotationsPositionals(annots[i], t, flags[i]);
      }
    }
  }

  /** The positionals of a built grammar are exactly the `@CommandParameter`s of the parameters
      whose annotations are read, in declaration order, zero-or-one exactly when optional. */
  lemma GrammarPositionalsFollowDeclarations(command: string, description: string,
                                             annots: seq<seq<ParamAnnotation>>, types: Option<seq<JavaType>>,
                                             flags: seq<bool>)
    requires |flags| == |annots|
    requires BuildGrammar(command, description, annots, types, flags).Success?
    ensures Positionals(BuildGrammar(command, description, annots, types, flags).value.args)
            == DeclaredPositionals(annots, types, 0)
  {
    var args := ParamsArgs(annots, types, flags, 0).value;
    ParamsPositionals(annots, types, flags, 0);
    PositionalsAppend([HelpArg], args);
    assert Positionals([HelpArg]) == [];
  }

  /** `getMethodCommands`: the direct `@Command`, if any, then the `Command.List` entries. */
  function MethodCommands(a: CommandAnnotations): (r: seq<Command>)
    ensures |r| == (if a.direct.Some? then 1 else 0) + (if a.list.Some? then |a.list.value| else 0)
    ensures a.direct.Some? ==> r[0] == a.direct.value
    ensures a.list.Some? ==> r[|r| - |a.list.value|..] == a.list.value
  {
    (if a.direct.Some? then [a.direct.value] else []) + (if a.list.Some? then a.list.value else [])
  }

  /** However often `@Command` is written on a method, it is read back in the order written. */
  lemma MethodCommandsOfDeclare(cs: seq<Command>)
    ensures MethodCommands(Declare(cs)) == cs
  {
  }
}

=== FILE: dispatch_properties.dfy ===
/** Properties of the dispatch loop of `onCommand`, stated over the entries it visits. */
module DispatchProperties {
  import opened Wrappers
  import opened CommandUtils
  import opened CommandExecutor

  /** Entry `c` is for the invoked command and its parse asks for help. */
  predicate AsksHelp(host: Host, c: Candidate, name: string, args: seq<string>) {
    c.entry.name == name && host.parse(c.entry.grammar, args).HelpRequested?
  }

  /** Entry `c` leaves `onCommand` when reached with owner cache `o`: it parses, and then either
      the owner's constructor throws, or the owner is obtained and binding throws or invocation
      completes or throws an uncaught exception. */
  predicate Ends(host: Host, c: Candidate, name: string, args: seq<string>, o: Owners)
    requires WellFormed(c.handler)
  {
    c.entry.name == name && host.parse(c.entry.grammar, args).Parsed? &&
    (OwnerThrows(host, o, c.handler.declaringClass) ||
     (Available(host, o, c.handler.declaringClass) &&
      var b := Bind(c.handler.paramTypes, c.handler.paramAnnotations, host.parse(c.entry.grammar, args).namespace);
      (b.Failure? || host.invoke(c.handler, b.value).Completed? || host.invoke(c.handler, b.value).ArgumentsRejected?)))
  }

  /** Entry `c` is handled when reached with owner cache `o`: parse, owner, binding and
      invocation all succeed. */
  predicate Handles(host: Host, c: Candidate, name: string, args: seq<string>, o: Owners)
    requires WellFormed(c.handler)
  {
    c.entry.name == name && host.parse(c.entry.grammar, args).Parsed? &&
    Available(host, o, c.handler.declaringClass) &&
    var b := Bind(c.handler.paramTypes, c.handler.paramAnnotations, host.parse(c.entry.grammar, args).namespace);
    b.Success? && host.invoke(c.handler, b.value).Completed?
  }

  predicate AllWellFormed(cs: seq<Candidate>) {
    forall k :: 0 <= k < |cs| ==> WellFormed(cs[k].handler)
  }

  /** One iteration leaves the loop exactly when the entry `Ends`, and returns `true` exactly
      when it `Handles`. */
  lemma TryCandidateStops(host: Host, c: Candidate, name: string, args: seq<string>, s: Session)
    requires WellFormed(c.handler)
    ensures TryCandidate(host, c, name, args, s).Stop? <==> Ends(host, c, name, args, s.owners)
    ensures (TryCandidate(host, c, name, args, s).Stop? && TryCandidate(host, c, name, args, s).result == Success(true))
            <==> Handles(host, c, name, args, s.owners)
    ensures TryCandidate(host, c, name, args, s).Continue? ==>
              (TryCandidate(host, c, name, args, s).session.displayingHelp <==>
               s.displayingHelp || AsksHelp(host, c, name, args))
  {
  }

  /** An entry that parses but whose owner cannot be created: a checked instantiation failure is
      logged and the loop goes on; an exception from the owner's constructor leaves `onCommand`. */
  lemma OwnerFailureOutcomes(host: Host, c: Candidate, name: string, args: seq<string>, s: Session)
    requires WellFormed(c.handler)
    requires c.entry.name == name && host.parse(c.entry.grammar, args).Parsed?
    requires c.handler.declaringClass !in s.owners.cache
    ensures host.instantiate(c.handler.declaringClass).NotInstantiable? ==>
              TryCandidate(host, c, name, args, s) ==
              Continue(s.(trace := s.trace + [Severe(InstantiationMessage(c.handler))]))
    ensures host.instantiate(c.handler.declaringClass).ConstructorThrew? ==>
              TryCandidate(host, c, name, args, s) ==
              Stop(Failure(OwnerConstructorThrew(c.handler.declaringClass)), s)
  {
  }

  /** The help messages among the lines `t`, in order. */
  function HelpTexts(t: seq<Line>): seq<string>
    decreases |t|
  {
    if |t| == 0 then []
    else HelpTexts(t[..|t| - 1]) + (if t[|t| - 1].HelpText? then [t[|t| - 1].text] else [])
  }

  /** The help of each entry among `cs` that asks for it, in entry order. */
  function AskedHelp(host: Host, cs: seq<Candidate>, name: string, args: seq<string>): seq<string>
    decreases |cs|
  {
    if |cs| == 0 then []
    else
      (if AsksHelp(host, cs[0], name, args) then [host.formatHelp(cs[0].entry.grammar)] else [])
      + AskedHelp(host, cs[1..], name, args)
  }

  /** An iteration that lets the loop go on adds the entry's help exactly when it asks for it,
      and no other help. */
  lemma TryCandidateHelpTexts(host: Host, c: Candidate, name: string, args: seq<string>, s: Session)
    requires WellFormed(c.handler)
    requires TryCandidate(host, c, name, args, s).Continue?
    ensures HelpTexts(TryCandidate(host, c, name, args, s).session.trace) ==
            HelpTexts(s.trace) + (if AsksHelp(host, c, name, args) then [host.formatHelp(c.entry.grammar)] else [])
  {
    HelpTextsOfStep(s.trace, TryCandidate(host, c, name, args, s).session.trace,
                    AsksHelp(host, c, name, args), host.formatHelp(c.entry.grammar));
  }

  /** A step that adds help `h` when `asked`, and otherwise at most one SEVERE line. */
  lemma HelpTextsOfStep(before: seq<Line>, after: seq<Line>, asked: bool, h: string)
    requires asked ==> after == before + [HelpText(h)]
    requires !asked ==> AtMostOneSevere(before, after)
    ensures HelpTexts(after) == HelpTexts(before) + (if asked then [h] else [])
  {
    if asked {
      HelpTextsSnoc(before, HelpText(h));
    } else if |after| > |before| {
      assert after == before + [after[|before|]];
      HelpTextsSnoc(before, after[|before|]);
    } else {
      assert after == before;
    }
  }

  lemma HelpTextsSnoc(t: seq<Line>, l: Line)
    ensures HelpTexts(t + [l]) == HelpTexts(t) + (if l.HelpText? then [l.text] else [])
  {
    assert (t + [l])[..|t|] == t;
  }

  /** A loop that runs through all of `cs` has sent, after what was sent before, the help of
      every entry that asked for it, in entry order, and no other help. */
  lemma {:induction false} RunHelpTexts(host: Host, cs: seq<Candidate>, name: string, args: seq<string>, s: Session)
    requires AllWellFormed(cs)
    requires RunCandidates(host, cs, name, args, s).Continue?
    ensures HelpTexts(RunCandidates(host, cs, name, args, s).session.trace) ==
            HelpTexts(s.trace) + AskedHelp(host, cs, name, args)
    decreases |cs|
  {
    if |cs| > 0 {
      var step := TryCandidate(host, cs[0], name, args, s);
      assert step.Continue?;
      assert AllWellFormed(cs[1..]);
      var rest := RunCandidates(host, cs[1..], name, args, step.session);
      assert RunCandidates(host, cs, name, args, s) == rest;
      TryCandidateHelpTexts(host, cs[0], name, args, s);
      RunHelpTexts(host, cs[1..], name, args, step.session);
      HelpTextsChain(s.trace, step.session.trace, rest.session.trace,
                     if AsksHelp(host, cs[0], name, args) then [host.formatHelp(cs[0].entry.grammar)] else [],
                     AskedHelp(host, cs[1..], name, args));
    }
  }

  lemma HelpTextsChain(t0: seq<Line>, t1: seq<Line>, t2: seq<Line>, mine: seq<string>, later: seq<string>)
    requires HelpTexts(t1) == HelpTexts(t0) + mine
    requires HelpTexts(t2) == HelpTexts(t1) + later
    ensures HelpTexts(t2) == HelpTexts(t0) + (mine + later)
  {
    assert (HelpTexts(t0) + mine) + later == HelpTexts(t0) + (mine + later);
  }

  /** `Ends` and `Handles` depend on the owner cache only through which classes are available. */
  lemma SameAvailabilitySameVerdict(host: Host, c: Candidate, name: string, args: seq<string>, o1: Owners, o2: Owners)
    requires WellFormed(c.handler)
    requires forall cls :: Available(host, o1, cls) == Available(host, o2, cls)
    ensures Ends(host, c, name, args, o1) == Ends(host, c, name, args, o2)
    ensures Handles(host, c, name, args, o1) == Handles(host, c, name, args, o2)
  {
    assert Available(host, o1, c.handler.declaringClass) == Available(host, o2, c.handler.declaringClass);
  }

  /** The loop leaves `onCommand` early exactly when some entry `Ends`. */
  lemma {:induction false} RunStopsIffSomeEntryEnds(host: Host, cs: seq<Candidate>, name: string, args: seq<string>, s: Session)
    requires AllWellFormed(cs)
    ensures RunCandidates(host, cs, name, args, s).Stop? <==>
            exists k :: 0 <= k < |cs| && Ends(host, cs[k], name, args, s.owners)
    decreases |cs|
  {
    if |cs| > 0 {
      TryCandidateStops(host, cs[0], name, args, s);
      var t := TryCandidate(host, cs[0], name, args, s);
      if t.Continue? {
        RunStopsIffSomeEntryEnds(host, cs[1..], name, args, t.session);
        forall k | 1 <= k < |cs|
          ensures Ends(host, cs[k], name, args, s.owners) == Ends(host, cs[1..][k - 1], name, args, t.session.owners)
        {
          SameAvailabilitySameVerdict(host, cs[k], name, args, s.owners, t.session.owners);
        }
        if exists k :: 0 <= k < |cs| && Ends(host, cs[k], name, args, s.owners) {
          var k :| 0 <= k < |cs| && Ends(host, cs[k], name, args, s.owners);
          assert k > 0;
          assert Ends(host, cs[1..][k - 1], name, args, t.session.owners);
        }
      }
    }
  }

  /** Some entry handles the call and no entry before it ends the loop. */
  predicate FirstEndingHandles(host: Host, cs: seq<Candidate>, name: string, args: seq<string>, o: Owners)
    requires AllWellFormed(cs)
  {
    exists k :: 0 <= k < |cs| && Handles(host, cs[k], name, args, o) &&
                forall j :: 0 <= j < k ==> !Ends(host, cs[j], name, args, o)
  }

  /** The first entry either handles the call, or does not end the loop and leaves the
      question to the rest. */
  lemma FirstEndingHandlesCons(host: Host, cs: seq<Candidate>, name: string, args: seq<string>, o: Owners)
    requires AllWellFormed(cs) && |cs| > 0
    ensures AllWellFormed(cs[1..])
    ensures FirstEndingHandles(host, cs, name, args, o) <==>
              Handles(host, cs[0], name, args, o) ||
              (!Ends(host, cs[0], name, args, o) && FirstEndingHandles(host, cs[1..], name, args, o))
  {
    if FirstEndingHandles(host, cs, name, args, o) && !Handles(host, cs[0], name, args, o) {
      FirstEndingHandlesLater(host, cs, name, args, o);
    }
    if !Ends(host, cs[0], name, args, o) && FirstEndingHandles(host, cs[1..], name, args, o) {
      FirstEndingHandlesEarlier(host, cs, name, args, o);
    }
  }

  lemma FirstEndingHandlesLater(host: Host, cs: seq<Candidate>, name: string, args: seq<string>, o: Owners)
    requires AllWellFormed(cs) && |cs| > 0
    requires FirstEndingHandles(host, cs, name, args, o) && !Handles(host, cs[0], name, args, o)
    ensures AllWellFormed(cs[1..])
    ensures !Ends(host, cs[0], name, args, o) && FirstEndingHandles(host, cs[1..], name, args, o)
  {
    var k :| 0 <= k < |cs| && Handles(host, cs[k], name, args, o) &&
             forall j :: 0 <= j < k ==> !Ends(host, cs[j], name, args, o);
    assert k > 0;
    assert cs[1..][k - 1] == cs[k];
    assert forall j :: 0 <= j < k - 1 ==> cs[1..][j] == cs[j + 1];
  }

  lemma FirstEndingHandlesEarlier(host: Host, cs: seq<Candidate>, name: string, args: seq<string>, o: Owners)
    requires AllWellFormed(cs) && |cs| > 0
    requires AllWellFormed(cs[1..])
    requires !Ends(host, cs[0], name, args, o) && FirstEndingHandles(host, cs[1..], name, args, o)
    ensures FirstEndingHandles(host, cs, name, args, o)
  {
    var k :| 0 <= k < |cs| - 1 && Handles(host, cs[1..][k], name, args, o) &&
             forall j :: 0 <= j < k ==> !Ends(host, cs[1..][j], name, args, o);
    assert cs[k + 1] == cs[1..][k];
    assert forall j :: 1 <= j < k + 1 ==> cs[j] == cs[1..][j - 1];
  }

  /** Owner caches that make the same classes available give the same answer. */
  lemma FirstEndingHandlesOwners(host: Host, cs: seq<Candidate>, name: string, args: seq<string>, o1: Owners, o2: Owners)
    requires AllWellFormed(cs)
    requires forall cls :: Available(host, o1, cls) == Available(host, o2, cls)
    ensures FirstEndingHandles(host, cs, name, args, o1) == FirstEndingHandles(host, cs, name, args, o2)
  {
    forall k | 0 <= k < |cs|
      ensures Ends(host, cs[k], name, args, o1) == Ends(host, cs[k], name, args, o2)
      ensures Handles(host, cs[k], name, args, o1) == Handles(host, cs[k], name, args, o2)
    {
      SameAvailabilitySameVerdict(host, cs[k], name, args, o1, o2);
    }
  }

  /** `onCommand` returns `true` from the loop exactly when the first entry that `Ends` is one
      that `Handles`: a later entry is never tried. */
  lemma {:induction false} RunHandledIffFirstEndingHandles(host: Host, cs: seq<Candidate>, name: string, args: seq<string>,
                                                           s: Session)
    requires AllWellFormed(cs)
    ensures (RunCandidates(host, cs, name, args, s).Stop? && RunCandidates(host, cs, name, args, s).result == Success(true))
            <==> FirstEndingHandles(host, cs, name, args, s.owners)
    decreases |cs|
  {
    if |cs| > 0 {
      TryCandidateStops(host, cs[0], name, args, s);
      FirstEndingHandlesCons(host, cs, name, args, s.owners);
      var t := TryCandidate(host, cs[0], name, args, s);
      if t.Continue? {
        RunHandledIffFirstEndingHandles(host, cs[1..], name, args, t.session);
        FirstEndingHandlesOwners(host, cs[1..], name, args, s.owners, t.session.owners);
      }
    }
  }


  /** When the loop runs out, `displayingHelp` is set exactly when some entry for the invoked
      command asked for help (or it was set before). */
  lemma {:induction false} RunExhaustedHelpFlag(host: Host, cs: seq<Candidate>, name: string, args: seq<string>, s: Session)
    requires AllWellFormed(cs)
    requires RunCandidates(host, cs, name, args, s).Continue?
    ensures RunCandidates(host, cs, name, args, s).session.displayingHelp <==>
            s.displayingHelp || exists k :: 0 <= k < |cs| && AsksHelp(host, cs[k], name, args)
    decreases |cs|
  {
    if |cs| > 0 {
      TryCandidateStops(host, cs[0], name, args, s);
      var t := TryCandidate(host, cs[0], name, args, s);
      RunExhaustedHelpFlag(host, cs[1..], name, args, t.session);
      if exists k :: 0 <= k < |cs| && AsksHelp(host, cs[k], name, args) {
        var k :| 0 <= k < |cs| && AsksHelp(host, cs[k], name, args);
        if k > 0 {
          assert AsksHelp(host, cs[1..][k - 1], name, args);
        }
      }
      if exists k :: 0 <= k < |cs[1..]| && AsksHelp(host, cs[1..][k], name, args) {
        var k :| 0 <= k < |cs[1..]| && AsksHelp(host, cs[1..][k], name, args);
        assert AsksHelp(host, cs[k + 1], name, args);
      }
    }
  }

  /** The entries for the invoked command, in order. */
  function Matching(cs: seq<Candidate>, name: string): (r: seq<Candidate>)
    ensures forall c :: c in r <==> c in cs && c.entry.name == name
    decreases |cs|
  {
    if |cs| == 0 then []
    else (if cs[0].entry.name == name then [cs[0]] else []) + Matching(cs[1..], name)
  }

  /** Only entries whose name equals the invoked command's are ever parsed: dropping the others
      changes nothing. */
  lemma {:induction false} OnlyMatchingEntriesMatter(host: Host, cs: seq<Candidate>, name: string, args: seq<string>, s: Session)
    requires AllWellFormed(cs)
    ensures AllWellFormed(Matching(cs, name))
    ensures RunCandidates(host, cs, name, args, s) == RunCandidates(host, Matching(cs, name), name, args, s)
    decreases |cs|
  {
    if |cs| > 0 {
      OnlyMatchingEntriesMatter(host, cs[1..], name, args, s);
      var t := TryCandidate(host, cs[0], name, args, s);
      if t.Continue? {
        OnlyMatchingEntriesMatter(host, cs[1..], name, args, t.session);
      }
      var m := Matching(cs, name);
      assert forall k :: 0 <= k < |m| ==> m[k] in m;
      if cs[0].entry.name == name {
        assert m[0] == cs[0] && m[1..] == Matching(cs[1..], name);
      } else {
        assert m == Matching(cs[1..], name);
      }
    }
  }

  /** Running two lists of entries one after the other. */
  lemma {:induction false} RunAppend(host: Host, a: seq<Candidate>, b: seq<Candidate>, name: string, args: seq<string>, s: Session)
    requires AllWellFormed(a) && AllWellFormed(b)
    ensures AllWellFormed(a + b)
    ensures RunCandidates(host, a + b, name, args, s) ==
            match RunCandidates(host, a, name, args, s)
            case Stop(o, s1) => Stop(o, s1)
            case Continue(s1) => RunCandidates(host, b, name, args, s1)
    decreases |a|
  {
    if |a| == 0 {
      assert a + b == b;
    } else {
      assert (a + b)[0] == a[0] && (a + b)[1..] == a[1..] + b;
      var t := TryCandidate(host, a[0], name, args, s);
      if t.Continue? {
        RunAppend(host, a[1..], b, name, args, t.session);
      }
    }
  }

  /** The entries of all methods in visiting order, or the first method's error. */
  function AllCandidates(methods: seq<MethodRef>): (r: Result<seq<Candidate>, ConfigError>)
    requires forall k :: 0 <= k < |methods| ==> WellFormed(methods[k])
    ensures r.Success? ==> AllWellFormed(r.value)
    decreases |methods|
  {
    if |methods| == 0 then Success([])
    else
      match Entries(methods[0])
      case Failure(e) => Failure(e)
      case Success(es) =>
        match AllCandidates(methods[1..])
        case Failure(e) => Failure(e)
        case Success(rest) =>
          var r := CandidatesOf(methods[0], es) + rest;
          assert forall k :: 0 <= k < |r| ==> WellFormed(r[k].handler) by {
            forall k | 0 <= k < |r| ensures WellFormed(r[k].handler) {
              if k >= |es| {
                assert r[k] == rest[k - |es|];
              }
            }
          }
          Success(r)
  }

  /** When every method's grammars can be built, the two nested loops of `onCommand` are one
      loop over all entries in order. */
  lemma {:induction false} RunMethodsIsFlatRun(host: Host, methods: seq<MethodRef>, name: string, args: seq<string>, s: Session)
    requires forall k :: 0 <= k < |methods| ==> WellFormed(methods[k])
    requires AllCandidates(methods).Success?
    ensures RunMethods(host, methods, name, args, s) == RunCandidates(host, AllCandidates(methods).value, name, args, s)
    decreases |methods|
  {
    if |methods| > 0 {
      var es := Entries(methods[0]).value;
      var head := CandidatesOf(methods[0], es);
      var rest := AllCandidates(methods[1..]).value;
      RunAppend(host, head, rest, name, args, s);
      var t := RunCandidates(host, head, name, args, s);
      if t.Continue? {
        RunMethodsIsFlatRun(host, methods[1..], name, args, t.session);
      }
    }
  }

  predicate NoneEnds(host: Host, cs: seq<Candidate>, name: string, args: seq<string>, o: Owners)
    requires AllWellFormed(cs)
  {
    forall k :: 0 <= k < |cs| ==> !Ends(host, cs[k], name, args, o)
  }

  predicate SomeAsksHelp(host: Host, cs: seq<Candidate>, name: string, args: seq<string>) {
    exists k :: 0 <= k < |cs| && AsksHelp(host, cs[k], name, args)
  }

  /** What `onCommand` returns once the loop has produced `step`. */
  function Verdict(step: Step): Result<bool, Escape> {
    match step
    case Stop(o, _) => o
    case Continue(s) => Success(s.displayingHelp)
  }

  /** The loop over all entries, started with help not yet shown, returns `true` when the first
      entry that ends it is handled, or when none ends it and some entry asked for help. */
  lemma RunVerdict(host: Host, cs: seq<Candidate>, name: string, args: seq<string>, s: Session)
    requires AllWellFormed(cs) && !s.displayingHelp
    ensures Verdict(RunCandidates(host, cs, name, args, s)) == Success(true) <==>
              FirstEndingHandles(host, cs, name, args, s.owners) ||
              (NoneEnds(host, cs, name, args, s.owners) && SomeAsksHelp(host, cs, name, args))
    ensures Verdict(RunCandidates(host, cs, name, args, s)) == Success(false) <==>
              NoneEnds(host, cs, name, args, s.owners) && !SomeAsksHelp(host, cs, name, args)
  {
    RunStopsIffSomeEntryEnds(host, cs, name, args, s);
    RunHandledIffFirstEndingHandles(host, cs, name, args, s);
    if RunCandidates(host, cs, name, args, s).Continue? {
      RunExhaustedHelpFlag(host, cs, name, args, s);
    } else {
      assert !NoneEnds(host, cs, name, args, s.owners);
    }
  }

  /** The result of `onCommand` when every grammar can be built: `true` when the first entry that
      ends the loop is handled, or when none ends it and some entry for the command asked for
      help; `false` when no entry ends the loop and none asked for help; otherwise an exception. */
  lemma OnCommandResult(host: Host, methods: seq<MethodRef>, owners: Owners, name: string, args: seq<string>)
    requires forall k :: 0 <= k < |methods| ==> WellFormed(methods[k])
    requires AllCandidates(methods).Success?
    ensures var cs := AllCandidates(methods).value;
            var r := OnCommand(host, methods, owners, name, args);
            && (r.result == Success(true) <==>
                  FirstEndingHandles(host, cs, name, args, owners) ||
                  (NoneEnds(host, cs, name, args, owners) && SomeAsksHelp(host, cs, name, args)))
            && (r.result == Success(false) <==>
                  NoneEnds(host, cs, name, args, owners) && !SomeAsksHelp(host, cs, name, args))
  {
    var cs := AllCandidates(methods).value;
    var s := Session(false, owners, []);
    RunMethodsIsFlatRun(host, methods, name, args, s);
    RunVerdict(host, cs, name, args, s);
    assert OnCommand(host, methods, owners, name, args).result == Verdict(RunCandidates(host, cs, name, args, s));
  }

  /** A command no entry is declared for: `onCommand` returns `false`, emits nothing and leaves
      the owner cache as it was. */
  lemma UnknownCommandReturnsFalse(host: Host, methods: seq<MethodRef>, owners: Owners, name: string, args: seq<string>)
    requires forall k :: 0 <= k < |methods| ==> WellFormed(methods[k])
    requires AllCandidates(methods).Success?
    requires forall k :: 0 <= k < |AllCandidates(methods).value| ==> AllCandidates(methods).value[k].entry.name != name
    ensures OnCommand(host, methods, owners, name, args) == Reply(Success(false), owners, [])
  {
    var cs := AllCandidates(methods).value;
    var s := Session(false, owners, []);
    RunMethodsIsFlatRun(host, methods, name, args, s);
    OnlyMatchingEntriesMatter(host, cs, name, args, s);
    assert forall c :: c !in Matching(cs, name);
    assert Matching(cs, name) == [];
  }

  /** A grammar that cannot be built makes `onCommand` throw once its method is reached, whatever
      command was invoked, unless an entry of an earlier method already ended the loop. */
  lemma BrokenMethodEscapes(host: Host, methods: seq<MethodRef>, i: nat, owners: Owners, name: string, args: seq<string>)
    requires forall k :: 0 <= k < |methods| ==> WellFormed(methods[k])
    requires i < |methods|
    requires AllCandidates(methods[..i]).Success?
    requires NoneEnds(host, AllCandidates(methods[..i]).value, name, args, owners)
    requires Entries(methods[i]).Failure?
    ensures OnCommand(host, methods, owners, name, args).result == Failure(BadConfiguration(Entries(methods[i]).error))
  {
    var s := Session(false, owners, []);
    var pre := AllCandidates(methods[..i]).value;
    RunStopsIffSomeEntryEnds(host, pre, name, args, s);
    RunMethodsPrefix(host, methods, i, name, args, s);
    var t := RunCandidates(host, pre, name, args, s).session;
    var rest := methods[i..];
    assert rest[0] == methods[i];
    assert RunMethods(host, rest, name, args, t) == Stop(Failure(BadConfiguration(Entries(methods[i]).error)), t);
  }

  /** The entries of a non-empty list of methods are the first method's entries followed by
      the rest's. */
  lemma AllCandidatesCons(methods: seq<MethodRef>)
    requires forall k :: 0 <= k < |methods| ==> WellFormed(methods[k])
    requires |methods| > 0 && AllCandidates(methods).Success?
    ensures Entries(methods[0]).Success? && AllCandidates(methods[1..]).Success?
    ensures AllCandidates(methods).value ==
            CandidatesOf(methods[0], Entries(methods[0]).value) + AllCandidates(methods[1..]).value
  {
  }

  /** When the first method's entries run without ending the loop, `onCommand` goes on with
      the remaining methods. */
  lemma RunMethodsCons(host: Host, methods: seq<MethodRef>, name: string, args: seq<string>, s: Session)
    requires forall k :: 0 <= k < |methods| ==> WellFormed(methods[k])
    requires |methods| > 0 && Entries(methods[0]).Success?
    requires RunCandidates(host, CandidatesOf(methods[0], Entries(methods[0]).value), name, args, s).Continue?
    ensures RunMethods(host, methods, name, args, s) ==
            RunMethods(host, methods[1..], name, args,
                       RunCandidates(host, CandidatesOf(methods[0], Entries(methods[0]).value), name, args, s).session)
  {
  }

  /** Running the entries of the first `i` methods: the first method's entries, then, unless they
      end the loop, the entries of the next `i - 1`. */
  lemma PrefixRunStep(host: Host, methods: seq<MethodRef>, i: nat, name: string, args: seq<string>, s: Session)
    requires forall k :: 0 <= k < |methods| ==> WellFormed(methods[k])
    requires 0 < i <= |methods| && AllCandidates(methods[..i]).Success?
    ensures Entries(methods[0]).Success? && AllCandidates(methods[1..][..i - 1]).Success?
    ensures var t := RunCandidates(host, CandidatesOf(methods[0], Entries(methods[0]).value), name, args, s);
            RunCandidates(host, AllCandidates(methods[..i]).value, name, args, s) ==
              if t.Stop? then t else RunCandidates(host, AllCandidates(methods[1..][..i - 1]).value, name, args, t.session)
  {
    var pre := methods[..i];
    assert pre[0] == methods[0] && pre[1..] == methods[1..][..i - 1];
    AllCandidatesCons(pre);
    RunAppend(host, CandidatesOf(methods[0], Entries(methods[0]).value), AllCandidates(methods[1..][..i - 1]).value,
              name, args, s);
  }

  /** After the methods before `i` ran without ending the loop, `onCommand` goes on with method `i`. */
  lemma {:induction false} RunMethodsPrefix(host: Host, methods: seq<MethodRef>, i: nat, name: string, args: seq<string>,
                                            s: Session)
    requires forall k :: 0 <= k < |methods| ==> WellFormed(methods[k])
    requires i <= |methods|
    requires AllCandidates(methods[..i]).Success?
    requires RunCandidates(host, AllCandidates(methods[..i]).value, name, args, s).Continue?
    ensures RunMethods(host, methods, name, args, s) ==
            RunMethods(host, methods[i..], name, args, RunCandidates(host, AllCandidates(methods[..i]).value, name, args, s).session)
    decreases i
  {
    if i == 0 {
      assert methods[i..] == methods;
    } else {
      PrefixRunStep(host, methods, i, name, args, s);
      var t := RunCandidates(host, CandidatesOf(methods[0], Entries(methods[0]).value), name, args, s);
      RunMethodsCons(host, methods, name, args, s);
      RunMethodsPrefix(host, methods[1..], i - 1, name, args, t.session);
      assert methods[1..][i - 1..] == methods[i..];
    }
  }
}

=== FILE: java_lang.dfy ===
/** The slice of `java.lang` the command model relies on: parameter types, the supported-type
    test, and the `String` constructors of the wrapper classes used to convert defaults. */
module JavaLang {
  import opened Wrappers

  const IntMin: int := -0x8000_0000
  const IntMax: int := 0x7fff_ffff
  const LongMin: int := -0x8000_0000_0000_0000
  const LongMax: int := 0x7fff_ffff_ffff_ffff

  /** The declared type of a handler parameter. The seven supported types have their own
      constructors (`primitive` tells `int` from `Integer`); every other class is a `ClassType`
      carrying its canonical name and whether `isAssignableFrom(CommandSender.class)` holds. */
  datatype JavaType =
    | BooleanType(primitive: bool)
    | IntType(primitive: bool)
    | LongType(primitive: bool)
    | StringType
    | ClassType(canonicalName: string, acceptsSender: bool)

  /** `CommandUtils.isSupportedType`. */
  predicate IsSupported(t: JavaType) {
    !t.ClassType?
  }

  /** A parameter the command sender itself can be passed to. */
  predicate AcceptsSender(t: JavaType) {
    t.ClassType? && t.acceptsSender
  }

  /** `boolean` or `Boolean`: the parameters that become presence flags. */
  predicate IsBoolean(t: JavaType) {
    t.BooleanType?
  }

  /** The supported types are exactly boolean, Boolean, int, Integer, long, Long and String. */
  lemma SupportedTypesAreTheSeven(t: JavaType)
    ensures IsSupported(t) <==> t in {BooleanType(true), BooleanType(false), IntType(true), IntType(false),
                                      LongType(true), LongType(false), StringType}
    ensures IsSupported(t) ==> !AcceptsSender(t)
  {
  }

  /** A value held by a parser namespace or handed to a handler. */
  datatype Value = BoolValue(b: bool) | IntValue(i: int) | LongValue(l: int) | StringValue(s: string)

  predicate IsDigit(c: char) {
    '0' <= c <= '9'
  }

  /** `Character.isLetterOrDigit`, restricted to ASCII letters and digits. */
  predicate IsLetterOrDigit(c: char) {
    'a' <= c <= 'z' || 'A' <= c <= 'Z' || IsDigit(c)
  }

  predicate AllDigits(s: string) {
    forall i :: 0 <= i < |s| ==> IsDigit(s[i])
  }

  /** The value of a string of decimal digits. */
  function DigitsValue(s: string): nat
    requires AllDigits(s)
    decreases |s|
  {
    if |s| == 0 then 0 else DigitsValue(s[..|s| - 1]) * 10 + (s[|s| - 1] as int - '0' as int)
  }

  function DigitChar(d: nat): (c: char)
    requires d < 10
    ensures IsDigit(c) && c as int - '0' as int == d
  {
    ('0' as int + d) as char
  }

  /** The shortest decimal digits of `n`. */
  function NatDigits(n: nat): (r: string)
    ensures |r| > 0 && AllDigits(r)
    decreases n
  {
    if n < 10 then [DigitChar(n)] else NatDigits(n / 10) + [DigitChar(n % 10)]
  }

  /** `Integer.toString` / `Long.toString`: a minus sign for negatives, then the digits. */
  function Decimal(n: int): string {
    if n < 0 then "-" + NatDigits(-n) else NatDigits(n)
  }

  /** `Integer.parseInt` / `Long.parseLong` in base 10, with `[lo, hi]` the type's range: an
      optional sign followed by at least one digit, and a value within range; `None` stands
      for the `NumberFormatException`. */
  function ParseDecimal(s: string, lo: int, hi: int): (r: Option<int>)
    ensures r.Some? ==> lo <= r.value <= hi
    ensures r.Some? ==> |s| > 0
    ensures r.Some? && s[0] != '-' && s[0] != '+' ==> AllDigits(s) && r.value == DigitsValue(s)
    ensures r.Some? && (s[0] == '-' || s[0] == '+') ==> |s| > 1 && AllDigits(s[1..])
    ensures r.Some? && s[0] == '-' ==> r.value == 0 - DigitsValue(s[1..])
    ensures r.Some? && s[0] == '+' ==> r.value == DigitsValue(s[1..])
    ensures |s| == 0 ==> r.None?
    ensures |s| > 0 &&
            (var d := if s[0] == '-' || s[0] == '+' then s[1..] else s;
             |d| > 0 && AllDigits(d) && lo <= (if s[0] == '-' then 0 - DigitsValue(d) else DigitsValue(d)) <= hi) ==>
            r.Some?
  {
    if |s| == 0 then None
    else
      var negative := s[0] == '-';
      var digits := if s[0] == '-' || s[0] == '+' then s[1..] else s;
      if |digits| == 0 || !AllDigits(digits) then None
      else
        var v: int := if negative then 0 - DigitsValue(digits) else DigitsValue(digits);
        if lo <= v <= hi then Some(v) else None
  }

  lemma {:induction false} DigitsRoundTrip(n: nat)
    ensures DigitsValue(NatDigits(n)) == n
    decreases n
  {
    if n >= 10 {
      DigitsRoundTrip(n / 10);
      var s := NatDigits(n);
      assert s[..|s| - 1] == NatDigits(n / 10);
    }
  }

  /** Printing a number in range and parsing it back gives the number. */
  lemma DecimalRoundTrip(n: int, lo: int, hi: int)
    requires lo <= n <= hi
    ensures ParseDecimal(Decimal(n), lo, hi) == Some(n)
  {
    var s := Decimal(n);
    if n < 0 {
      DigitsRoundTrip(-n);
      assert s[0] == '-' && s[1..] == NatDigits(-n);
    } else {
      DigitsRoundTrip(n);
      assert IsDigit(s[0]);
    }
  }

  /** Non-canonical spellings parse too: a plus sign, leading zeros, and a negative zero. */
  lemma ParseDecimalAcceptsNonCanonical()
    ensures ParseDecimal("+7", IntMin, IntMax) == Some(7)
    ensures ParseDecimal("007", IntMin, IntMax) == Some(7)
    ensures ParseDecimal("-0", IntMin, IntMax) == Some(0)
  {
    assert DigitsValue("7") == 7;
    assert "007"[..2] == "00" && "00"[..1] == "0";
  }

  function LowerAscii(c: char): char {
    if 'A' <= c <= 'Z' then (c as int + 32) as char else c
  }

  /** `new Boolean(s)`: true exactly for "true" in any letter case; it never fails. */
  function ParseBoolean(s: string): (r: bool)
    ensures r ==> |s| == 4
    ensures r <==> |s| == 4 && forall i :: 0 <= i < 4 ==> LowerAscii(s[i]) == "true"[i]
  {
    |s| == 4 && LowerAscii(s[0]) == 't' && LowerAscii(s[1]) == 'r' && LowerAscii(s[2]) == 'u'
    && LowerAscii(s[3]) == 'e'
  }
}

=== FILE: ordered_maps.dfy ===
/** Insertion-ordered maps (Java's `LinkedHashMap`) as sequences of key/value pairs. */
module OrderedMaps {
  import opened Wrappers
  import opened Seqs

  type OrderedMap<K, V> = seq<(K, V)>

  function Keys<K, V>(m: OrderedMap<K, V>): (r: seq<K>)
    ensures |r| == |m|
    ensures forall i :: 0 <= i < |m| ==> r[i] == m[i].0
  {
    seq(|m|, i requires 0 <= i < |m| => m[i].0)
  }

  predicate WellFormed<K(==), V>(m: OrderedMap<K, V>) {
    Distinct(Keys(m))
  }

  /** `get`: the value stored under `k`, `None` for Java's null. */
  function Get<K(==), V>(m: OrderedMap<K, V>, k: K): (r: Option<V>)
    ensures r.None? <==> k !in Keys(m)
    ensures r.Some? ==> exists i :: 0 <= i < |m| && m[i] == (k, r.value)
    decreases |m|
  {
    if |m| == 0 then None
    else if m[|m| - 1].0 == k then Some(m[|m| - 1].1)
    else
      assert Keys(m[..|m| - 1]) == Keys(m)[..|m| - 1];
      Get(m[..|m| - 1], k)
  }

  /** In a well-formed map the pair at index `i` is the one `Get` finds. */
  lemma {:induction false} GetAt<K, V>(m: OrderedMap<K, V>, i: nat)
    requires WellFormed(m) && i < |m|
    ensures Get(m, m[i].0) == Some(m[i].1)
    decreases |m|
  {
    if i < |m| - 1 {
      assert Keys(m[..|m| - 1]) == Keys(m)[..|m| - 1];
      assert m[|m| - 1].0 != m[i].0 by {
        assert Keys(m)[i] != Keys(m)[|m| - 1];
      }
      GetAt(m[..|m| - 1], i);
    }
  }

  /** Looking a key up in a map with one more pair at the end. */
  lemma GetSnoc<K, V>(m: OrderedMap<K, V>, p: (K, V), k: K)
    ensures Get(m + [p], k) == if p.0 == k then Some(p.1) else Get(m, k)
  {
    assert (m + [p])[..|m|] == m;
  }

  /** A map splits into its pairs before the last one and the last pair. */
  lemma WellFormedInit<K, V>(m: OrderedMap<K, V>)
    requires WellFormed(m) && |m| > 0
    ensures m == m[..|m| - 1] + [m[|m| - 1]]
    ensures Keys(m) == Keys(m[..|m| - 1]) + [m[|m| - 1].0]
    ensures WellFormed(m[..|m| - 1])
  {
    assert Keys(m[..|m| - 1]) == Keys(m)[..|m| - 1];
  }

  /** Putting a new key appends it. */
  lemma PutAppends<K, V>(m: OrderedMap<K, V>, k: K, v: V)
    requires k !in Keys(m)
    ensures Keys(m + [(k, v)]) == Keys(m) + [k]
    ensures forall k' :: Get(m + [(k, v)], k') == if k == k' then Some(v) else Get(m, k')
  {
    assert Keys(m + [(k, v)]) == Keys(m) + [k];
    forall k' ensures Get(m + [(k, v)], k') == if k == k' then Some(v) else Get(m, k') {
      GetSnoc(m, (k, v), k');
    }
  }

  /** Putting the last pair's key replaces that pair. */
  lemma PutReplacesLast<K, V>(m: OrderedMap<K, V>, k: K, v: V)
    requires WellFormed(m) && |m| > 0 && m[|m| - 1].0 == k
    ensures Keys(m[..|m| - 1] + [(k, v)]) == Keys(m)
    ensures forall k' :: Get(m[..|m| - 1] + [(k, v)], k') == if k == k' then Some(v) else Get(m, k')
  {
    var init := m[..|m| - 1];
    WellFormedInit(m);
    assert Keys(init + [(k, v)]) == Keys(init) + [k];
    forall k' ensures Get(init + [(k, v)], k') == if k == k' then Some(v) else Get(m, k') {
      GetSnoc(init, (k, v), k');
      GetSnoc(init, m[|m| - 1], k');
    }
  }

  /** Putting a key that sits before the last pair changes the front and keeps the last pair. */
  lemma PutKeepsLast<K, V>(m: OrderedMap<K, V>, k: K, v: V, front: OrderedMap<K, V>)
    requires |m| > 0 && m[|m| - 1].0 != k
    requires Get(front, k) == Some(v)
    requires forall k' :: k' != k ==> Get(front, k') == Get(m[..|m| - 1], k')
    ensures forall k' :: Get(front + [m[|m| - 1]], k') == if k == k' then Some(v) else Get(m, k')
  {
    forall k' ensures Get(front + [m[|m| - 1]], k') == if k == k' then Some(v) else Get(m, k') {
      GetSnoc(front, m[|m| - 1], k');
    }
  }

  /** The keys of a map whose front took a put of a key already there. */
  lemma PutFrontKeys<K(!new), V>(m: OrderedMap<K, V>, k: K, front: OrderedMap<K, V>)
    requires WellFormed(m) && |m| > 0 && m[|m| - 1].0 != k && k in Keys(m)
    requires Keys(front) == AddIfAbsent(Keys(m[..|m| - 1]), k)
    ensures Keys(front + [m[|m| - 1]]) == Keys(m)
  {
    WellFormedInit(m);
    assert k in Keys(m[..|m| - 1]);
    assert Keys(front + [m[|m| - 1]]) == Keys(front) + [m[|m| - 1].0];
  }

  /** `put`: an existing key keeps its position and takes the new value; a new key goes last. */
  function Put<K(==,!new), V>(m: OrderedMap<K, V>, k: K, v: V): (r: OrderedMap<K, V>)
    requires WellFormed(m)
    ensures WellFormed(r)
    ensures Keys(r) == AddIfAbsent(Keys(m), k)
    ensures Get(r, k) == Some(v)
    ensures forall k' :: k' != k ==> Get(r, k') == Get(m, k')
    decreases |m|
  {
    if k !in Keys(m) then
      PutAppends(m, k, v);
      m + [(k, v)]
    else
      WellFormedInit(m);
      if m[|m| - 1].0 == k then
        PutReplacesLast(m, k, v);
        m[..|m| - 1] + [(k, v)]
      else
        var front := Put(m[..|m| - 1], k, v);
        PutFrontKeys(m, k, front);
        PutKeepsLast(m, k, v, front);
        front + [m[|m| - 1]]
  }

  /** Puts every pair of `ps` in turn into an empty map. */
  function FromPairs<K(==,!new), V>(ps: seq<(K, V)>): (r: OrderedMap<K, V>)
    ensures WellFormed(r)
    decreases |ps|
  {
    if |ps| == 0 then [] else Put(FromPairs(ps[..|ps| - 1]), ps[|ps| - 1].0, ps[|ps| - 1].1)
  }

  /** A map built by successive puts is empty exactly when nothing was put. */
  lemma FromPairsEmptyIff<K(!new), V>(ps: seq<(K, V)>)
    ensures |FromPairs(ps)| == 0 <==> |ps| == 0
  {
    if |ps| > 0 {
      var k := ps[|ps| - 1].0;
      assert k in Keys(FromPairs(ps));
    }
  }

  /** The keys of a map built by successive puts: each key once, in first-put order. */
  lemma {:induction false} FromPairsKeys<K(!new), V>(ps: seq<(K, V)>)
    ensures Keys(FromPairs(ps)) == Dedupe(Keys(ps))
    decreases |ps|
  {
    if |ps| > 0 {
      var init := ps[..|ps| - 1];
      var p := ps[|ps| - 1];
      FromPairsKeys(init);
      assert Keys(init) == Keys(ps)[..|ps| - 1];
      assert Keys(ps)[|ps| - 1] == p.0;
      calc {
        Keys(FromPairs(ps));
        Keys(Put(FromPairs(init), p.0, p.1));
        AddIfAbsent(Keys(FromPairs(init)), p.0);
        AddIfAbsent(Dedupe(Keys(init)), p.0);
        Dedupe(Keys(ps));
      }
    }
  }

  /** No pair of `ps` has key `k`. */
  ghost predicate Absent<K, V>(ps: seq<(K, V)>, k: K) {
    forall i :: 0 <= i < |ps| ==> ps[i].0 != k
  }

  /** `(k, v)` is the last pair of `ps` with key `k`. */
  ghost predicate LastFor<K, V>(ps: seq<(K, V)>, k: K, v: V) {
    exists i :: 0 <= i < |ps| && ps[i] == (k, v) && LaterAbsent(ps, i, k)
  }

  /** No pair after index `i` has key `k`. */
  ghost predicate LaterAbsent<K, V>(ps: seq<(K, V)>, i: nat, k: K) {
    forall j :: i < j < |ps| ==> ps[j].0 != k
  }

  lemma LastForSnoc<K, V>(ps: seq<(K, V)>, p: (K, V), k: K, v: V)
    ensures LastFor(ps + [p], k, v) <==> (p.0 == k && p.1 == v) || (p.0 != k && LastFor(ps, k, v))
  {
    var qs := ps + [p];
    if LastFor(qs, k, v) {
      var i :| 0 <= i < |qs| && qs[i] == (k, v) && LaterAbsent(qs, i, k);
      if i < |ps| {
        assert qs[|ps|] == p;
        assert ps[i] == (k, v);
        assert LaterAbsent(ps, i, k) by {
          forall j | i < j < |ps| ensures ps[j].0 != k {
            assert ps[j] == qs[j];
          }
        }
      }
    }
    if p.0 == k && p.1 == v {
      assert qs[|ps|] == (k, v) && LaterAbsent(qs, |ps|, k);
    }
    if p.0 != k && LastFor(ps, k, v) {
      var i :| 0 <= i < |ps| && ps[i] == (k, v) && LaterAbsent(ps, i, k);
      assert qs[i] == (k, v);
      assert LaterAbsent(qs, i, k);
    }
  }

  /** The last put wins: `k` is absent exactly when no pair has that key, and otherwise maps to
      the value of the last pair with that key. */
  lemma FromPairsLastWins<K(!new), V>(ps: seq<(K, V)>, k: K)
    ensures Get(FromPairs(ps), k).None? <==> Absent(ps, k)
    ensures forall v :: Get(FromPairs(ps), k) == Some(v) <==> LastFor(ps, k, v)
  {
    FromPairsAbsent(ps, k);
    forall v ensures Get(FromPairs(ps), k) == Some(v) <==> LastFor(ps, k, v) {
      FromPairsValue(ps, k, v);
    }
  }

  lemma {:induction false} FromPairsAbsent<K(!new), V>(ps: seq<(K, V)>, k: K)
    ensures Get(FromPairs(ps), k).None? <==> Absent(ps, k)
    decreases |ps|
  {
    if |ps| > 0 {
      var init := ps[..|ps| - 1];
      var last := ps[|ps| - 1];
      AbsentLast(ps, k);
      FromPairsAbsent(init, k);
      FromPairsLast(ps, k);
    }
  }

  lemma {:induction false} FromPairsValue<K(!new), V>(ps: seq<(K, V)>, k: K, v: V)
    ensures Get(FromPairs(ps), k) == Some(v) <==> LastFor(ps, k, v)
    decreases |ps|
  {
    if |ps| > 0 {
      var init := ps[..|ps| - 1];
      var last := ps[|ps| - 1];
      assert ps == init + [last];
      LastForSnoc(init, last, k, v);
      FromPairsValue(init, k, v);
      FromPairsLast(ps, k);
    }
  }

  lemma AbsentLast<K, V>(ps: seq<(K, V)>, k: K)
    requires |ps| > 0
    ensures Absent(ps, k) <==> ps[|ps| - 1].0 != k && Absent(ps[..|ps| - 1], k)
  {
    assert forall i :: 0 <= i < |ps| - 1 ==> ps[i] == ps[..|ps| - 1][i];
  }

  /** The last pair put decides the lookup of its own key and leaves the others alone. */
  lemma FromPairsLast<K(!new), V>(ps: seq<(K, V)>, k: K)
    requires |ps| > 0
    ensures Get(FromPairs(ps), k) ==
            if ps[|ps| - 1].0 == k then Some(ps[|ps| - 1].1) else Get(FromPairs(ps[..|ps| - 1]), k)
  {
  }

  /** The pairs `f(x)` for the elements `x` of `xs` that `keep` selects, in order (a loop that
      puts an entry only for some elements). */
  function FilterMap<T, K, V>(xs: seq<T>, keep: T -> bool, f: T -> (K, V)): (r: seq<(K, V)>)
    ensures |r| == 0 <==> forall i :: 0 <= i < |xs| ==> !keep(xs[i])
    decreases |xs|
  {
    if |xs| == 0 then []
    else
      var x := xs[|xs| - 1];
      assert forall i :: 0 <= i < |xs| - 1 ==> xs[..|xs| - 1][i] == xs[i];
      FilterMap(xs[..|xs| - 1], keep, f) + (if keep(x) then [f(x)] else [])
  }

  /** `(k, v)` is the pair of the last selected element whose key is `k`. */
  ghost predicate LastKept<T, K, V>(xs: seq<T>, keep: T -> bool, f: T -> (K, V), k: K, v: V) {
    exists i :: 0 <= i < |xs| && keep(xs[i]) && f(xs[i]) == (k, v) && KeptLaterAbsent(xs, keep, f, i, k)
  }

  /** No selected element after index `i` has key `k`. */
  ghost predicate KeptLaterAbsent<T, K, V>(xs: seq<T>, keep: T -> bool, f: T -> (K, V), i: nat, k: K) {
    forall j :: i < j < |xs| && keep(xs[j]) ==> f(xs[j]).0 != k
  }

  lemma LastKeptSnoc<T, K, V>(xs: seq<T>, keep: T -> bool, f: T -> (K, V), k: K, v: V)
    requires |xs| > 0
    ensures var x := xs[|xs| - 1];
            LastKept(xs, keep, f, k, v) <==>
            if keep(x) && f(x).0 == k then f(x).1 == v else LastKept(xs[..|xs| - 1], keep, f, k, v)
  {
    var n := |xs| - 1;
    var x := xs[n];
    var init := xs[..n];
    if LastKept(xs, keep, f, k, v) {
      var i :| 0 <= i < |xs| && keep(xs[i]) && f(xs[i]) == (k, v) && KeptLaterAbsent(xs, keep, f, i, k);
      if i < n {
        assert init[i] == xs[i];
        assert KeptLaterAbsent(init, keep, f, i, k) by {
          forall j | i < j < n && keep(init[j]) ensures f(init[j]).0 != k {
            assert init[j] == xs[j];
          }
        }
      }
    }
    if keep(x) && f(x) == (k, v) {
      assert KeptLaterAbsent(xs, keep, f, n, k);
    }
    if !(keep(x) && f(x).0 == k) && LastKept(init, keep, f, k, v) {
      var i :| 0 <= i < n && keep(init[i]) && f(init[i]) == (k, v) && KeptLaterAbsent(init, keep, f, i, k);
      assert xs[i] == init[i];
      assert KeptLaterAbsent(xs, keep, f, i, k) by {
        forall j | i < j < |xs| && keep(xs[j]) ensures f(xs[j]).0 != k {
          if j < n {
            assert init[j] == xs[j];
          }
        }
      }
    }
  }

  lemma {:induction false} FilterMapLastFor<T, K, V>(xs: seq<T>, keep: T -> bool, f: T -> (K, V), k: K, v: V)
    ensures LastFor(FilterMap(xs, keep, f), k, v) <==> LastKept(xs, keep, f, k, v)
    decreases |xs|
  {
    if |xs| > 0 {
      var x := xs[|xs| - 1];
      var init := xs[..|xs| - 1];
      var front := FilterMap(init, keep, f);
      FilterMapLastFor(init, keep, f, k, v);
      LastKeptSnoc(xs, keep, f, k, v);
      if keep(x) {
        LastForSnoc(front, f(x), k, v);
      } else {
        assert FilterMap(xs, keep, f) == front;
      }
    }
  }

  lemma {:induction false} FilterMapAbsent<T, K, V>(xs: seq<T>, keep: T -> bool, f: T -> (K, V), k: K)
    ensures Absent(FilterMap(xs, keep, f), k) <==> forall i :: 0 <= i < |xs| && keep(xs[i]) ==> f(xs[i]).0 != k
    decreases |xs|
  {
    if |xs| > 0 {
      var x := xs[|xs| - 1];
      var init := xs[..|xs| - 1];
      var front := FilterMap(init, keep, f);
      FilterMapAbsent(init, keep, f, k);
      assert forall i :: 0 <= i < |xs| - 1 ==> init[i] == xs[i];
      if keep(x) {
        AbsentLast(front + [f(x)], k);
        assert (front + [f(x)])[..|front|] == front;
      } else {
        assert FilterMap(xs, keep, f) == front;
      }
    }
  }

  /** A map filled by such a loop: a key is absent exactly when no selected element has it, and
      otherwise holds the value of the last selected element with that key. */
  lemma FromPairsFilterMap<T, K(!new), V>(xs: seq<T>, keep: T -> bool, f: T -> (K, V), k: K)
    ensures Get(FromPairs(FilterMap(xs, keep, f)), k).None? <==>
            forall i :: 0 <= i < |xs| && keep(xs[i]) ==> f(xs[i]).0 != k
    ensures forall v :: Get(FromPairs(FilterMap(xs, keep, f)), k) == Some(v) <==> LastKept(xs, keep, f, k, v)
  {
    FromPairsAbsent(FilterMap(xs, keep, f), k);
    FilterMapAbsent(xs, keep, f, k);
    forall v ensures Get(FromPairs(FilterMap(xs, keep, f)), k) == Some(v) <==> LastKept(xs, keep, f, k, v) {
      FromPairsValue(FilterMap(xs, keep, f), k, v);
      FilterMapLastFor(xs, keep, f, k, v);
    }
  }

  /** `f` gives the elements of `xs` pairwise distinct keys. */
  predicate DistinctKeys<T, K(==), V>(xs: seq<T>, f: T -> (K, V)) {
    forall a, b :: 0 <= a < b < |xs| ==> f(xs[a]).0 != f(xs[b]).0
  }

  /** With distinct keys the selected pairs have distinct keys, each from a selected element. */
  lemma {:induction false} FilterMapDistinct<T, K(!new), V>(xs: seq<T>, keep: T -> bool, f: T -> (K, V))
    requires DistinctKeys(xs, f)
    ensures Distinct(Keys(FilterMap(xs, keep, f)))
    ensures forall k :: k in Keys(FilterMap(xs, keep, f)) ==> exists i :: 0 <= i < |xs| && keep(xs[i]) && f(xs[i]).0 == k
    decreases |xs|
  {
    var r := FilterMap(xs, keep, f);
    if |xs| > 0 {
      var n := |xs| - 1;
      var init := xs[..n];
      var x := xs[n];
      assert DistinctKeys(init, f) by {
        forall a, b | 0 <= a < b < |init| ensures f(init[a]).0 != f(init[b]).0 {
          assert init[a] == xs[a] && init[b] == xs[b];
        }
      }
      FilterMapDistinct(init, keep, f);
      var front := FilterMap(init, keep, f);
      forall k | k in Keys(front) ensures exists i :: 0 <= i < |xs| && keep(xs[i]) && f(xs[i]).0 == k {
        var i :| 0 <= i < |init| && keep(init[i]) && f(init[i]).0 == k;
        assert xs[i] == init[i];
      }
      if keep(x) {
        assert r == front + [f(x)];
        assert Keys(r) == Keys(front) + [f(x).0];
        forall i | 0 <= i < |init| && keep(init[i]) ensures f(init[i]).0 != f(x).0 {
          assert init[i] == xs[i];
        }
        assert f(x).0 !in Keys(front);
        forall a, b | 0 <= a < b < |Keys(r)| ensures Keys(r)[a] != Keys(r)[b] {
          if b < |front| {
            assert Keys(r)[a] == Keys(front)[a] && Keys(r)[b] == Keys(front)[b];
          } else {
            assert Keys(r)[a] == Keys(front)[a];
          }
        }
      } else {
        assert r == front;
      }
    }
  }

  /** With distinct keys, an element's key holds its pair exactly when the element is selected. */
  lemma FilterMapLookup<T, K(!new), V>(xs: seq<T>, keep: T -> bool, f: T -> (K, V), i: nat)
    requires DistinctKeys(xs, f) && i < |xs|
    ensures Get(FromPairs(FilterMap(xs, keep, f)), f(xs[i]).0) == if keep(xs[i]) then Some(f(xs[i]).1) else None
  {
    var k := f(xs[i]).0;
    FromPairsFilterMap(xs, keep, f, k);
    if keep(xs[i]) {
      assert KeptLaterAbsent(xs, keep, f, i, k);
      assert LastKept(xs, keep, f, k, f(xs[i]).1);
    }
  }

  /** An entry put only when `present` holds (the `if (...) map.put(key, value)` pattern). */
  datatype Field<K, V> = Field(present: bool, key: K, value: V)

  predicate Present<K, V>(fl: Field<K, V>) {
    fl.present
  }

  function FieldEntry<K, V>(fl: Field<K, V>): (K, V) {
    (fl.key, fl.value)
  }

  /** The map made by putting the present fields in order. */
  function Fields<K(==,!new), V>(fs: seq<Field<K, V>>): (r: OrderedMap<K, V>)
    ensures WellFormed(r)
    ensures |r| == 0 <==> forall i :: 0 <= i < |fs| ==> !fs[i].present
  {
    FromPairsEmptyIff(FilterMap(fs, Present, FieldEntry));
    FromPairs(FilterMap(fs, Present, FieldEntry))
  }

  /** The keys of the present fields, in field order. */
  function PresentKeys<K, V>(fs: seq<Field<K, V>>): (r: seq<K>)
    decreases |fs|
  {
    if |fs| == 0 then []
    else PresentKeys(fs[..|fs| - 1]) + (if fs[|fs| - 1].present then [fs[|fs| - 1].key] else [])
  }

  lemma {:induction false} KeysOfFilterMap<K, V>(fs: seq<Field<K, V>>)
    ensures Keys(FilterMap(fs, Present, FieldEntry)) == PresentKeys(fs)
    decreases |fs|
  {
    if |fs| > 0 {
      var front := FilterMap(fs[..|fs| - 1], Present, FieldEntry);
      KeysOfFilterMap(fs[..|fs| - 1]);
      if fs[|fs| - 1].present {
        assert Keys(front + [FieldEntry(fs[|fs| - 1])]) == Keys(front) + [fs[|fs| - 1].key];
      }
    }
  }

  function FieldKeys<K, V>(fs: seq<Field<K, V>>): (r: seq<K>)
    ensures |r| == |fs|
    ensures forall i :: 0 <= i < |fs| ==> r[i] == fs[i].key
  {
    seq(|fs|, i requires 0 <= i < |fs| => fs[i].key)
  }

  lemma FieldKeysAppend<K, V>(a: seq<Field<K, V>>, b: seq<Field<K, V>>)
    ensures FieldKeys(a + b) == FieldKeys(a) + FieldKeys(b)
  {
  }

  lemma DistinctFieldKeys<K, V>(fs: seq<Field<K, V>>)
    requires Distinct(FieldKeys(fs))
    ensures DistinctKeys(fs, FieldEntry)
  {
    forall a, b | 0 <= a < b < |fs| ensures FieldEntry(fs[a]).0 != FieldEntry(fs[b]).0 {
      assert FieldKeys(fs)[a] != FieldKeys(fs)[b];
    }
  }

  /** Fields with distinct keys: the map's keys are the present fields' keys, in field order. */
  lemma FieldsKeys<K(!new), V>(fs: seq<Field<K, V>>)
    requires Distinct(FieldKeys(fs))
    ensures Keys(Fields(fs)) == PresentKeys(fs)
  {
    DistinctFieldKeys(fs);
    FilterMapDistinct(fs, Present, FieldEntry);
    KeysOfFilterMap(fs);
    FromPairsKeys(FilterMap(fs, Present, FieldEntry));
    DedupeDistinct(PresentKeys(fs));
  }

  /** Fields with distinct keys: field `i`'s key holds its value exactly when the field is present. */
  lemma FieldLookup<K(!new), V>(fs: seq<Field<K, V>>, i: nat)
    requires Distinct(FieldKeys(fs)) && i < |fs|
    ensures Get(Fields(fs), fs[i].key) == if fs[i].present then Some(fs[i].value) else None
  {
    DistinctFieldKeys(fs);
    FilterMapLookup(fs, Present, FieldEntry, i);
  }

  lemma {:induction false} PresentKeysAppend<K, V>(a: seq<Field<K, V>>, b: seq<Field<K, V>>)
    ensures PresentKeys(a + b) == PresentKeys(a) + PresentKeys(b)
    decreases |b|
  {
    if |b| == 0 {
      assert a + b == a;
    } else {
      var n := |b| - 1;
      assert (a + b)[..|a + b| - 1] == a + b[..n];
      PresentKeysAppend(a, b[..n]);
    }
  }

  lemma PresentKeysSingle<K, V>(fl: Field<K, V>)
    ensures PresentKeys([fl]) == if fl.present then [fl.key] else []
  {
    assert [fl][..0] == [];
  }

  /** The key a single field contributes. */
  function KeyIfPresent<K, V>(fl: Field<K, V>): seq<K> {
    if fl.present then [fl.key] else []
  }

  lemma PresentKeysOfTwo<K, V>(fs: seq<Field<K, V>>)
    requires |fs| == 2
    ensures PresentKeys(fs) == KeyIfPresent(fs[0]) + KeyIfPresent(fs[1])
  {
    assert fs == [fs[0]] + [fs[1]];
    PresentKeysAppend([fs[0]], [fs[1]]);
    PresentKeysSingle(fs[0]);
    PresentKeysSingle(fs[1]);
  }

  lemma PresentKeysOfThree<K, V>(fs: seq<Field<K, V>>)
    requires |fs| == 3
    ensures PresentKeys(fs) == KeyIfPresent(fs[0]) + KeyIfPresent(fs[1]) + KeyIfPresent(fs[2])
  {
    assert fs == [fs[0]] + [fs[1]] + [fs[2]];
    PresentKeysAppend([fs[0]] + [fs[1]], [fs[2]]);
    PresentKeysAppend([fs[0]], [fs[1]]);
    PresentKeysSingle(fs[0]);
    PresentKeysSingle(fs[1]);
    PresentKeysSingle(fs[2]);
  }

  lemma PresentKeysOfFive<K, V>(fs: seq<Field<K, V>>)
    requires |fs| == 5
    ensures PresentKeys(fs) == KeyIfPresent(fs[0]) + KeyIfPresent(fs[1]) + KeyIfPresent(fs[2]) +
                               KeyIfPresent(fs[3]) + KeyIfPresent(fs[4])
  {
    assert fs == fs[..3] + [fs[3]] + [fs[4]];
    PresentKeysAppend(fs[..3] + [fs[3]], [fs[4]]);
    PresentKeysAppend(fs[..3], [fs[3]]);
    PresentKeysOfThree(fs[..3]);
    PresentKeysSingle(fs[3]);
    PresentKeysSingle(fs[4]);
  }

  lemma PresentKeysOfParts<K, V>(a: seq<Field<K, V>>, b: seq<Field<K, V>>, c: seq<Field<K, V>>)
    ensures PresentKeys(a + b + c) == PresentKeys(a) + PresentKeys(b) + PresentKeys(c)
  {
    PresentKeysAppend(a + b, c);
    PresentKeysAppend(a, b);
  }

  /** Selecting every element under its own key lists the elements. */
  lemma {:induction false} FilterMapKeyed<K, V>(xs: seq<K>, keep: K -> bool, f: K -> (K, V))
    requires forall i :: 0 <= i < |xs| ==> keep(xs[i]) && f(xs[i]).0 == xs[i]
    ensures Keys(FilterMap(xs, keep, f)) == xs
    decreases |xs|
  {
    if |xs| > 0 {
      var init := xs[..|xs| - 1];
      assert forall i :: 0 <= i < |init| ==> init[i] == xs[i];
      FilterMapKeyed(init, keep, f);
      var front := FilterMap(init, keep, f);
      assert Keys(front + [f(xs[|xs| - 1])]) == Keys(front) + [xs[|xs| - 1]];
      assert init + [xs[|xs| - 1]] == xs;
    }
  }
}

=== FILE: plugin_generator.dfy ===
/** The annotation processor that writes the plugin manifest (`plugin.yml`): which keys it
    emits, in which order, and how the entries of one command collected from several handler
    methods are merged. */
module PluginGenerator {
  import opened Wrappers
  import opened Seqs
  import opened OrderedMaps
  import opened Annotations
  import opened CommandUtils
  import opened JavaLang
  import CommandExecutor

  /** A value of the manifest document before it is dumped as YAML. The alias list is built
      from a hash set, so only its members are modelled. */
  datatype Node =
    | Text(text: string)
    | Flag(flag: bool)
    | List(items: seq<string>)
    | Unordered(members: set<string>)
    | Mapping(entries: OrderedMap<string, Node>)

  type Document = OrderedMap<string, Node>

  // ---------------------------------------------------------------------------------------
  // Permissions

  /** A child permission as the pair put into its parent's `children` map. */
  function ChildEntry(c: ChildPermission): (string, Node) {
    (c.node, Flag(c.inherit))
  }

  /** Every child permission is put into `children` unconditionally; this filter keeps them all so
      that `Children` can share `FilterMap` and its lemmas. */
  predicate KeepAll(c: ChildPermission) {
    true
  }

  /** The `children` map of a permission: node to `inherit` flag, in declaration order. */
  function Children(p: Permission): (r: Document)
    ensures WellFormed(r)
    ensures |r| == 0 <==> |p.children| == 0
  {
    FromPairsEmptyIff(FilterMap(p.children, KeepAll, ChildEntry));
    FromPairs(FilterMap(p.children, KeepAll, ChildEntry))
  }

  /** The entries `processPermission` may put, in the order it considers them. */
  function PermissionFields(p: Permission): (fs: seq<Field<string, Node>>)
    ensures Distinct(FieldKeys(fs))
    ensures |fs| == 3 && fs[0].key == "description" && fs[1].key == "default" && fs[2].key == "children"
  {
    var fs := [Field(p.description != "", "description", Text(p.description)),
               Field(p.defaultValue != Default, "default", Text(PermissionDefaultName(p.defaultValue))),
               Field(|Children(p)| > 0, "children", Mapping(Children(p)))];
    assert FieldKeys(fs) == ["description", "default", "children"];
    fs
  }

  /** `processPermission`: `description` when not empty, `default` when not `DEFAULT`, and
      `children` when there are any; an all-default permission gives an empty entry. */
  function ProcessPermission(p: Permission): (r: Document)
    ensures WellFormed(r)
    ensures Get(r, "description") == if p.description != "" then Some(Text(p.description)) else None
    ensures Get(r, "default") ==
            if p.defaultValue != Default then Some(Text(PermissionDefaultName(p.defaultValue))) else None
    ensures Get(r, "children") == if |p.children| > 0 then Some(Mapping(Children(p))) else None
    ensures |r| > 0 <==> Listed(p)
  {
    var fs := PermissionFields(p);
    FieldLookup(fs, 0);
    FieldLookup(fs, 1);
    FieldLookup(fs, 2);
    Fields(fs)
  }

  /** The keys of a permission entry: exactly the present ones, in the order `description`,
      `default`, `children`. */
  lemma PermissionKeyOrder(p: Permission)
    ensures Keys(ProcessPermission(p)) == (if p.description != "" then ["description"] else []) +
                                          (if p.defaultValue != Default then ["default"] else []) +
                                          (if |p.children| > 0 then ["children"] else [])
  {
    var fs := PermissionFields(p);
    FieldsKeys(fs);
    PresentKeysOfThree(fs);
    assert fs[2].present <==> |p.children| > 0;
  }

  /** A child node maps to the `inherit` flag of the last child declared with that node; nodes
      no child names are absent. */
  lemma ChildrenLastWins(p: Permission, node: string)
    ensures Get(Children(p), node).None? <==> forall i :: 0 <= i < |p.children| ==> p.children[i].node != node
    ensures forall b: bool :: Get(Children(p), node) == Some(Flag(b)) <==> LastChild(p.children, node, b)
  {
    FromPairsFilterMap(p.children, KeepAll, ChildEntry, node);
    forall b: bool ensures LastKept(p.children, KeepAll, ChildEntry, node, Flag(b)) <==> LastChild(p.children, node, b) {
      LastChildIsLastKept(p.children, node, b);
    }
  }

  lemma LastChildIsLastKept(cs: seq<ChildPermission>, node: string, b: bool)
    ensures LastKept(cs, KeepAll, ChildEntry, node, Flag(b)) <==> LastChild(cs, node, b)
  {
    if LastKept(cs, KeepAll, ChildEntry, node, Flag(b)) {
      var i :| 0 <= i < |cs| && KeepAll(cs[i]) && ChildEntry(cs[i]) == (node, Flag(b)) &&
               KeptLaterAbsent(cs, KeepAll, ChildEntry, i, node);
      assert cs[i] == ChildPermission(node, b);
      forall j | i < j < |cs| ensures cs[j].node != node {
        assert ChildEntry(cs[j]).0 == cs[j].node;
      }
    }
    if LastChild(cs, node, b) {
      var i :| 0 <= i < |cs| && cs[i] == ChildPermission(node, b) && forall j :: i < j < |cs| ==> cs[j].node != node;
      assert ChildEntry(cs[i]) == (node, Flag(b));
      assert KeptLaterAbsent(cs, KeepAll, ChildEntry, i, node);
    }
  }

  /** `ChildPermission(node, b)` is the last child declared with that node. */
  ghost predicate LastChild(cs: seq<ChildPermission>, node: string, b: bool) {
    exists i :: 0 <= i < |cs| && cs[i] == ChildPermission(node, b) && forall j :: i < j < |cs| ==> cs[j].node != node
  }

  /** A permission that contributes an entry to the `permissions` map: one with a description,
      a default or children. */
  predicate Listed(p: Permission) {
    p.description != "" || p.defaultValue != Default || |p.children| > 0
  }

  /** A permission as the pair put into the `permissions` map. */
  function PermissionEntry(p: Permission): (string, Node) {
    (p.node, Mapping(ProcessPermission(p)))
  }

  /** `processPermissions`: nothing for an empty array, otherwise the map from node to entry,
      skipping permissions whose entry would be empty. */
  function ProcessPermissions(ps: seq<Permission>): (r: Option<Document>)
    ensures r.None? <==> |ps| == 0
    ensures r.Some? ==> WellFormed(r.value)
    ensures r.Some? ==> (|r.value| == 0 <==> forall i :: 0 <= i < |ps| ==> !Listed(ps[i]))
  {
    if |ps| == 0 then None
    else
      FromPairsEmptyIff(FilterMap(ps, Listed, PermissionEntry));
      Some(FromPairs(FilterMap(ps, Listed, PermissionEntry)))
  }

  /** A node maps to the entry of the last listed permission declared with it (a repeated node
      keeps its first position), and is absent when no permission with that node is listed. */
  lemma PermissionsLastWins(ps: seq<Permission>, k: string)
    requires |ps| > 0
    ensures Get(ProcessPermissions(ps).value, k).None? <==>
            forall i :: 0 <= i < |ps| && Listed(ps[i]) ==> ps[i].node != k
    ensures forall v :: Get(ProcessPermissions(ps).value, k) == Some(v) <==> LastKept(ps, Listed, PermissionEntry, k, v)
  {
    FromPairsFilterMap(ps, Listed, PermissionEntry, k);
  }

  /** The nodes of the `permissions` map: each listed node once, in first-declared order. */
  lemma PermissionNodes(ps: seq<Permission>)
    requires |ps| > 0
    ensures Keys(ProcessPermissions(ps).value) == Dedupe(Keys(FilterMap(ps, Listed, PermissionEntry)))
  {
    FromPairsKeys(FilterMap(ps, Listed, PermissionEntry));
  }

  // ---------------------------------------------------------------------------------------
  // Commands

  /** What the processor reads from one handler parameter: its `@CommandOption` and
      `@CommandParameter`, if any, and its declared type (`asType`). */
  datatype ParamElement = ParamElement(option: Option<CommandOption>, parameter: Option<CommandParameter>,
                                       declaredType: JavaType)

  /** A handler method's parameter list. */
  type Signature = seq<ParamElement>

  /** `getParamAnnotations` for one parameter: the option before the positional, and nothing
      for a parameter with neither. */
  function ParamAnnotations(p: ParamElement): (r: seq<ParamAnnotation>)
    ensures |r| == (if p.option.Some? then 1 else 0) + (if p.parameter.Some? then 1 else 0)
    ensures p.option.Some? ==> r[0] == OptionAnnotation(p.option.value)
    ensures p.parameter.Some? ==> r[|r| - 1] == ParameterAnnotation(p.parameter.value)
  {
    (if p.option.Some? then [OptionAnnotation(p.option.value)] else []) +
    (if p.parameter.Some? then [ParameterAnnotation(p.parameter.value)] else [])
  }

  function AnnotationsOf(s: Signature): (r: seq<seq<ParamAnnotation>>)
    ensures |r| == |s|
    ensures forall i :: 0 <= i < |s| ==> r[i] == ParamAnnotations(s[i])
  {
    seq(|s|, i requires 0 <= i < |s| => ParamAnnotations(s[i]))
  }

  /** A primitive `TypeKind`. */
  datatype PrimitiveKind = BooleanKind | IntKind | LongKind

  /** The primitive a declared type is, or else `unboxedType` of it; `None` where `unboxedType`
      throws, which `getParamFlags` catches. */
  function PrimitiveOf(t: JavaType): (r: Option<PrimitiveKind>)
    ensures r.Some? <==> IsSupported(t) && !t.StringType?
  {
    match t
    case BooleanType(_) => Some(BooleanKind)
    case IntType(_) => Some(IntKind)
    case LongType(_) => Some(LongKind)
    case _ => None
  }

  /** `getParamFlags`: a parameter is a flag when its primitive, direct or unboxed, is `BOOLEAN`. */
  function FlagsOf(s: Signature): (r: seq<bool>)
    ensures |r| == |s|
    ensures forall i :: 0 <= i < |s| ==> (r[i] <==> IsBoolean(s[i].declaredType))
  {
    seq(|s|, i requires 0 <= i < |s| => PrimitiveOf(s[i].declaredType) == Some(BooleanKind))
  }

  /** The declared types of a signature. */
  function TypesOf(s: Signature): (r: seq<JavaType>)
    ensures |r| == |s| && forall i :: 0 <= i < |s| ==> r[i] == s[i].declaredType
  {
    seq(|s|, i requires 0 <= i < |s| => s[i].declaredType)
  }

  /** The processor's unboxing test picks the same flags as the executor's type test on the
      loaded classes, so both build their grammars with the same actions. */
  lemma FlagsAgreeWithExecutor(s: Signature)
    ensures FlagsOf(s) == CommandExecutor.ParamFlags(TypesOf(s))
  {
  }

  /** A parameter whose option, if it has one, has a long or short spelling. */
  predicate Spelled(p: ParamElement) {
    p.option.Some? ==> OptionSpellings(p.option.value).Some?
  }

  /** The grammar builder accepts a parameter's annotations exactly when its option is spelled. */
  lemma AcceptedIffSpelled(p: ParamElement)
    ensures (forall k :: 0 <= k < |ParamAnnotations(p)| ==> AnnotationAccepted(ParamAnnotations(p)[k])) <==> Spelled(p)
  {
    var anns := ParamAnnotations(p);
    if p.option.Some? {
      assert anns[0] == OptionAnnotation(p.option.value);
    }
  }

  /** A method element carrying command annotations. */
  datatype Element = Element(commands: CommandAnnotations, signature: Signature)

  /** One `@Command` of one method (the processor's `CommandData`). */
  datatype CommandData = CommandData(command: Command, signature: Signature)

  /** The variants from directly annotated elements, in element order. */
  function DirectVariants(es: seq<Element>): (r: seq<CommandData>)
    ensures forall d :: d in r <==>
              exists i :: 0 <= i < |es| && es[i].commands.direct == Some(d.command) && es[i].signature == d.signature
    decreases |es|
  {
    if |es| == 0 then []
    else
      var e := es[|es| - 1];
      var front := DirectVariants(es[..|es| - 1]);
      assert forall i :: 0 <= i < |es| - 1 ==> es[..|es| - 1][i] == es[i];
      front + (match e.commands.direct case Some(c) => [CommandData(c, e.signature)] case None => [])
  }

  function Wrap(cs: seq<Command>, s: Signature): (r: seq<CommandData>)
    ensures |r| == |cs|
    ensures forall i :: 0 <= i < |cs| ==> r[i] == CommandData(cs[i], s)
  {
    seq(|cs|, i requires 0 <= i < |cs| => CommandData(cs[i], s))
  }

  lemma WrapMembers(cs: seq<Command>, s: Signature)
    ensures forall d :: d in Wrap(cs, s) <==> d.command in cs && d.signature == s
  {
    var r := Wrap(cs, s);
    forall d: CommandData | d.signature == s && d.command in cs ensures d in r {
      var j :| 0 <= j < |cs| && cs[j] == d.command;
      assert r[j] == d;
    }
  }

  /** The variants one element's `Command.List` declares, in order. */
  function ListedOf(e: Element): (r: seq<CommandData>)
    ensures forall d :: d in r <==> e.commands.list.Some? && d.command in e.commands.list.value && e.signature == d.signature
  {
    match e.commands.list
    case Some(cs) => WrapMembers(cs, e.signature); Wrap(cs, e.signature)
    case None => []
  }

  /** The variants from elements carrying a `Command.List`, element by element, each list in
      order. */
  function ListedVariants(es: seq<Element>): (r: seq<CommandData>)
    ensures forall d :: d in r <==>
              exists i :: 0 <= i < |es| && es[i].commands.list.Some? && d.command in es[i].commands.list.value &&
                          es[i].signature == d.signature
    decreases |es|
  {
    if |es| == 0 then []
    else
      var e := es[|es| - 1];
      var front := ListedVariants(es[..|es| - 1]);
      assert forall i :: 0 <= i < |es| - 1 ==> es[..|es| - 1][i] == es[i];
      var extra := ListedOf(e);
      front + extra
  }

  /** All variants, in the order the processor visits them: first every element annotated with
      `@Command`, then every element annotated with `@Command.List`. */
  function Variants(es: seq<Element>): (r: seq<CommandData>)
    ensures forall d :: d in r <==> exists i :: 0 <= i < |es| && d.command in MethodCommands(es[i].commands) &&
                                               es[i].signature == d.signature
  {
    DirectVariants(es) + ListedVariants(es)
  }

  function Names(vs: seq<CommandData>): (r: seq<string>)
    ensures |r| == |vs|
    ensures forall i :: 0 <= i < |vs| ==> r[i] == vs[i].command.command
  {
    seq(|vs|, i requires 0 <= i < |vs| => vs[i].command.command)
  }

  /** The variants of command `name`, in order. */
  function Filter(vs: seq<CommandData>, name: string): (r: seq<CommandData>)
    ensures forall d :: d in r <==> d in vs && d.command.command == name
    decreases |vs|
  {
    if |vs| == 0 then []
    else
      var last := vs[|vs| - 1];
      assert forall d :: d in vs <==> d in vs[..|vs| - 1] || d == last;
      Filter(vs[..|vs| - 1], name) + (if last.command.command == name then [last] else [])
  }

  /** The `computeIfAbsent(name, ...).add(variant)` loop: one group per command name, in the
      order names are first seen, each holding that command's variants in order. */
  function Group(vs: seq<CommandData>): (r: OrderedMap<string, seq<CommandData>>)
    ensures WellFormed(r)
    ensures Keys(r) == Dedupe(Names(vs))
    ensures forall k :: k in Keys(r) ==> Get(r, k) == Some(Filter(vs, k))
    decreases |vs|
  {
    if |vs| == 0 then []
    else
      var g := Group(vs[..|vs| - 1]);
      var last := vs[|vs| - 1];
      var n := last.command.command;
      GroupStep(vs, g);
      Put(g, n, Get(g, n).GetOr([]) + [last])
  }

  /** Adding the last variant to the groups of the others. */
  lemma GroupStep(vs: seq<CommandData>, g: OrderedMap<string, seq<CommandData>>)
    requires |vs| > 0 && WellFormed(g)
    requires Keys(g) == Dedupe(Names(vs[..|vs| - 1]))
    requires forall k :: k in Keys(g) ==> Get(g, k) == Some(Filter(vs[..|vs| - 1], k))
    ensures var last := vs[|vs| - 1];
            var r := Put(g, last.command.command, Get(g, last.command.command).GetOr([]) + [last]);
            && Keys(r) == Dedupe(Names(vs))
            && forall k :: k in Keys(r) ==> Get(r, k) == Some(Filter(vs, k))
  {
    var init := vs[..|vs| - 1];
    var last := vs[|vs| - 1];
    var n := last.command.command;
    var r := Put(g, n, Get(g, n).GetOr([]) + [last]);
    NamesDedupeStep(vs);
    assert Get(g, n).GetOr([]) == Filter(init, n) by {
      if n !in Keys(g) {
        FilterAbsent(init, n);
      }
    }
    forall k | k in Keys(r) ensures Get(r, k) == Some(Filter(vs, k)) {
      FilterLast(vs, k);
      if k != n {
        assert k in Keys(g);
      }
    }
  }

  /** The names seen up to the last variant, then the last variant's name if it is new. */
  lemma NamesDedupeStep(vs: seq<CommandData>)
    requires |vs| > 0
    ensures Dedupe(Names(vs)) == AddIfAbsent(Dedupe(Names(vs[..|vs| - 1])), vs[|vs| - 1].command.command)
  {
    assert Names(vs)[..|vs| - 1] == Names(vs[..|vs| - 1]);
  }

  /** The variants of `name` among `vs`: those among all but the last, then the last if it
      belongs. */
  lemma FilterLast(vs: seq<CommandData>, name: string)
    requires |vs| > 0
    ensures Filter(vs, name) == Filter(vs[..|vs| - 1], name) +
                                (if vs[|vs| - 1].command.command == name then [vs[|vs| - 1]] else [])
    ensures vs[|vs| - 1].command.command != name ==> Filter(vs, name) == Filter(vs[..|vs| - 1], name)
  {
    assert Filter(vs[..|vs| - 1], name) + [] == Filter(vs[..|vs| - 1], name);
  }

  lemma FilterAbsent(vs: seq<CommandData>, name: string)
    requires name !in Names(vs)
    ensures Filter(vs, name) == []
  {
  }

  /** A compiled variant: its command and the usage line of its grammar. */
  datatype Variant = Variant(command: Command, usage: string)

  function Descriptions(group: seq<Variant>): (r: seq<string>)
    ensures |r| == |group|
    ensures forall i :: 0 <= i < |group| ==> r[i] == group[i].command.description
  {
    seq(|group|, i requires 0 <= i < |group| => group[i].command.description)
  }

  function Permissions(group: seq<Variant>): (r: seq<string>)
    ensures |r| == |group|
    ensures forall i :: 0 <= i < |group| ==> r[i] == group[i].command.permission
  {
    seq(|group|, i requires 0 <= i < |group| => group[i].command.permission)
  }

  function PermissionMessages(group: seq<Variant>): (r: seq<string>)
    ensures |r| == |group|
    ensures forall i :: 0 <= i < |group| ==> r[i] == group[i].command.permissionMessage
  {
    seq(|group|, i requires 0 <= i < |group| => group[i].command.permissionMessage)
  }

  function Usages(group: seq<Variant>): (r: seq<string>)
    ensures |r| == |group|
    ensures forall i :: 0 <= i < |group| ==> r[i] == group[i].usage
  {
    seq(|group|, i requires 0 <= i < |group| => group[i].usage)
  }

  /** Every alias of every variant. */
  function Aliases(group: seq<Variant>): (r: set<string>)
    ensures forall a :: a in r <==> exists i :: 0 <= i < |group| && a in group[i].command.aliases
  {
    set i, a | 0 <= i < |group| && a in group[i].command.aliases :: a
  }

  /** Some variant has a description. */
  predicate Described(group: seq<Variant>) {
    exists i :: 0 <= i < |group| && group[i].command.description != ""
  }

  /** Every variant names the same, non-empty permission. */
  predicate PermissionAgreed(group: seq<Variant>) {
    |group| > 0 && group[0].command.permission != "" &&
    forall i :: 0 <= i < |group| ==> group[i].command.permission == group[0].command.permission
  }

  /** Every variant has the same permission message. */
  predicate MessageAgreed(group: seq<Variant>) {
    |group| > 0 && forall i :: 0 <= i < |group| ==> group[i].command.permissionMessage == group[0].command.permissionMessage
  }

  /** The non-empty descriptions joined by line breaks. */
  function MergedDescriptionText(group: seq<Variant>): (r: string)
    ensures r != "" <==> Described(group)
  {
    DescribedIffSomeDescription(group);
    JoinEmptyIff(NonEmpty(Descriptions(group)), "\n");
    Join(NonEmpty(Descriptions(group)), "\n")
  }

  lemma DescribedIffSomeDescription(group: seq<Variant>)
    ensures |NonEmpty(Descriptions(group))| > 0 <==> Described(group)
    ensures |NonEmpty(Descriptions(group))| > 0 ==> NonEmpty(Descriptions(group))[0] != ""
  {
    var described := NonEmpty(Descriptions(group));
    if Described(group) {
      var i :| 0 <= i < |group| && group[i].command.description != "";
      assert Descriptions(group)[i] in described;
    }
    if |described| > 0 {
      assert described[0] in described;
      var i :| 0 <= i < |group| && Descriptions(group)[i] == described[0];
    }
  }

  /** The entries `processCommand` may put for a non-empty group, in the order it considers
      them. */
  function CommandFields(group: seq<Variant>): (fs: seq<Field<string, Node>>)
    requires |group| > 0
    ensures Distinct(FieldKeys(fs))
    ensures |fs| == 5 && fs[0].key == "description" && fs[1].key == "aliases" && fs[2].key == "permission" &&
            fs[3].key == "permission-message" && fs[4].key == "usage"
  {
    var descriptions := MergedDescriptionText(group);
    var aliases := Aliases(group);
    var permission := if AllAgree(Permissions(group)) then Some(group[0].command.permission) else None;
    var message := if AllAgree(PermissionMessages(group)) then Some(group[0].command.permissionMessage) else None;
    var usage := Join(Usages(group), "\n");
    var hasPermission := permission.Some? && permission.value != "";
    var fs := [Field(descriptions != "", "description", Text(descriptions)),
               Field(aliases != {}, "aliases", Unordered(aliases)),
               Field(hasPermission, "permission", Text(permission.GetOr(""))),
               Field(hasPermission && message.Some?, "permission-message", Text(message.GetOr(""))),
               Field(true, "usage", Text(usage))];
    assert FieldKeys(fs) == ["description", "aliases", "permission", "permission-message", "usage"];
    fs
  }

  /** `processCommand`: merges the variants of one command. The description joins the non-empty
      descriptions; the aliases are their union; the permission and its message are kept only
      when every variant agrees (and the message only with the permission); `usage` is always
      present and joins every variant's usage line. */
  function ProcessCommand(group: seq<Variant>): (r: Option<Document>)
    ensures r.None? <==> |group| == 0
    ensures r.Some? ==> WellFormed(r.value) && |r.value| > 0
  {
    if |group| == 0 then None
    else
      var fs := CommandFields(group);
      FieldLookup(fs, 4);
      Some(Fields(fs))
  }

  /** The entries of a merged command, in terms of its variants. */
  lemma MergedCommandEntries(group: seq<Variant>)
    requires |group| > 0
    ensures var m := ProcessCommand(group).value;
            && Get(m, "description") == (if Described(group) then Some(Text(MergedDescriptionText(group))) else None)
            && Get(m, "aliases") == (if |Aliases(group)| > 0 then Some(Unordered(Aliases(group))) else None)
            && Get(m, "permission") == (if PermissionAgreed(group) then Some(Text(group[0].command.permission)) else None)
            && Get(m, "permission-message") ==
               (if PermissionAgreed(group) && MessageAgreed(group) then Some(Text(group[0].command.permissionMessage)) else None)
            && Get(m, "usage") == Some(Text(Join(Usages(group), "\n")))
  {
    var fs := CommandFields(group);
    FieldLookup(fs, 0);
    FieldLookup(fs, 1);
    FieldLookup(fs, 2);
    FieldLookup(fs, 3);
    FieldLookup(fs, 4);
    CommandFieldsPresence(group);
  }

  /** When `processCommand` puts each entry, in terms of the variants. */
  lemma CommandFieldsPresence(group: seq<Variant>)
    requires |group| > 0
    ensures var fs := CommandFields(group);
            && (fs[0].present <==> Described(group)) && fs[0].value == Text(MergedDescriptionText(group))
            && (fs[1].present <==> |Aliases(group)| > 0) && fs[1].value == Unordered(Aliases(group))
            && (fs[2].present <==> PermissionAgreed(group))
            && (fs[2].present ==> fs[2].value == Text(group[0].command.permission))
            && (fs[3].present <==> PermissionAgreed(group) && MessageAgreed(group))
            && (fs[3].present ==> fs[3].value == Text(group[0].command.permissionMessage))
            && fs[4].present && fs[4].value == Text(Join(Usages(group), "\n"))
  {
    assert AllAgree(Permissions(group)) <==> forall i :: 0 <= i < |group| ==> group[i].command.permission == group[0].command.permission;
    assert AllAgree(PermissionMessages(group)) <==> MessageAgreed(group);
  }

  /** The keys of a merged command: exactly the present ones, in the order `description`,
      `aliases`, `permission`, `permission-message`, `usage`. */
  lemma CommandKeyOrder(group: seq<Variant>)
    requires |group| > 0
    ensures Keys(ProcessCommand(group).value) == (if Described(group) then ["description"] else []) +
                                                 (if |Aliases(group)| > 0 then ["aliases"] else []) +
                                                 (if PermissionAgreed(group) then ["permission"] else []) +
                                                 (if PermissionAgreed(group) && MessageAgreed(group) then ["permission-message"] else []) +
                                                 ["usage"]
  {
    var fs := CommandFields(group);
    FieldsKeys(fs);
    PresentKeysOfFive(fs);
    CommandFieldsPresence(group);
  }

  /** Every non-empty description, and every usage line, occurs in the merged text. */
  lemma MergedTextsContainEachVariant(group: seq<Variant>)
    ensures forall i :: 0 <= i < |group| && group[i].command.description != "" ==>
              Occurs(group[i].command.description, MergedDescriptionText(group))
    ensures forall i :: 0 <= i < |group| ==> Occurs(group[i].usage, Join(Usages(group), "\n"))
  {
    var described := NonEmpty(Descriptions(group));
    forall i | 0 <= i < |group| && group[i].command.description != ""
      ensures Occurs(group[i].command.description, MergedDescriptionText(group))
    {
      assert Descriptions(group)[i] in described;
      JoinContainsEachPart(described, "\n", group[i].command.description);
    }
    forall i | 0 <= i < |group| ensures Occurs(group[i].usage, Join(Usages(group), "\n")) {
      assert Usages(group)[i] in Usages(group);
      JoinContainsEachPart(Usages(group), "\n", group[i].usage);
    }
  }

  /** A single-variant command keeps that variant's own description and usage line. */
  lemma SingleVariantKeepsItsText(v: Variant)
    ensures v.command.description != "" ==> Get(ProcessCommand([v]).value, "description") == Some(Text(v.command.description))
    ensures Get(ProcessCommand([v]).value, "usage") == Some(Text(v.usage))
    ensures v.command.permission != "" ==> Get(ProcessCommand([v]).value, "permission") == Some(Text(v.command.permission))
  {
    MergedCommandEntries([v]);
    SingleVariantTexts(v);
    SingleVariantAgrees(v);
  }

  lemma SingleVariantAgrees(v: Variant)
    ensures v.command.description != "" ==> Described([v])
    ensures v.command.permission != "" ==> PermissionAgreed([v]) && [v][0] == v
  {
    assert [v][0] == v;
  }

  lemma SingleVariantTexts(v: Variant)
    ensures v.command.description != "" ==> MergedDescriptionText([v]) == v.command.description
    ensures Join(Usages([v]), "\n") == v.usage
  {
    assert Usages([v]) == [v.usage];
    if v.command.description != "" {
      assert Descriptions([v]) == [v.command.description];
      assert Descriptions([v])[..0] == [];
      assert NonEmpty(Descriptions([v])) == [v.command.description];
    }
  }

  /** The grammar the processor compiles for a variant: parameter types are unknown at compile
      time, so only a nameless option can make it fail. */
  function Compile(d: CommandData): (r: Result<Grammar, ConfigError>)
    ensures r.Success? <==> forall i :: 0 <= i < |d.signature| ==> Spelled(d.signature[i])
    ensures r.Failure? ==> r.error == OptionNameMissing
    ensures r.Success? ==> r.value.prog == "/" + d.command.command && r.value.description == d.command.description
  {
    var annots := AnnotationsOf(d.signature);
    forall i | 0 <= i < |d.signature| ensures ParamAccepted(annots, None, i) <==> Spelled(d.signature[i]) {
      AcceptedIffSpelled(d.signature[i]);
    }
    BuildGrammar(d.command.command, d.command.description, annots, None, FlagsOf(d.signature))
  }

  /** Every variant can be compiled. */
  predicate AllCompile(vs: seq<CommandData>) {
    forall k :: 0 <= k < |vs| ==> Compile(vs[k]).Success?
  }

  /** The usage line of a variant's grammar; a variant that does not compile has none (the
      processor has failed before it asks). */
  function UsageOf(d: CommandData, formatUsage: Grammar -> string): string {
    match Compile(d)
    case Success(g) => formatUsage(g)
    case Failure(_) => ""
  }

  /** The compiled variants of one group. */
  function Compiled(group: seq<CommandData>, formatUsage: Grammar -> string): (r: seq<Variant>)
    ensures |r| == |group|
    ensures forall k :: 0 <= k < |group| ==> r[k] == Variant(group[k].command, UsageOf(group[k], formatUsage))
  {
    seq(|group|, k requires 0 <= k < |group| => Variant(group[k].command, UsageOf(group[k], formatUsage)))
  }

  /** The merged entry of the group under `name`. */
  function Merged(groups: OrderedMap<string, seq<CommandData>>, formatUsage: Grammar -> string, name: string)
    : Option<Document>
  {
    ProcessCommand(Compiled(Get(groups, name).GetOr([]), formatUsage))
  }

  /** `command != null && !command.isEmpty()`. */
  function CommandKept(groups: OrderedMap<string, seq<CommandData>>, formatUsage: Grammar -> string): string -> bool {
    name => Merged(groups, formatUsage, name).Some? && |Merged(groups, formatUsage, name).value| > 0
  }

  function CommandPair(groups: OrderedMap<string, seq<CommandData>>, formatUsage: Grammar -> string)
    : string -> (string, Node)
  {
    name => (name, Mapping(Merged(groups, formatUsage, name).GetOr([])))
  }

  /** The `commands` map built from the groups of `vs`: one entry per command name, in
      first-seen order. */
  function CommandsMap(vs: seq<CommandData>, formatUsage: Grammar -> string): (r: Document)
    ensures Keys(r) == Dedupe(Names(vs))
    ensures |r| == 0 <==> |vs| == 0
  {
    var groups := Group(vs);
    CommandsMapKeys(vs, formatUsage);
    FromPairs(FilterMap(Keys(groups), CommandKept(groups, formatUsage), CommandPair(groups, formatUsage)))
  }

  /** A seen name is kept, under its own name, with the merge of its group. */
  lemma CommandEntryAt(vs: seq<CommandData>, formatUsage: Grammar -> string, name: string)
    requires name in Keys(Group(vs))
    ensures CommandKept(Group(vs), formatUsage)(name)
    ensures ProcessCommand(Compiled(Filter(vs, name), formatUsage)).Some? &&
            CommandPair(Group(vs), formatUsage)(name) ==
              (name, Mapping(ProcessCommand(Compiled(Filter(vs, name), formatUsage)).value))
  {
    GroupNonEmpty(vs, name);
    assert Merged(Group(vs), formatUsage, name) == ProcessCommand(Compiled(Filter(vs, name), formatUsage));
  }

  lemma CommandsMapKeys(vs: seq<CommandData>, formatUsage: Grammar -> string)
    ensures var groups := Group(vs);
            Keys(FromPairs(FilterMap(Keys(groups), CommandKept(groups, formatUsage), CommandPair(groups, formatUsage))))
            == Dedupe(Names(vs))
    ensures |Dedupe(Names(vs))| == 0 <==> |vs| == 0
  {
    if |vs| > 0 {
      assert Names(vs)[0] in Dedupe(Names(vs));
    }
    var groups := Group(vs);
    var names := Keys(groups);
    var keep := CommandKept(groups, formatUsage);
    var f := CommandPair(groups, formatUsage);
    forall i | 0 <= i < |names| ensures keep(names[i]) && f(names[i]).0 == names[i] {
      CommandEntryAt(vs, formatUsage, names[i]);
    }
    FilterMapKeyed(names, keep, f);
    FromPairsKeys(FilterMap(names, keep, f));
    DedupeDistinct(names);
  }

  /** Each seen name is paired under itself, so the pairs have distinct keys. */
  lemma CommandPairsDistinct(vs: seq<CommandData>, formatUsage: Grammar -> string)
    ensures DistinctKeys(Keys(Group(vs)), CommandPair(Group(vs), formatUsage))
  {
    var names := Keys(Group(vs));
    var f := CommandPair(Group(vs), formatUsage);
    forall a, b | 0 <= a < b < |names| ensures f(names[a]).0 != f(names[b]).0 {
      CommandEntryAt(vs, formatUsage, names[a]);
      CommandEntryAt(vs, formatUsage, names[b]);
    }
  }

  /** Every command name's entry is the merge of all its variants. */
  lemma CommandsMapLookup(vs: seq<CommandData>, formatUsage: Grammar -> string, name: string)
    requires name in Keys(CommandsMap(vs, formatUsage))
    ensures ProcessCommand(Compiled(Filter(vs, name), formatUsage)).Some?
    ensures Get(CommandsMap(vs, formatUsage), name) ==
            Some(Mapping(ProcessCommand(Compiled(Filter(vs, name), formatUsage)).value))
  {
    var groups := Group(vs);
    var names := Keys(groups);
    var keep := CommandKept(groups, formatUsage);
    var f := CommandPair(groups, formatUsage);
    CommandPairsDistinct(vs, formatUsage);
    assert name in names;
    var i :| 0 <= i < |names| && names[i] == name;
    FilterMapLookup(names, keep, f, i);
    CommandEntryAt(vs, formatUsage, name);
  }

  /** The group of a seen name is not empty, so its merged entry exists and has `usage`. */
  lemma GroupNonEmpty(vs: seq<CommandData>, name: string)
    requires name in Keys(Group(vs))
    ensures Get(Group(vs), name) == Some(Filter(vs, name)) && |Filter(vs, name)| > 0
  {
    assert name in Names(vs);
    var i :| 0 <= i < |vs| && Names(vs)[i] == name;
    assert vs[i] in Filter(vs, name);
  }

  /** `processCommands`: the variants of every command, grouped by name in first-seen order and
      merged. Compiling a variant whose option has no spelling throws; nothing is produced when
      no method carries `@Command`. */
  function ProcessCommands(es: seq<Element>, formatUsage: Grammar -> string): (r: Result<Option<Document>, ConfigError>)
    ensures r.Failure? <==> !AllCompile(Variants(es))
    ensures r.Failure? ==> r.error == OptionNameMissing
    ensures r == Success(None) <==> |Variants(es)| == 0
    ensures r.Success? && r.value.Some? ==> r.value.value == CommandsMap(Variants(es), formatUsage)
    ensures r.Success? && r.value.Some? ==> |r.value.value| > 0
  {
    ProcessVariants(Variants(es), formatUsage)
  }

  /** The compile-then-group part of `processCommands`, on the variants in visiting order. */
  function ProcessVariants(vs: seq<CommandData>, formatUsage: Grammar -> string): (r: Result<Option<Document>, ConfigError>)
    ensures r.Failure? <==> !AllCompile(vs)
    ensures r.Failure? ==> r.error == OptionNameMissing
    ensures r == Success(None) <==> |vs| == 0
    ensures r.Success? && r.value.Some? ==> r.value.value == CommandsMap(vs, formatUsage)
    ensures r.Success? && r.value.Some? ==> |r.value.value| > 0
  {
    if !AllCompile(vs) then
      var k :| 0 <= k < |vs| && Compile(vs[k]).Failure?;
      Failure(Compile(vs[k]).error)
    else
      var commands := CommandsMap(vs, formatUsage);
      if |commands| == 0 then Success(None) else Success(Some(commands))
  }

  // ---------------------------------------------------------------------------------------
  // The manifest

  /** An element annotated with `@Plugin`: the main class's type name and the annotation. */
  datatype PluginElement = PluginElement(typeName: string, plugin: Plugin)

  /** The keys about the plugin itself, up to and including `load`. */
  function HeaderFields(typeName: string, p: Plugin): seq<Field<string, Node>> {
    [Field(true, "main", Text(typeName)),
     Field(true, "name", Text(p.name)),
     Field(true, "version", Text(p.version)),
     Field(p.description != "", "description", Text(p.description)),
     Field(p.apiVersion != "", "api-version", Text(p.apiVersion)),
     Field(true, "load", Text(LoadStageName(p.loadStage)))]
  }

  /** `author` for exactly one author or `authors` for several, then the other optional strings
      and lists when not empty. */
  function CreditFields(p: Plugin): seq<Field<string, Node>> {
    [Field(|p.authors| == 1, "author", Text(if |p.authors| == 1 then p.authors[0] else "")),
     Field(|p.authors| > 1, "authors", List(p.authors)),
     Field(p.website != "", "website", Text(p.website)),
     Field(|p.depend| > 0, "depend", List(p.depend)),
     Field(p.prefix != "", "prefix", Text(p.prefix)),
     Field(|p.softDepend| > 0, "softdepend", List(p.softDepend)),
     Field(|p.loadBefore| > 0, "loadbefore", List(p.loadBefore))]
  }

  /** The two generated sections, each put only when it has entries. */
  function SectionFields(permissions: Option<Document>, commands: Option<Document>): seq<Field<string, Node>> {
    [Field(permissions.Some? && |permissions.value| > 0, "permissions", Mapping(permissions.GetOr([]))),
     Field(commands.Some? && |commands.value| > 0, "commands", Mapping(commands.GetOr([])))]
  }

  function ManifestFields(typeName: string, p: Plugin, permissions: Option<Document>, commands: Option<Document>)
    : (fs: seq<Field<string, Node>>)
    ensures |fs| == 15
    ensures FieldKeys(fs) == ManifestKeys()
  {
    var header := HeaderFields(typeName, p);
    var credits := CreditFields(p);
    var sections := SectionFields(permissions, commands);
    assert FieldKeys(header) == ["main", "name", "version", "description", "api-version", "load"];
    assert FieldKeys(credits) == ["author", "authors", "website", "depend", "prefix", "softdepend", "loadbefore"];
    assert FieldKeys(sections) == ["permissions", "commands"];
    FieldKeysAppend(header, credits);
    FieldKeysAppend(header + credits, sections);
    header + credits + sections
  }

  /** Every key the manifest can hold, in the order `process` considers them. */
  function ManifestKeys(): (r: seq<string>)
    ensures Distinct(r)
  {
    ["main", "name", "version", "description", "api-version", "load", "author", "authors",
     "website", "depend", "prefix", "softdepend", "loadbefore", "permissions", "commands"]
  }

  /** `process`: no manifest unless exactly one element carries `@Plugin`; otherwise the plugin's
      keys, then `permissions` and `commands` when they have entries. A command whose grammar
      cannot be compiled aborts processing. */
  function Process(plugins: seq<PluginElement>, es: seq<Element>, formatUsage: Grammar -> string)
    : (r: Result<Option<Document>, ConfigError>)
    ensures |plugins| != 1 ==> r == Success(None)
    ensures |plugins| == 1 ==> (r.Failure? <==> !AllCompile(Variants(es)))
    ensures r.Failure? ==> r.error == OptionNameMissing
    ensures |plugins| == 1 && r.Success? ==> r.value == Some(Manifest(plugins[0], ProcessCommands(es, formatUsage).value))
  {
    if |plugins| != 1 then Success(None)
    else
      match ProcessCommands(es, formatUsage)
      case Failure(e) => Failure(e)
      case Success(commands) => Success(Some(Manifest(plugins[0], commands)))
  }

  /** The manifest document `process` builds for its single plugin element. */
  function Manifest(plugin: PluginElement, commands: Option<Document>): (r: Document)
    ensures WellFormed(r)
  {
    Fields(ManifestFields(plugin.typeName, plugin.plugin, ProcessPermissions(plugin.plugin.permissions), commands))
  }

  /** Looking up one of the plugin's own keys in the manifest. */
  lemma HeaderLookup(plugin: PluginElement, commands: Option<Document>, i: nat)
    requires i < 6
    ensures var fl := HeaderFields(plugin.typeName, plugin.plugin)[i];
            Get(Manifest(plugin, commands), fl.key) == if fl.present then Some(fl.value) else None
  {
    var fs := ManifestFields(plugin.typeName, plugin.plugin, ProcessPermissions(plugin.plugin.permissions), commands);
    FieldLookup(fs, i);
  }

  /** Looking up one of the credit keys in the manifest. */
  lemma CreditLookup(plugin: PluginElement, commands: Option<Document>, i: nat)
    requires i < 7
    ensures var fl := CreditFields(plugin.plugin)[i];
            Get(Manifest(plugin, commands), fl.key) == if fl.present then Some(fl.value) else None
  {
    var fs := ManifestFields(plugin.typeName, plugin.plugin, ProcessPermissions(plugin.plugin.permissions), commands);
    FieldLookup(fs, 6 + i);
  }

  /** The keys about the plugin itself: `main`, `name`, `version` and `load` always, the
      description and API version when not empty. */
  lemma ManifestHeader(plugin: PluginElement, commands: Option<Document>)
    ensures var doc := Manifest(plugin, commands);
            var p := plugin.plugin;
            && Get(doc, "main") == Some(Text(plugin.typeName))
            && Get(doc, "name") == Some(Text(p.name))
            && Get(doc, "version") == Some(Text(p.version))
            && Get(doc, "description") == (if p.description != "" then Some(Text(p.description)) else None)
            && Get(doc, "api-version") == (if p.apiVersion != "" then Some(Text(p.apiVersion)) else None)
            && Get(doc, "load") == Some(Text(LoadStageName(p.loadStage)))
  {
    HeaderLookup(plugin, commands, 0);
    HeaderLookup(plugin, commands, 1);
    HeaderLookup(plugin, commands, 2);
    HeaderLookup(plugin, commands, 3);
    HeaderLookup(plugin, commands, 4);
    HeaderLookup(plugin, commands, 5);
  }

  /** `author` for exactly one author, `authors` for several, and the other optional strings
      and lists when not empty. */
  lemma ManifestCredits(plugin: PluginElement, commands: Option<Document>)
    ensures var doc := Manifest(plugin, commands);
            var p := plugin.plugin;
            && Get(doc, "author") == (if |p.authors| == 1 then Some(Text(p.authors[0])) else None)
            && Get(doc, "authors") == (if |p.authors| > 1 then Some(List(p.authors)) else None)
            && Get(doc, "website") == (if p.website != "" then Some(Text(p.website)) else None)
            && Get(doc, "depend") == (if |p.depend| > 0 then Some(List(p.depend)) else None)
            && Get(doc, "prefix") == (if p.prefix != "" then Some(Text(p.prefix)) else None)
            && Get(doc, "softdepend") == (if |p.softDepend| > 0 then Some(List(p.softDepend)) else None)
            && Get(doc, "loadbefore") == (if |p.loadBefore| > 0 then Some(List(p.loadBefore)) else None)
  {
    CreditLookup(plugin, commands, 0);
    CreditLookup(plugin, commands, 1);
    CreditLookup(plugin, commands, 2);
    CreditLookup(plugin, commands, 3);
    CreditLookup(plugin, commands, 4);
    CreditLookup(plugin, commands, 5);
    CreditLookup(plugin, commands, 6);
  }

  /** `permissions` when some permission is listed, `commands` when the commands map has
      entries. */
  lemma ManifestSections(plugin: PluginElement, commands: Option<Document>)
    ensures var doc := Manifest(plugin, commands);
            var ps := plugin.plugin.permissions;
            && Get(doc, "permissions") ==
               (if exists i :: 0 <= i < |ps| && Listed(ps[i]) then Some(Mapping(ProcessPermissions(ps).value)) else None)
            && Get(doc, "commands") ==
               (if commands.Some? && |commands.value| > 0 then Some(Mapping(commands.value)) else None)
  {
    var fs := ManifestFields(plugin.typeName, plugin.plugin, ProcessPermissions(plugin.plugin.permissions), commands);
    FieldLookup(fs, 13);
    FieldLookup(fs, 14);
  }

  /** The keys of the manifest: exactly the present ones, in the order `process` puts them
      (the plugin's own keys, then the credits, then the two sections). */
  lemma ManifestKeyOrder(plugin: PluginElement, commands: Option<Document>)
    ensures var p := plugin.plugin;
            Keys(Manifest(plugin, commands)) ==
              (["main", "name", "version"] +
               (if p.description != "" then ["description"] else []) +
               (if p.apiVersion != "" then ["api-version"] else []) +
               ["load"]) +
              ((if |p.authors| == 1 then ["author"] else []) +
               (if |p.authors| > 1 then ["authors"] else []) +
               (if p.website != "" then ["website"] else []) +
               (if |p.depend| > 0 then ["depend"] else []) +
               (if p.prefix != "" then ["prefix"] else []) +
               (if |p.softDepend| > 0 then ["softdepend"] else []) +
               (if |p.loadBefore| > 0 then ["loadbefore"] else [])) +
              ((if exists i :: 0 <= i < |p.permissions| && Listed(p.permissions[i]) then ["permissions"] else []) +
               (if commands.Some? && |commands.value| > 0 then ["commands"] else []))
  {
    var p := plugin.plugin;
    ManifestPresentKeys(plugin, commands);
    HeaderKeys(plugin.typeName, p);
    CreditKeys(p);
    SectionKeys(p.permissions, commands);
  }

  /** The manifest's keys are the present keys of its three parts, part by part. */
  lemma ManifestPresentKeys(plugin: PluginElement, commands: Option<Document>)
    ensures Keys(Manifest(plugin, commands)) ==
              PresentKeys(HeaderFields(plugin.typeName, plugin.plugin)) +
              PresentKeys(CreditFields(plugin.plugin)) +
              PresentKeys(SectionFields(ProcessPermissions(plugin.plugin.permissions), commands))
  {
    var p := plugin.plugin;
    var fs := ManifestFields(plugin.typeName, p, ProcessPermissions(p.permissions), commands);
    FieldsKeys(fs);
    PresentKeysOfParts(HeaderFields(plugin.typeName, p), CreditFields(p),
                       SectionFields(ProcessPermissions(p.permissions), commands));
  }

  lemma SectionKeys(ps: seq<Permission>, commands: Option<Document>)
    ensures PresentKeys(SectionFields(ProcessPermissions(ps), commands)) ==
              (if exists i :: 0 <= i < |ps| && Listed(ps[i]) then ["permissions"] else []) +
              (if commands.Some? && |commands.value| > 0 then ["commands"] else [])
  {
    PresentKeysOfTwo(SectionFields(ProcessPermissions(ps), commands));
  }

  lemma HeaderKeys(typeName: string, p: Plugin)
    ensures PresentKeys(HeaderFields(typeName, p)) ==
              ["main", "name", "version"] +
              (if p.description != "" then ["description"] else []) +
              (if p.apiVersion != "" then ["api-version"] else []) +
              ["load"]
  {
    var fs := HeaderFields(typeName, p);
    assert fs == fs[..3] + fs[3..];
    PresentKeysAppend(fs[..3], fs[3..]);
    PresentKeysOfThree(fs[..3]);
    PresentKeysOfThree(fs[3..]);
  }

  lemma CreditKeys(p: Plugin)
    ensures PresentKeys(CreditFields(p)) ==
              (if |p.authors| == 1 then ["author"] else []) +
              (if |p.authors| > 1 then ["authors"] else []) +
              (if p.website != "" then ["website"] else []) +
              (if |p.depend| > 0 then ["depend"] else []) +
              (if p.prefix != "" then ["prefix"] else []) +
              (if |p.softDepend| > 0 then ["softdepend"] else []) +
              (if |p.loadBefore| > 0 then ["loadbefore"] else [])
  {
    var fs := CreditFields(p);
    assert fs == fs[..5] + fs[5..];
    PresentKeysAppend(fs[..5], fs[5..]);
    CreditKeysFront(p);
    CreditKeysBack(p);
  }

  lemma CreditKeysFront(p: Plugin)
    ensures PresentKeys(CreditFields(p)[..5]) ==
              (if |p.authors| == 1 then ["author"] else []) +
              (if |p.authors| > 1 then ["authors"] else []) +
              (if p.website != "" then ["website"] else []) +
              (if |p.depend| > 0 then ["depend"] else []) +
              (if p.prefix != "" then ["prefix"] else [])
  {
    PresentKeysOfFive(CreditFields(p)[..5]);
  }

  lemma CreditKeysBack(p: Plugin)
    ensures PresentKeys(CreditFields(p)[5..]) ==
              (if |p.softDepend| > 0 then ["softdepend"] else []) +
              (if |p.loadBefore| > 0 then ["loadbefore"] else [])
  {
    PresentKeysOfTwo(CreditFields(p)[5..]);
  }
}

=== FILE: seqs.dfy ===
/** Sequence helpers shared by the command model and the manifest model. */
module Seqs {

  predicate Distinct<T(==)>(xs: seq<T>) {
    forall i, j :: 0 <= i < j < |xs| ==> xs[i] != xs[j]
  }

  /** Appends `x` unless it is already present: the key order of an insertion-ordered map. */
  function AddIfAbsent<T(==,!new)>(xs: seq<T>, x: T): (r: seq<T>)
    ensures Distinct(xs) ==> Distinct(r)
    ensures forall y :: y in r <==> y in xs || y == x
  {
    if x in xs then xs else xs + [x]
  }

  /** The distinct elements of `xs` in the order in which they are first seen. */
  function Dedupe<T(==,!new)>(xs: seq<T>): (r: seq<T>)
    ensures Distinct(r)
    ensures forall x :: x in r <==> x in xs
    decreases |xs|
  {
    if |xs| == 0 then [] else AddIfAbsent(Dedupe(xs[..|xs| - 1]), xs[|xs| - 1])
  }

  /** Dropping the last element of a repeat-free sequence leaves one without repeats that
      does not contain that element. */
  lemma DistinctInit<T>(xs: seq<T>)
    requires Distinct(xs) && |xs| > 0
    ensures Distinct(xs[..|xs| - 1]) && xs[|xs| - 1] !in xs[..|xs| - 1]
  {
    var init := xs[..|xs| - 1];
    forall i, j | 0 <= i < j < |init| ensures init[i] != init[j] {
      assert init[i] == xs[i] && init[j] == xs[j];
    }
    forall i | 0 <= i < |init| ensures init[i] != xs[|xs| - 1] {
      assert init[i] == xs[i];
    }
  }

  /** A sequence without repeats is its own de-duplication. */
  lemma {:induction false} DedupeDistinct<T(!new)>(xs: seq<T>)
    requires Distinct(xs)
    ensures Dedupe(xs) == xs
    decreases |xs|
  {
    if |xs| > 0 {
      var init := xs[..|xs| - 1];
      var x := xs[|xs| - 1];
      DistinctInit(xs);
      DedupeDistinct(init);
      calc {
        Dedupe(xs);
        AddIfAbsent(Dedupe(init), x);
        AddIfAbsent(init, x);
        init + [x];
        xs;
      }
    }
  }

  /** First-seen order: wherever a later element of `Dedupe(xs)` occurs in `xs`, every
      earlier element of `Dedupe(xs)` has already occurred. */
  lemma {:induction false} DedupeFirstSeenOrder<T(!new)>(xs: seq<T>)
    ensures forall i, j, q :: 0 <= i < j < |Dedupe(xs)| && 0 <= q < |xs| && xs[q] == Dedupe(xs)[j]
                              ==> Dedupe(xs)[i] in xs[..q]
    decreases |xs|
  {
    if |xs| > 0 {
      var init := xs[..|xs| - 1];
      var x := xs[|xs| - 1];
      var d := Dedupe(init);
      DedupeFirstSeenOrder(init);
      var r := Dedupe(xs);
      forall i, j, q | 0 <= i < j < |r| && 0 <= q < |xs| && xs[q] == r[j]
        ensures r[i] in xs[..q]
      {
        if q < |init| {
          assert xs[..q] == init[..q];
          assert init[q] == r[j];
          assert j < |d| by {
            if x !in d {
              assert r[j] in init;
            }
          }
          assert r[i] == d[i] && r[j] == d[j];
        } else {
          assert xs[..q] == init;
          assert r[i] in d;
        }
      }
    }
  }

  /** `Collectors.joining(sep)`: the parts with `sep` between consecutive ones. */
  function Join(parts: seq<string>, sep: string): (r: string)
    ensures |parts| > 0 ==> parts[0] <= r
    ensures |parts| > 0 ==> |r| == JoinedLength(parts) + (|parts| - 1) * |sep|
    ensures |parts| == 0 ==> r == ""
    decreases |parts|
  {
    if |parts| == 0 then ""
    else if |parts| == 1 then parts[0]
    else
      var front := Join(parts[..|parts| - 1], sep);
      assert parts[..|parts| - 1][0] == parts[0];
      assert (front + sep + parts[|parts| - 1])[..|parts[0]|] == front[..|parts[0]|];
      front + sep + parts[|parts| - 1]
  }

  /** Sum of the lengths of the parts. */
  function JoinedLength(parts: seq<string>): nat
    decreases |parts|
  {
    if |parts| == 0 then 0 else JoinedLength(parts[..|parts| - 1]) + |parts[|parts| - 1]|
  }

  /** With a non-empty separator, a join is empty exactly when it joins nothing or one empty part. */
  lemma JoinEmptyIff(parts: seq<string>, sep: string)
    requires |sep| > 0
    ensures Join(parts, sep) == "" <==> |parts| == 0 || (|parts| == 1 && parts[0] == "")
  {
    if |parts| > 1 {
      var n := |parts| - 1;
      assert n * |sep| >= |sep| by {
        assert n >= 1;
      }
      assert |Join(parts, sep)| == JoinedLength(parts) + n * |sep|;
    }
  }

  /** `x` occurs as a contiguous piece of `t`. */
  ghost predicate Occurs(x: string, t: string) {
    exists i, j :: 0 <= i <= j <= |t| && t[i..j] == x
  }

  /** Every part can be found in the joined string. */
  lemma {:induction false} JoinContainsEachPart(parts: seq<string>, sep: string, x: string)
    requires x in parts
    ensures Occurs(x, Join(parts, sep))
    decreases |parts|
  {
    var t := Join(parts, sep);
    if |parts| == 1 {
      assert t[0..|t|] == x;
    } else {
      var init := parts[..|parts| - 1];
      var last := parts[|parts| - 1];
      var front := Join(init, sep);
      assert t == front + sep + last;
      if x == last {
        assert t[|front| + |sep|..|t|] == x;
      } else {
        assert x in init;
        JoinContainsEachPart(init, sep, x);
        var i, j :| 0 <= i <= j <= |front| && front[i..j] == x;
        assert t[i..j] == front[i..j];
      }
    }
  }

  /** The non-empty strings of `xs`, in order (a stream `filter(d -> !d.isEmpty())`). */
  function NonEmpty(xs: seq<string>): (r: seq<string>)
    ensures forall s :: s in r <==> s in xs && s != ""
    ensures |r| <= |xs|
    decreases |xs|
  {
    if |xs| == 0 then []
    else if xs[|xs| - 1] == "" then NonEmpty(xs[..|xs| - 1])
    else NonEmpty(xs[..|xs| - 1]) + [xs[|xs| - 1]]
  }

  /** Filtering keeps order: the filter of a concatenation is the concatenation of the filters,
      and a single string survives exactly when it is non-empty. */
  lemma {:induction false} NonEmptyAppend(a: seq<string>, b: seq<string>)
    ensures NonEmpty(a + b) == NonEmpty(a) + NonEmpty(b)
    ensures forall s :: NonEmpty([s]) == if s == "" then [] else [s]
    decreases |b|
  {
    forall s ensures NonEmpty([s]) == if s == "" then [] else [s] {
      assert [s][..0] == [];
    }
    if |b| > 0 {
      var front := b[..|b| - 1];
      assert (a + b)[..|a + b| - 1] == a + front;
      NonEmptyAppend(a, front);
    } else {
      assert a + b == a;
    }
  }

  /** A stream `allMatch(x -> x.equals(xs.get(0)))`. */
  predicate AllAgree<T(==)>(xs: seq<T>)
    requires |xs| > 0
  {
    forall i :: 0 <= i < |xs| ==> xs[i] == xs[0]
  }
}

=== FILE: wrappers.dfy ===
/** Failure-compatible sums used throughout the model: Java's null becomes `None`,
    a thrown exception becomes `Failure`. */
module Wrappers {

  datatype Option<+T> = None | Some(value: T) {

    /** The wrapped value, or `default` when there is none. */
    function GetOr(default: T): T {
      match this
      case Some(v) => v
      case None => default
    }
  }

  datatype Result<+T, +E> = Success(value: T) | Failure(error: E) {

    predicate IsFailure() {
      Failure?
    }

    function PropagateFailure<U>(): Result<U, E>
      requires Failure?
    {
      Failure(error)
    }

    function Extract(): T
      requires Success?
    {
      value
    }
  }
}
